=== FILE: README.md ===
# py-video-player, modelled in Dafny

A desktop video player built from a Qt window and the mpv engine. Its core
can be stated without the GUI, and this project models that core as pure
functions over immutable records:

- **playback session** (`player.dfy`): the three-state loop cycle, filtering of end-of-file events, resuming a saved position, saving the position when a file changes, chapter stepping, the order of operations when a file loads, and the property observers;
- **library and window routing** (`library.dfy`, `mainwindow.dfy`): the playlist table with its per-URL stream cache, next/previous with wrap-around, multi-row removal, the thumbnail request queue, routing "playback finished" to the next row or the library, opening network streams, and keyboard dispatch;
- **pure text and data functions**:
  - `format_time` (`utils.dfy`);
  - yt-dlp format classification and the bandwidth sort (`streamextractor.dfy`);
  - the overlay's chapter lookup, track and chapter menus, bitrate branch, loop button and seek bar (`overlay.dfy`);
  - thumbnail cache naming and the worker's decision tree (`thumbnailworker.dfy`);
  - the shortcut help HTML (`keymanager.dfy`);
- **keyed stores**: playback positions and the last directory as a settings map (`persistence.dfy`), and the theme selection (`themes.dfy`).

Supporting modules:

- `py.dfy`: Python's `Option` and the three states of `dict.get` (key absent, key present with `None`, value present), plus truthiness.
- `strings.dfy`: `str(int)`, `f"{n:02d}"`, `str.join`, and the ASCII parts of `upper`/`lower`/`isalnum`.
- `paths.dfy`: `pathlib` name and parent on POSIX paths.
- `engine.dfy`: the commands the player sends to mpv.

The engine, the dialogs, yt-dlp, the filesystem and `hash()` are parameters:
- engine readings such as `time_pos` and `duration`;
- the user's answer to a dialog;
- the extraction result;
- whether a file exists.

Each handler returns the new state together with the commands and signals it issued, in order.

## Notes on the code

- **Shutdown.** The engine is stopped and quit inside one `try` (player_widget.py), so a failing stop skips the quit; the engine is terminated either way. `Player.Shutdown` states both sequences.
- **Thumbnails.** The worker sends every path, local files included, through yt-dlp (thumbnail_worker.py).
- **Stale thumbnail rows.** A thumbnail result names a row by index. Once rows have been removed, it overwrites whatever row now has that index. `Library.LateThumbnailLandsOnNeighbour` shows this.
- **Present `None` values.** `dict.get(key, default)` returns `None`, not the default, when the key is present with the value `None`. The model keeps such keys apart from missing ones for 'tbr', 'format_note', 'language', 'title' and 'formats'. A stream can therefore be named "🔊 medium [None]", and a stream's title can be `None`; `StreamExtractor.PresentNoneIsNotMissing` shows both. The other keys (the shortcut entries' fields, and the chapter and track entries the engine reports) are read as a plain `Option`, where a missing key and `None` behave alike: no shipped shortcut entry and no engine reading has a present `None` there.

## Model

| member | source | states |
|---|---|---|
| Utils.ClockFields | utils.py:8-9 | the hours, minutes and seconds recombine to the whole seconds, with minutes and seconds below 60 |
| Utils.FormatTime | utils.py:3-15 | `None`, negative, NaN and infinite inputs give "--:--"; under an hour the text is "MM:SS" (5 characters); from an hour on it has two colons in HH:MM:SS position |
| Utils.FormatTimeRoundTrip | utils.py:8-13 | reading the clock text back gives the truncated whole seconds |
| Strings.IntToString | thumbnail_worker.py:55-57 | `str(i)`: non-empty, no underscore, a leading '-' exactly for negatives, decimal digits otherwise |
| Strings.IntToStringInjective | thumbnail_worker.py:57 | different integers print differently, which keeps row numbers in cache names apart |
| Strings.Pad2 | utils.py:11-13 | `{n:02d}`: at least two digits, exactly two below 100, reading back to `n` |
| Strings.FilterAlnumFixpoint | thumbnail_worker.py:53 | filtering to alphanumerics leaves a string unchanged exactly when it is all alphanumeric |
| Strings.FilterAlnumAppend | thumbnail_worker.py:53 | the kept characters stay in order, piece by piece |
| Paths.Name | library_widget.py:104-107 | `Path(p).name` is empty or a single path component |
| Paths.ChildNameAndParent | persistence_manager.py:22-23 | for `dir/name`, the name is `name` and the parent is `dir` as pathlib prints it |
| Persistence.SavePlaybackPosition | persistence_manager.py:31-41 | an empty path or `None` time writes nothing; otherwise only the position key of that path is set, to the time |
| Persistence.LoadPlaybackPosition | persistence_manager.py:43-57 | an empty path, an unknown path or text that is not a plain signed decimal loads 0.0; a stored number, or such decimal text, loads as its value |
| Persistence.SaveLoadRoundTrip | persistence_manager.py:31-57 | saving a time for a path and loading it gives the time back |
| Persistence.SaveLeavesOthers | persistence_manager.py:37-40 | saving one path leaves every other path's position unchanged |
| Persistence.SaveLeavesLastOpenPath | persistence_manager.py:31-41 | saving a playback position never changes the remembered directory |
| Persistence.PositionKeyInjective | persistence_manager.py:37-39 | different paths use different keys in the positions group |
| Persistence.SaveLastOpenPath | persistence_manager.py:19-25 | only the last-directory key changes |
| Persistence.LoadLastOpenPath | persistence_manager.py:27-29 | with nothing stored the last directory is "" |
| Persistence.LastOpenPathIsDirectory | persistence_manager.py:19-29 | after opening `dir/name` the remembered directory is `dir` |
| Persistence.LastOpenPathLeavesPositions | persistence_manager.py:19-25 | remembering a directory changes no saved position |
| Themes.ThemeNames | theme_manager.py:20-22 | the theme names in table order |
| Themes.ApplyTheme | theme_manager.py:24-33 | an unknown name falls back to "Nord Dark"; afterwards the current theme is a table key and is what is stored, and no other setting changes |
| Themes.Init | theme_manager.py:9-17 | a stored known theme is restored, and anything else starts "Nord Dark" |
| Themes.ApplyThemeIdempotent | theme_manager.py:24-33 | applying a name twice is the same as applying it once |
| Themes.InitRestoresAppliedTheme | theme_manager.py:9-33 | a restart comes back to the theme last applied |
| Themes.ApplyThemeKeepsPositions | theme_manager.py:33 | applying a theme changes no saved playback position |
| KeyManager.BuildShortcutText | key_manager.py:36-50 | the loop over groups and shortcuts builds exactly the concatenation of one block per group |
| KeyManager.ShortcutTextAppend | key_manager.py:41-50 | the text of two group lists is the text of each, joined with nothing between |
| KeyManager.BlockOrder | key_manager.py:42-49 | each group's block is "<h2>category</h2><p>", its lines, then "</p>", following the blocks of the earlier groups |
| KeyManager.LineOrder | key_manager.py:44-48 | each shortcut's line follows the lines before it, in list order |
| KeyManager.ShortcutShownInItsBlock | key_manager.py:42-49 | each shortcut's line sits in the dialog text right after its group's heading and the lines before it, showing "N/A" for a missing display and "No description" for a missing description |
| KeyManager.ShippedShortcutsComplete | key_manager.py:42-48 | every shipped shortcut has both texts, so neither default is shown |
| StreamExtractor.Classify | stream_extractor.py:28-52 | no more streams come out than formats went in |
| StreamExtractor.ClassifyMembership | stream_extractor.py:28-52 | a format with a URL and a video codec becomes a video stream; one with a URL, an audio codec and no video codec becomes an audio stream; nothing else is produced |
| StreamExtractor.ClassifyAppend | stream_extractor.py:28-52 | a format reported last adds its stream at the end of its own list and leaves every earlier stream in place, so both lists follow report order |
| StreamExtractor.VideoAndAudioDisjoint | stream_extractor.py:33-45 | no format is both a video and an audio stream |
| StreamExtractor.SortDescCorrect | stream_extractor.py:57 | the sort is a permutation, highest bandwidth first, and streams of equal bandwidth keep their order |
| StreamExtractor.GetAllStreamsAsWritten | stream_extractor.py:9-67 | there is no result exactly when extraction failed, 'formats' is `None`, or there are two or more video streams and one has a 'tbr' of `None` |
| StreamExtractor.GetAllStreams | stream_extractor.py:9-67 | a result exists exactly when extraction succeeded and 'formats' is not `None` (an absent list counts as empty); the title is the URL when 'title' is missing, `None` when it is present as `None`, and the given title otherwise; audio keeps source order; video is a permutation of the video formats |
| StreamExtractor.GetAllStreamsVideoOrder | stream_extractor.py:57 | the returned video streams are sorted by bandwidth, descending and stable |
| StreamExtractor.AsWrittenAgrees | stream_extractor.py:33-57 | where no sort comparison meets `None`, the code as written and the corrected reading agree |
| StreamExtractor.NullBandwidthLosesStreams | stream_extractor.py:33-67 | two video formats, one with 'tbr' `None`: as written every stream is lost, corrected both are kept |
| StreamExtractor.PresentNoneIsNotMissing | stream_extractor.py:35-60 | a 'language' present as `None` names an audio stream "[None]" and a missing one "[und]"; a 'format_note' of `None` names a video stream "None" and a missing one "resolution ext"; a 'title' of `None` gives a title of `None` and a missing one the URL |
| ThumbnailWorker.JoinPath | thumbnail_worker.py:50-57 | `os.path.join(a, b)` starts with `a`, ends with `b`, and adds at most one separator |
| ThumbnailWorker.SafeName | thumbnail_worker.py:53-55 | the safe name is non-empty and has no underscore; it is all alphanumeric, or it is the hash text |
| ThumbnailWorker.SafeNameOfPlainName | thumbnail_worker.py:53 | an alphanumeric file name is its own safe name |
| ThumbnailWorker.CachePath | thumbnail_worker.py:50-57 | the cache path ends in "{safe}_{row}.jpg" |
| ThumbnailWorker.CacheFileNameInjective | thumbnail_worker.py:57 | the safe name and the row can both be read back from a cache file name |
| ThumbnailWorker.CachePathPerRow | thumbnail_worker.py:57 | the same file at different rows gets different cache paths |
| ThumbnailWorker.CachePathCollision | thumbnail_worker.py:53-57 | "/a/clip-1.mp4" and "/b/clip1.mp4" share the cache path at row 0 |
| ThumbnailWorker.ReadMetadata | thumbnail_worker.py:108-125 | raises exactly when the width is `None`; the duration goes through `format_time`; the resolution is "WxH" exactly when the width is above 0, else "N/A" |
| ThumbnailWorker.ThumbnailUrl | thumbnail_worker.py:87-89 | a URL comes only from a non-empty thumbnails list |
| ThumbnailWorker.NewJob | thumbnail_worker.py:45-57 | the job keeps its path and row and uses the derived cache path |
| ThumbnailWorker.Run | thumbnail_worker.py:59-106 | exactly one outcome, tagged with the job's row; a cache hit is ready with the cached icon unless the fast lookup fails; no thumbnail URL gives ready with no icon; a download that leaves no file fails with "Thumbnail download failed."; an extraction error fails with its message; a `None` width fails with Python's comparison error text; a ready outcome carries exactly the duration and resolution read from the extracted information |
| ThumbnailWorker.RunMetadataAgrees | thumbnail_worker.py:59-85 | the cached and uncached paths report the same duration and resolution for the same information |
| Overlay.FindChapterForTime | overlay_widget.py:218-223 | the title ("Chapter" when missing) of the last chapter starting at or before the time, missing times counting as 0; none when no chapter qualifies |
| Overlay.FindChapterInSpan | overlay_widget.py:218-223 | for ascending starts, a time between chapter i's start and the next start finds chapter i |
| Overlay.LoopButtonText | overlay_widget.py:185-191 | "Loop: One" exactly for 'one', "Loop: All" exactly for 'all', "Loop: Off" for anything else |
| Overlay.FormatBitrate | overlay_widget.py:273-276 | none for a missing or non-positive rate; Mbps exactly above 1,000,000, else kbps; the amount is the rate scaled down |
| Overlay.BitrateBoundary | overlay_widget.py:275-276 | exactly 1,000,000 is shown in kbps |
| Overlay.VideoLabelStartsWithResolution | overlay_widget.py:302-305 | a video label begins with "[WxH]", using '?' for missing values |
| Overlay.LabelStartsWithName | overlay_widget.py:291-305 | other labels begin with the title or the "Audio/Subtitle #id" name |
| Overlay.SubtitleLabelIgnoresBitrate | overlay_widget.py:300 | a subtitle's bitrate never appears in its label |
| Overlay.EmptyTitleIsNoTitle | overlay_widget.py:293-297 | an empty title is treated as no title |
| Overlay.KindActionsShape | overlay_widget.py:290-314 | one action per track of the menu's kind, checked exactly when its id equals the current id, never carrying "no" |
| Overlay.UpdateTrackMenus | overlay_widget.py:277-315 | each menu is "None" (checked exactly when the current id is 'no'), a separator, then that kind's tracks in order |
| Overlay.TracksPartitioned | overlay_widget.py:306-314 | every track lands in exactly one menu, or in none when its type is not audio, sub or video |
| Overlay.NothingSelectedChecksNone | overlay_widget.py:281-314 | with current id 'no' only the "None" entry is checked |
| Overlay.Select | overlay_widget.py:316-326 | exactly the actions whose data equals the value end up checked; separators are untouched |
| Overlay.SelectLastWins | overlay_widget.py:324-326 | two selections in a row leave the state of the last one |
| Overlay.SelectRebuilt | overlay_widget.py:277-326 | selecting a value in a built menu equals building the menu with that value current |
| Overlay.UpdateTrackSelection | overlay_widget.py:316-326 | 'aid', 'sid' and 'vid' select in their menu; any other name changes nothing |
| Overlay.SetTrackAndUpdateMenu | overlay_widget.py:266-272 | the property is written only with an engine, and the menu is selected either way |
| Overlay.ChosenTrackReportedBack | overlay_widget.py:268-326 | choosing a track and then hearing it back from the engine gives the same menu |
| Overlay.UpdateChapterMenu | overlay_widget.py:335-354 | the chapter buttons show exactly when there are chapters; item i has data i and the label "title (start - end)", the title defaulting to "Chapter i+1" |
| Overlay.ChapterLabelsChain | overlay_widget.py:349-351 | a chapter's label ends at the start of the next chapter |
| Overlay.LastChapterEndsAtDuration | overlay_widget.py:350-351 | the last chapter's label ends at the video duration |
| Overlay.UpdateChapterSelection | overlay_widget.py:356-359 | exactly the item with the chapter's index is checked |
| Overlay.ChapterSelectionSingle | overlay_widget.py:335-359 | after a selection at most one chapter item is checked |
| Overlay.SetChapterAndUpdateMenu | overlay_widget.py:327-332 | the chapter property is written only with an engine, and the selection follows either way |
| Overlay.Trunc | overlay_widget.py:254-261 | `int(x)` truncates toward zero |
| Overlay.UpdateTime | overlay_widget.py:254-257 | while seeking the slider does not move; otherwise it takes the truncated time, or the minimum below the range, or the maximum above it; range and duration are unchanged; the label is "time / duration" |
| Overlay.UpdateDuration | overlay_widget.py:258-261 | the duration is stored and the maximum becomes its truncation; the minimum drops to the new maximum when above it; a value above the new maximum becomes the maximum, a value below the minimum becomes the minimum, any other value is kept |
| Overlay.SeekPress | overlay_widget.py:262 | pressing the slider starts seeking and changes nothing else |
| Overlay.SliderMoved | overlay_widget.py:254-265 | dragging sets the slider value to `v` inside the range, to the minimum below it and to the maximum above it |
| Overlay.SeekRelease | overlay_widget.py:263-265 | releasing ends seeking and keeps the value; a seek to the slider value is sent exactly when there is an engine |
| Overlay.UpdateTimesWhileSeeking | overlay_widget.py:256 | time updates during a drag never move the slider |
| Overlay.SeekGoesWhereDragged | overlay_widget.py:254-265 | the seek on release goes to where the slider was dragged, whatever times arrived meanwhile |
| Player.NewSession | player_widget.py:51-63 | a new session has no engine, loop off, nothing pending, no file and every track 'no' |
| Player.EnsureInitialized | player_widget.py:87-97 | the first call starts the engine; later calls change nothing |
| Player.EnsureInitializedOnce | player_widget.py:87-97 | initialising twice is initialising once |
| Player.CycleLoopState | player_widget.py:331-351 | no engine changes nothing; otherwise 0 goes to 1, 1 to 2 and 2 to 0; 'loop-file' is "inf" only in state 1; the new name is announced |
| Player.CycleLoopThreeTimes | player_widget.py:331-351 | three cycles restore the state |
| Player.LoopButtonFollowsState | player_widget.py:331-351 | the loop button shows the state just entered |
| Player.OnEndFileEvent | player_widget.py:183-208 | the end-of-file signal is emitted exactly for an end-file event with reason 0 |
| Player.StopIsNotEndOfFile | player_widget.py:196-206 | an end-file event with any other reason is ignored |
| Player.HandleEndFile | player_widget.py:222-230 | loop one emits nothing; otherwise "finished" is emitted, telling whether loop all is on |
| Player.FinishedReportsLoopAll | player_widget.py:222-230 | "finished(true)" exactly in loop all, "finished(false)" exactly with loop off |
| Player.OnPlaybackRestart | player_widget.py:210-219 | a pending position above 0 is sought to and cleared; pause is always released |
| Player.ResumeConsumedOnce | player_widget.py:210-219 | a second restart never seeks again |
| Player.CheckForResume | player_widget.py:384-407 | pending is reset first; loop all, no store or no file leaves it 0 and asks nothing; otherwise it is the saved time only when above 10 s and accepted |
| Player.SaveCurrentPosition | player_widget.py:409-420 | needs a store, an engine, a file and a time; near the end saves 0.0; above 10 s saves the time; otherwise writes nothing; other files are untouched |
| Player.ShortViewKeepsOldPosition | player_widget.py:416-420 | watching 10 s or less leaves the old saved position in place |
| Player.FinishedFileNotOffered | player_widget.py:384-420 | a file stopped near its end is not offered for resuming |
| Player.LoadFile | player_widget.py:354-382 | no engine does nothing; otherwise the previous file's position is saved, the new file becomes current and goes through the resume check, and the engine gets stop, play, each video track, then each audio track; the controls are shown when asked |
| Player.LoadOrder | player_widget.py:356-379 | stop comes first and play second, and every video track is added before any audio track |
| Player.LoadSavesPreviousFile | player_widget.py:354-420 | the position saved on a load is the previous file's |
| Player.LoadThenRestartResumes | player_widget.py:354-407 | a load of a file saved above 10 s, with the answer yes, seeks there on the first restart |
| Player.LoopAllNeverResumes | player_widget.py:384-390 | with loop all a load never asks about resuming |
| Player.NextChapter | player_widget.py:239-255 | asks for chapter current+1 exactly with an engine, chapters, and current below the last; never writes the current chapter |
| Player.PrevChapter | player_widget.py:257-272 | asks for chapter current-1 exactly with an engine, chapters, and current above 0 |
| Player.ChapterStepsInRange | player_widget.py:239-272 | a requested chapter always exists |
| Player.TrackIdText | player_widget.py:167-175 | `None` is 'no'; an integer id is its `str()`; a boolean is "True" or "False"; text passes through |
| Player.Observe | player_widget.py:149-181 | each observer emits one signal with the documented default; aid/sid/vid store their text; the chapter list defaults to [] and the chapter to 0, and the chapter signal carries the stored chapter |
| Player.ObservedChapterDrivesStepping | player_widget.py:179-272 | after the engine reports chapter c, the next button asks for c+1 and the previous button for c-1, whenever those chapters exist |
| Player.TrackListCarriesSelection | player_widget.py:156-169 | a track list reported after a track change carries the new selection |
| Player.UserCommand | player_widget.py:232-328 | each slot issues one command exactly when there is an engine; pause and mute write the negated state; seeks are 10 s forward and back; the volume is added by the given amount; the cycle slots name "sub", "audio" and "video" |
| Player.TogglesUndo | player_widget.py:232-301 | toggling pause twice, or mute twice, writes the original state back |
| Player.VolumeStepsCancel | player_widget.py:288-293 | adding an amount and then its negative cancel out |
| Player.SeeksCancel | player_widget.py:274-286 | a seek forward and a seek back cancel |
| Player.Shutdown | player_widget.py:422-436 | nothing without an engine; otherwise exactly stop, quit, terminate, or stop, terminate when the stop fails |
| Library.DisplayName | library_widget.py:104-107 | the given name, else the file name of an existing path, else the path itself |
| Library.AddFile | library_widget.py:97-139 | appends one row with "..." placeholders; caches the stream data when given; queues (path, new row); reports the new count; keeps the library's invariants |
| Library.AddAll | library_widget.py:94-95 | adding the picked files one by one keeps the old rows; each file gets a row titled by its file name (or its path when it does not exist) with "..." placeholders, and a thumbnail request for its row is queued; the cache, current row and workers are unchanged |
| Library.OpenAddFilesDialog | library_widget.py:85-95 | the dialog starts in the remembered directory; a cancelled or empty pick changes nothing; an accepted pick remembers the first file's directory and adds every file in order, as `Library.AddAll` states: old rows kept, new titled rows with placeholders, one queued request per new row, and cache, current row and workers unchanged |
| Library.ProcessPendingThumbnails | library_widget.py:141-145 | every queued request is started, in queue order, and the queue is emptied |
| Library.WorkerFor | library_widget.py:148-149 | the worker keeps the request's path and row |
| Library.OnThumbnailReady | library_widget.py:156-163 | sets the named row's icon and texts; a missing row changes nothing; no other row changes |
| Library.OnThumbnailFailed | library_widget.py:164-171 | the named row's texts read "Error"; a missing row changes nothing |
| Library.Deliver | library_widget.py:150-171 | a worker's outcome never changes the cache, the current row or any row's path or title |
| Library.Descending | library_widget.py:196-199 | the distinct selected rows, strictly descending |
| Library.CurrentAfterRemove | library_widget.py:210 | rows below move up; a removed current row passes to the row above (`r - 1`), or from the top row to row 0 when others remain, or to -1 when it was the only row |
| Library.RemoveRow | library_widget.py:202-210 | an existing row loses its cache entry and leaves the table, the current row moves as `CurrentAfterRemove` says, and a current row that stays is still current; a missing row changes nothing |
| Library.RemoveSelected | library_widget.py:194-212 | no selection does nothing and reports nothing; otherwise the new count is reported; the thumbnail queue and workers are untouched |
| Library.RemoveRowsKeepsTheRest | library_widget.py:196-210 | removing highest first removes exactly the listed rows, and the count drops by their number |
| Library.RemoveRowsForgetsTheirStreams | library_widget.py:196-207 | removing rows highest first drops the cached streams of exactly the removed rows' paths |
| Library.RemoveSelectedKeepsTheRest | library_widget.py:194-212 | after removal exactly the unselected rows remain, in order, and the cache is the old cache without the selected rows' paths |
| Library.RemovingADuplicateForgetsTheStream | library_widget.py:204-207 | removing one of two rows with the same URL drops the other's cached streams too |
| Library.ClearAll | library_widget.py:182-219 | no rows, no cache, no current row, no workers, count 0; the thumbnail queue is kept |
| Library.QueueSurvivesClear | library_widget.py:214-219 | a request queued before a clear still starts a worker afterwards |
| Library.LateThumbnailLandsOnNeighbour | library_widget.py:156-163 | with rows a, b, c and a worker started for b at row 1, removing a makes b's result decorate c while b keeps its placeholders |
| Library.PlayItem | library_widget.py:222-249 | no path plays nothing; otherwise the row becomes current; a cached stream plays its first video with its audio and the other videos; a cached stream without video plays nothing; anything else plays the path as a local file |
| Library.NextRow | library_widget.py:264-278 | the next row, or row 0 when looping a non-empty playlist at its end, else none |
| Library.PlayNext | library_widget.py:264-285 | no target does nothing; otherwise the target becomes current and is played |
| Library.HasNextMeansPlayNextMoves | library_widget.py:252-278 | `has_next_video` is true exactly when `play_next` has a target |
| Library.PreviousRow | library_widget.py:287-295 | the row above, wrapping to the last; none only for an empty table |
| Library.PlayPrevious | library_widget.py:287-299 | no target does nothing; otherwise the target becomes current and is played |
| Library.NextThenPrevious | library_widget.py:264-299 | stepping forward and then back returns to the start row, also across the wrap |
| Library.LoopAllWrapsToFirst | library_widget.py:252-274 | at the last row only loop all has a next row, and it is row 0 |
| MainWindow.OnPlaylistCountChanged | main_window.py:99-102 | the previous/next file buttons show exactly when there is more than one row; nothing else changes |
| MainWindow.ToggleFullscreenWindow | main_window.py:159-173 | the window flips between fullscreen and normal, and nothing else in the model changes |
| MainWindow.Route | library_widget.py:247-249 | a play request from the library goes to `play_file_and_switch` with its path and tracks; no request does nothing |
| MainWindow.SwitchToLibrary | main_window.py:127-136 | hide the controls, save, stop, show the library, and leave fullscreen if it was on; without an engine the stop raises after the save |
| MainWindow.LoadEffectsCommands | player_widget.py:354-382 | the engine commands of a load are stop, play, each video track, then each audio track |
| MainWindow.PlayFileAndSwitch | main_window.py:114-124 | no path only switches to the library; otherwise, with an engine, the position is saved, the engine stopped, resuming asked about, the file played with its tracks and the controls shown, all before the player view is shown; without an engine only the view changes |
| MainWindow.PlayFileAndSwitchIssuesLoadCommands | main_window.py:114-124 | the engine commands the window issues are exactly those of loading the file into the player |
| MainWindow.PlayRowAndRoute | library_widget.py:222-249 | playing a row makes it current and, when it has a play request, shows the player and sends the engine stop, play and the row's tracks; with no request nothing happens |
| MainWindow.OnPlaybackFinished | main_window.py:104-112 | loop all plays the next row; otherwise the window switches to the library |
| MainWindow.LoopAllKeepsPlaying | main_window.py:104-109 | with loop all and playable rows the window stays in the player view |
| MainWindow.NextFileButton | main_window.py:62-64 | without a next row the button does nothing; otherwise the row after the current one is played as if picked, never wrapping |
| MainWindow.PreviousFileButton | main_window.py:61 | on an empty library the button does nothing; otherwise the row above the current one, or the last row from the top, is played as if picked |
| MainWindow.OpenNetworkStream | main_window.py:138-157 | a cancelled or empty URL does nothing; no result or no video only warns; otherwise a row keyed by the URL is added and its streams cached; the row shows the extracted title, or, when that is `None`, the name `add_file` gives a path, the buttons follow the count, and the player view is shown; with an engine the first video stream's URL becomes the current file and the engine gets stop, play, the other video streams and the audio streams |
| MainWindow.NetworkRowReplaysTheSameStreams | main_window.py:149-157 | picking the stream's row later requests the first video stream with the same audio and other videos, and sends the engine the same commands it got when the stream was opened |
| MainWindow.CloseEvent | main_window.py:192-197 | the position is saved first, then the engine is shut down |
| MainWindow.CloseKeepsResumePoint | main_window.py:192-197 | closing after watching past 10 s, away from the end, keeps that time to resume from |
| MainWindow.KeyPressAsWritten | main_window.py:199-228 | a focused input widget gets the key; Space toggles pause, F toggles fullscreen, Right seeks forward and Esc in fullscreen leaves it from the player view; every other key raises `NameError` for `QtKey` |
| MainWindow.KeyPress | main_window.py:199-228 | the same dispatch, Space, F, Right and Esc included, with the left arrow fixed: Left seeks back 10 s, Up/Down change the volume by ±5, other keys are passed on |
| MainWindow.KeyPressAgreesWhereItRuns | main_window.py:201-217 | where the written handler does not raise, the two dispatchers agree |
| MainWindow.LeftArrowRaises | main_window.py:215-220 | the left arrow raises while the right arrow seeks forward |
| MainWindow.ArrowsCancel | main_window.py:215-226 | with the fix, right then left and up then down cancel out |
| MainWindow.Escape | main_window.py:211-214 | Esc in fullscreen leaves it only from the player view |

## Findings

| source | as written | input that shows it | evidently intended | confidence | as-written member | corrected member |
|---|---|---|---|---|---|---|
| main_window.py:218 | the left-arrow branch compares with `QtKey.Key_Left`, a name that is never defined | any key other than Space, F, Right, or Esc while fullscreen, e.g. the left arrow: `NameError`, so seeking back and the volume keys never work | `Qt.Key.Key_Left`, so Left seeks back 10 s and Up/Down change the volume by 5 | high (not executed) | MainWindow.KeyPressAsWritten, shown by MainWindow.LeftArrowRaises | MainWindow.KeyPress, with MainWindow.KeyPressAgreesWhereItRuns and MainWindow.ArrowsCancel |
| stream_extractor.py:40-57 | `f.get('tbr', 0)` keeps a 'tbr' that is present but `None`, and the sort then compares `None` with a number | two video formats with 'tbr' 800 and `None`: `TypeError`, and every stream of the URL is lost (`None` is returned) | a missing bandwidth sorts as 0 whether the key is absent or `None` | medium (not executed) | StreamExtractor.GetAllStreamsAsWritten, shown by StreamExtractor.NullBandwidthLosesStreams | StreamExtractor.GetAllStreams, with StreamExtractor.GetAllStreamsVideoOrder |

The rest of the model, including `MainWindow.OpenNetworkStream`, uses the corrected members.

## Left out

- Qt layout, painting, mouse, focus and cursor handling, hide timers, tooltips, the window icon, the menus, the about dialog and the help link: GUI behaviour with no contract to state.
- Overlay visibility: `switch_to_library` records that the controls are hidden, but `show_controls` is recorded only as a signal.
- The mpv engine itself: `initialize_player`, the `setup_observers` wiring and the log handler. The engine is a stream of commands out and events and property values in.
- A failed engine property write or command: its `try`/`except` only logs, and the model treats every write as taking effect. The one exception is the failing stop in `Player.Shutdown`, which changes what follows.
- yt-dlp, `urllib` downloads, `QIcon`, `os.path.exists` and `Path.exists`: foreign I/O, passed in as parameters.
- Python's per-process `hash()`: a parameter.
- Worker threads: starting, finishing and terminating (`cleanup_worker`, `cleanup_all_workers` beyond emptying the list) are concurrency. Results arrive in whatever order the caller applies them.
- Drag-and-drop reordering of library rows: a Qt view feature. Reordering changes which row a queued thumbnail index names, just as removal does.
- A double click makes the clicked row current before `play_item` runs (Qt's view behaviour). `Library.PlayItem` models `play_item` alone.
- The floating-point text of `_format_bitrate`: only the branch and the scaled amount are modelled. Track labels take the renderer as a parameter.
- Unicode case mapping and `isalnum`: only ASCII is modelled.
- The stylesheet texts of themes.py and stylesheet.py: a tag stands for each. key_config.py is included as data.
- main.py: logging and start-up.
- Persistence.LoadPlaybackPosition: text is read back by a decimal parser (optional sign, digits, optional fraction). Python's `float()` also accepts exponents, surrounding whitespace, underscores between digits, "inf" and "nan"; the model reads these as 0.0. A stored value of a type `float()` rejects with `TypeError`, which the code does not catch, is not modelled either: every stored value is a number or text.
- Persistence.PositionKeyInjective: states that the keys differ in the model. QSettings treats '/' in a key as a group separator and folds repeated slashes, so two paths that differ only in doubled slashes share one stored position; that folding is not modelled.
- Player.Observe: models a volume as a real and `int()` as truncation. It does not model the other value types mpv could report.
- Overlay.FormatBitrate: states the branch and the amount, not the rounded text.
- Utils.FormatTime: states the layout of the text; the digits are stated through `Utils.FormatTimeRoundTrip`.
- StreamExtractor.GetAllStreams: states that video streams are a permutation, with their order in `StreamExtractor.GetAllStreamsVideoOrder`. The stream names with their emoji prefixes are modelled as text. They are stated only through the examples in `StreamExtractor.PresentNoneIsNotMissing`.

=== FILE: engine.dfy ===
/** The mpv engine as the player sees it: the commands and property writes
    issued to it. The engine's own behaviour is not modelled; what it reports
    back arrives as events and observed property values (module `Player`). */
module Engine {

  /** A value written to an engine property. */
  datatype PropValue = PStr(s: string) | PInt(i: int) | PReal(r: real) | PBool(b: bool)

  datatype Command =
    | SetProperty(name: string, value: PropValue)
    | Stop
    | Play(path: string)
      /** `command('video-add', url, 'auto', title)` */
    | VideoAdd(url: string, title: string)
      /** `command('audio-add', url, 'auto', title)` */
    | AudioAdd(url: string, title: string)
      /** `command('seek', seconds, 'relative')` */
    | SeekRelative(seconds: int)
      /** `command('add', 'volume', amount)` */
    | AddVolume(amount: int)
      /** `command('cycle', what)` */
    | Cycle(what: string)
      /** `command('quit')` */
    | Quit
    | Terminate
}

=== FILE: keymanager.dfy ===
/** `ShortcutsDialog.build_shortcut_text` (key_manager.py) over the shortcut
    table of key_config.py. */
module KeyManager {
  import opened Py

  /** One shortcut entry; only the texts shown in the dialog are kept. */
  datatype Shortcut = Shortcut(display: Option<string>, desc: Option<string>)

  /** A category and its shortcuts, in table order. */
  datatype Group = Group(category: string, shortcuts: seq<Shortcut>)

  function ShortcutLine(k: Shortcut): string {
    "<b>" + k.display.GetOr("N/A") + "</b> &nbsp;&nbsp;&nbsp; " + k.desc.GetOr("No description") + "<br>"
  }

  function Lines(ks: seq<Shortcut>): string
    decreases |ks|
  {
    if |ks| == 0 then "" else ShortcutLine(ks[0]) + Lines(ks[1..])
  }

  function Block(g: Group): string {
    "<h2>" + g.category + "</h2><p>" + Lines(g.shortcuts) + "</p>"
  }

  /** The dialog text: the blocks of all groups, concatenated without separators. */
  function ShortcutText(groups: seq<Group>): string
    decreases |groups|
  {
    if |groups| == 0 then "" else Block(groups[0]) + ShortcutText(groups[1..])
  }

  lemma {:induction false} LinesAppend(a: seq<Shortcut>, b: seq<Shortcut>)
    ensures Lines(a + b) == Lines(a) + Lines(b)
    decreases |a|
  {
    if |a| == 0 {
      assert a + b == b;
    } else {
      assert (a + b)[1..] == a[1..] + b;
      LinesAppend(a[1..], b);
    }
  }

  lemma {:induction false} ShortcutTextAppend(a: seq<Group>, b: seq<Group>)
    ensures ShortcutText(a + b) == ShortcutText(a) + ShortcutText(b)
    decreases |a|
  {
    if |a| == 0 {
      assert a + b == b;
    } else {
      assert (a + b)[1..] == a[1..] + b;
      ShortcutTextAppend(a[1..], b);
    }
  }

  /** `build_shortcut_text`: pieces appended group by group and shortcut by
      shortcut, then joined with "". */
  method BuildShortcutText(groups: seq<Group>) returns (html: string)
    ensures html == ShortcutText(groups)
  {
    html := "";
    var g := 0;
    while g < |groups|
      invariant 0 <= g <= |groups|
      invariant html == ShortcutText(groups[..g])
    {
      var ks := groups[g].shortcuts;
      var block := "<h2>" + groups[g].category + "</h2><p>";
      var j := 0;
      while j < |ks|
        invariant 0 <= j <= |ks|
        invariant block == "<h2>" + groups[g].category + "</h2><p>" + Lines(ks[..j])
      {
        LinesAppend(ks[..j], [ks[j]]);
        assert ks[..j + 1] == ks[..j] + [ks[j]];
        block := block + ShortcutLine(ks[j]);
        j := j + 1;
      }
      assert ks[..j] == ks;
      block := block + "</p>";
      ShortcutTextAppend(groups[..g], [groups[g]]);
      assert groups[..g + 1] == groups[..g] + [groups[g]];
      html := html + block;
      g := g + 1;
    }
    assert groups[..g] == groups;
  }

  /** `SHORTCUT_GROUPS` of key_config.py. */
  const ShortcutGroups: seq<Group> := [
    Group("Playback Controls", [
      Shortcut(Some("Space"), Some("Play / Pause")),
      Shortcut(Some("M"), Some("Mute / Unmute")),
      Shortcut(Some("→"), Some("Seek Forward 10s")),
      Shortcut(Some("←"), Some("Seek Backward 10s")),
      Shortcut(Some("↑"), Some("Volume Up (+5)")),
      Shortcut(Some("↓"), Some("Volume Down (-5)"))
    ]),
    Group("Tracks & Chapters", [
      Shortcut(Some("Alt + →"), Some("Next Chapter")),
      Shortcut(Some("Alt + ←"), Some("Previous Chapter")),
      Shortcut(Some("C"), Some("Cycle Subtitle Tracks")),
      Shortcut(Some("B"), Some("Cycle Audio Tracks")),
      Shortcut(Some("V"), Some("Cycle Video Tracks"))
    ]),
    Group("Playlist Controls", [
      Shortcut(Some("Ctrl + →"), Some("Next in Playlist")),
      Shortcut(Some("Ctrl + ←"), Some("Previous in Playlist"))
    ]),
    Group("Window Controls", [
      Shortcut(Some("F"), Some("Toggle Fullscreen")),
      Shortcut(Some("Esc"), Some("Exit Fullscreen (from player)")),
      Shortcut(Some("Ctrl+P"), Some("Show Library View"))
    ]),
    Group("File Menu", [
      Shortcut(Some("Ctrl+O"), Some("Add File(s) to Library")),
      Shortcut(Some("Ctrl+N"), Some("Open Network Stream"))
    ])
  ]

  /** Every shipped shortcut has its own display text and description, so
      neither default appears in the shipped dialog. */
  lemma ShippedShortcutsComplete()
    ensures forall g, k :: 0 <= g < |ShortcutGroups| && 0 <= k < |ShortcutGroups[g].shortcuts| ==>
              ShortcutGroups[g].shortcuts[k].display.Some? && ShortcutGroups[g].shortcuts[k].desc.Some?
  {
  }

  /** Group `i`'s block follows the blocks of the groups before it: the text
      keeps group order and puts nothing between blocks. */
  lemma BlockOrder(groups: seq<Group>, i: nat)
    requires i < |groups|
    ensures var pre := ShortcutText(groups[..i]);
      var t := ShortcutText(groups);
      |pre| + |Block(groups[i])| <= |t|
      && t[..|pre|] == pre
      && t[|pre|..|pre| + |Block(groups[i])|] == Block(groups[i])
  {
    assert groups == groups[..i] + ([groups[i]] + groups[i + 1..]);
    ShortcutTextAppend(groups[..i], [groups[i]] + groups[i + 1..]);
    ShortcutTextAppend([groups[i]], groups[i + 1..]);
    assert ShortcutText([groups[i]]) == Block(groups[i]);
  }

  /** Within a block, shortcut `j`'s line follows the lines before it. */
  lemma LineOrder(ks: seq<Shortcut>, j: nat)
    requires j < |ks|
    ensures var pre := Lines(ks[..j]);
      var t := Lines(ks);
      |pre| + |ShortcutLine(ks[j])| <= |t|
      && t[..|pre|] == pre
      && t[|pre|..|pre| + |ShortcutLine(ks[j])|] == ShortcutLine(ks[j])
  {
    assert ks == ks[..j] + ([ks[j]] + ks[j + 1..]);
    LinesAppend(ks[..j], [ks[j]] + ks[j + 1..]);
    LinesAppend([ks[j]], ks[j + 1..]);
    assert Lines([ks[j]]) == ShortcutLine(ks[j]);
  }

  /** A piece of the middle part of a block found in `t` is found in `t`. */
  lemma InsideBlock(t: string, pre: nat, head: string, mid: string, tail: string, o: nat, x: string)
    requires pre + |head + mid + tail| <= |t| && t[pre..pre + |head + mid + tail|] == head + mid + tail
    requires o + |x| <= |mid| && mid[o..o + |x|] == x
    ensures pre + |head| + o + |x| <= |t| && t[pre + |head| + o..pre + |head| + o + |x|] == x
  {
    var b := head + mid + tail;
    forall y | 0 <= y < |x| ensures t[pre + |head| + o + y] == x[y] {
      assert t[pre + |head| + o + y] == b[|head| + o + y];
      assert b[|head| + o + y] == mid[o + y];
    }
  }

  /** Where shortcut `k` of group `g` starts in the dialog text. */
  function LineStart(groups: seq<Group>, g: nat, k: nat): nat
    requires g < |groups| && k <= |groups[g].shortcuts|
  {
    |ShortcutText(groups[..g])| + |"<h2>" + groups[g].category + "</h2><p>"| + |Lines(groups[g].shortcuts[..k])|
  }

  lemma LineAtItsStart(groups: seq<Group>, g: nat, k: nat)
    requires g < |groups| && k < |groups[g].shortcuts|
    ensures var at := LineStart(groups, g, k);
      var line := ShortcutLine(groups[g].shortcuts[k]);
      at + |line| <= |ShortcutText(groups)| && ShortcutText(groups)[at..at + |line|] == line
  {
    var ks := groups[g].shortcuts;
    var head := "<h2>" + groups[g].category + "</h2><p>";
    BlockOrder(groups, g);
    LineOrder(ks, k);
    assert Block(groups[g]) == head + Lines(ks) + "</p>";
    InsideBlock(ShortcutText(groups), |ShortcutText(groups[..g])|, head, Lines(ks), "</p>",
                |Lines(ks[..k])|, ShortcutLine(ks[k]));
  }

  /** Shortcut `k` of group `g` is shown in the dialog text right after its
      group's heading and the lines of the shortcuts before it, with "N/A"
      for a missing display text and "No description" for a missing
      description. */
  lemma ShortcutShownInItsBlock(groups: seq<Group>, g: nat, k: nat)
    requires g < |groups| && k < |groups[g].shortcuts|
    ensures var ks := groups[g].shortcuts;
      var t := ShortcutText(groups);
      var at := |ShortcutText(groups[..g])| + |"<h2>" + groups[g].category + "</h2><p>"| + |Lines(ks[..k])|;
      var line := "<b>" + ks[k].display.GetOr("N/A") + "</b> &nbsp;&nbsp;&nbsp; " + ks[k].desc.GetOr("No description") + "<br>";
      at + |line| <= |t| && t[at..at + |line|] == line
  {
    LineAtItsStart(groups, g, k);
  }
}

=== FILE: library.dfy ===
/** The media library: a table of rows, one per added file or stream, with a
    cache of extracted stream data keyed by the row's path or URL, a queue of
    thumbnail requests, and a current row that playback walks through.
    The table's current row follows Qt's item-selection rules; the file
    dialog, `Path.exists` and the worker threads are parameters. */
module Library {
  import opened Py
  import Paths
  import Persistence
  import opened StreamExtractor
  import opened ThumbnailWorker

  /** One table row: thumbnail, title (holding the original path or URL),
      duration and resolution. */
  datatype Row = Row(filepath: string, title: string, icon: Icon, duration: string, resolution: string)

  /** A thumbnail request, queued or handed to a running worker: the path
      and the row it was made for. */
  datatype Request = Request(filepath: string, row: int)

  /** `current` is the table's current row, -1 when there is none. */
  datatype Lib = Lib(
    rows: seq<Row>,
    current: int,
    cache: map<string, StreamData>,
    pending: seq<Request>,
    workers: seq<Request>)

  /** `play_file_requested(path, audio_tracks, video_tracks)`. */
  datatype PlayRequest = PlayRequest(path: string, audio: seq<Stream>, video: seq<Stream>)

  const Placeholder: string := "..."
  const ErrorText: string := "Error"

  function Empty(): (l: Lib)
    ensures Valid(l)
  {
    Lib([], -1, map[], [], [])
  }

  predicate HasRowFor(l: Lib, key: string) {
    exists i :: 0 <= i < |l.rows| && l.rows[i].filepath == key
  }

  /** What the widget keeps true: the current row is a row or none, and every
      cached stream belongs to a row still in the table. */
  predicate Valid(l: Lib) {
    && -1 <= l.current < |l.rows|
    && forall key :: key in l.cache ==> HasRowFor(l, key)
  }

  // ---------------------------------------------------------------- adding

  /** The title shown for a new row: the given name, else the file name of an
      existing path, else the path or URL itself. */
  function DisplayName(filepath: string, displayName: Option<string>, present: bool): (t: string)
    ensures displayName.Some? ==> t == displayName.value
    ensures displayName.None? && !present ==> t == filepath
    ensures displayName.None? && present ==> t == Paths.Name(filepath)
  {
    match displayName
    case Some(n) => n
    case None => if present then Paths.Name(filepath) else filepath
  }

  /** The row `add_file` appends: the path, its display name, no icon yet and
      placeholder duration and resolution texts. */
  function NewRow(filepath: string, displayName: Option<string>, present: bool): Row {
    Row(filepath, DisplayName(filepath, displayName, present), NoIcon, Placeholder, Placeholder)
  }

  /** `add_file`: appends a row with placeholder texts, caches the stream
      data, queues a thumbnail request for the new row and reports the new
      row count. `present` is `Path(filepath).exists()`. */
  function AddFile(l: Lib, filepath: string, displayName: Option<string>, streamData: Option<StreamData>, present: bool): (r: (Lib, int))
    requires Valid(l)
    ensures Valid(r.0)
    ensures |r.0.rows| == |l.rows| + 1 && r.1 == |r.0.rows|
    ensures r.0.rows[..|l.rows|] == l.rows
    ensures r.0.rows[|l.rows|] == NewRow(filepath, displayName, present)
    ensures r.0.pending == l.pending + [Request(filepath, |l.rows|)]
    ensures r.0.current == l.current && r.0.workers == l.workers
    ensures streamData.Some? ==> r.0.cache == l.cache[filepath := streamData.value]
    ensures streamData.None? ==> r.0.cache == l.cache
  {
    var row := NewRow(filepath, displayName, present);
    var cache := if streamData.Some? then l.cache[filepath := streamData.value] else l.cache;
    var l' := Lib(l.rows + [row], l.current, cache, l.pending + [Request(filepath, |l.rows|)], l.workers);
    assert HasRowFor(l', filepath) by { assert l'.rows[|l.rows|].filepath == filepath; }
    assert forall key :: HasRowFor(l, key) ==> HasRowFor(l', key) by {
      forall key | HasRowFor(l, key) ensures HasRowFor(l', key) {
        var i :| 0 <= i < |l.rows| && l.rows[i].filepath == key;
        assert l'.rows[i] == l.rows[i];
      }
    }
    (l', |l'.rows|)
  }

  /** The file dialog's pick: each chosen path with `Path.exists()` for it. */
  datatype Picked = Picked(path: string, present: bool)

  /** Adding the picked files one by one with `add_file`, with no display
      name and no stream data: the old rows stay, each file gets a new row
      titled by its file name (or its path when it does not exist) with
      placeholder texts, and a thumbnail request for its row is queued. */
  function AddAll(l: Lib, files: seq<Picked>): (r: Lib)
    requires Valid(l)
    ensures Valid(r)
    ensures |r.rows| == |l.rows| + |files|
    ensures r.rows[..|l.rows|] == l.rows
    ensures forall i :: 0 <= i < |files| ==> r.rows[|l.rows| + i] == NewRow(files[i].path, None, files[i].present)
    ensures |r.pending| == |l.pending| + |files| && r.pending[..|l.pending|] == l.pending
    ensures forall i :: 0 <= i < |files| ==> r.pending[|l.pending| + i] == Request(files[i].path, |l.rows| + i)
    ensures r.cache == l.cache && r.current == l.current && r.workers == l.workers
    decreases |files|
  {
    if |files| == 0 then l
    else
      var l1 := AddFile(l, files[0].path, None, None, files[0].present).0;
      var r := AddAll(l1, files[1..]);
      assert r.rows[..|l.rows|] == r.rows[..|l1.rows|][..|l.rows|];
      assert r.pending[..|l.pending|] == r.pending[..|l1.pending|][..|l.pending|];
      assert r.rows[|l.rows|] == l1.rows[|l.rows|];
      assert r.pending[|l.pending|] == l1.pending[|l.pending|];
      assert forall i :: 1 <= i < |files| ==> files[i] == files[1..][i - 1];
      r
  }

  /** `open_add_files_dialog`: the dialog opens in the remembered directory
      (returned as the second component); when it is accepted with files,
      the first file's directory is remembered and every file is added. */
  function OpenAddFilesDialog(l: Lib, settings: Persistence.Settings, accepted: bool, files: seq<Picked>)
    : (r: (Lib, Persistence.Value, Persistence.Settings))
    requires Valid(l)
    ensures Valid(r.0)
    ensures r.1 == Persistence.LoadLastOpenPath(settings)
    ensures !accepted || files == [] ==> r.0 == l && r.2 == settings
    ensures accepted && files != [] ==>
      && r.2 == Persistence.SaveLastOpenPath(settings, files[0].path)
      && r.0 == AddAll(l, files)
      && |r.0.rows| == |l.rows| + |files|
      && r.0.rows[..|l.rows|] == l.rows
      && (forall i :: 0 <= i < |files| ==> r.0.rows[|l.rows| + i] == NewRow(files[i].path, None, files[i].present))
      && r.0.pending[..|l.pending|] == l.pending
      && (forall i :: 0 <= i < |files| ==> r.0.pending[|l.pending| + i] == Request(files[i].path, |l.rows| + i))
      && r.0.cache == l.cache && r.0.current == l.current && r.0.workers == l.workers
  {
    var start := Persistence.LoadLastOpenPath(settings);
    if accepted && files != [] then
      var added := AddAll(l, files);
      (added, start, Persistence.SaveLastOpenPath(settings, files[0].path))
    else (l, start, settings)
  }

  // ---------------------------------------------------------------- thumbnails

  /** `process_pending_thumbnails`: a worker is started for every queued
      request, in queue order, and the queue is emptied. */
  function ProcessPendingThumbnails(l: Lib): (r: (Lib, seq<Request>))
    ensures r.1 == l.pending
    ensures r.0.pending == [] && r.0.workers == l.workers + l.pending
    ensures r.0.rows == l.rows && r.0.cache == l.cache && r.0.current == l.current
  {
    (l.(pending := [], workers := l.workers + l.pending), l.pending)
  }

  /** The worker for a started request, with its cache path. */
  function WorkerFor(tempRoot: string, q: Request, hashValue: int): (j: Job)
    ensures j.filepath == q.filepath && j.row == q.row
  {
    NewJob(tempRoot, q.filepath, q.row, hashValue)
  }

  /** `on_thumbnail_ready`: fills in the row the signal names; a row that no
      longer exists is ignored. */
  function OnThumbnailReady(l: Lib, row: int, icon: Icon, duration: string, resolution: string): (l': Lib)
    ensures |l'.rows| == |l.rows| && l'.current == l.current && l'.cache == l.cache
    ensures l'.pending == l.pending && l'.workers == l.workers
    ensures forall i :: 0 <= i < |l.rows| && i != row ==> l'.rows[i] == l.rows[i]
    ensures 0 <= row < |l.rows| ==>
      l'.rows[row] == l.rows[row].(icon := icon, duration := duration, resolution := resolution)
    ensures !(0 <= row < |l.rows|) ==> l' == l
  {
    if 0 <= row < |l.rows| then
      l.(rows := l.rows[row := l.rows[row].(icon := icon, duration := duration, resolution := resolution)])
    else l
  }

  /** `on_thumbnail_failed`: both text cells of the row read "Error". */
  function OnThumbnailFailed(l: Lib, row: int): (l': Lib)
    ensures |l'.rows| == |l.rows| && l'.current == l.current && l'.cache == l.cache
    ensures l'.pending == l.pending && l'.workers == l.workers
    ensures forall i :: 0 <= i < |l.rows| && i != row ==> l'.rows[i] == l.rows[i]
    ensures 0 <= row < |l.rows| ==>
      l'.rows[row] == l.rows[row].(duration := ErrorText, resolution := ErrorText)
    ensures !(0 <= row < |l.rows|) ==> l' == l
  {
    if 0 <= row < |l.rows| then
      l.(rows := l.rows[row := l.rows[row].(duration := ErrorText, resolution := ErrorText)])
    else l
  }

  /** Delivers a worker's single signal to the table. */
  function Deliver(l: Lib, o: Outcome): (l': Lib)
    ensures Valid(l) ==> Valid(l')
    ensures l'.cache == l.cache && l'.current == l.current && |l'.rows| == |l.rows|
    ensures forall i :: 0 <= i < |l.rows| ==> l'.rows[i].filepath == l.rows[i].filepath && l'.rows[i].title == l.rows[i].title
  {
    var l' := match o
      case Ready(row, icon, d, res) => OnThumbnailReady(l, row, icon, d, res)
      case Failed(row, _) => OnThumbnailFailed(l, row);
    assert forall key :: HasRowFor(l, key) ==> HasRowFor(l', key) by {
      forall key | HasRowFor(l, key) ensures HasRowFor(l', key) {
        var i :| 0 <= i < |l.rows| && l.rows[i].filepath == key;
        assert l'.rows[i].filepath == key;
      }
    }
    l'
  }

  // ---------------------------------------------------------------- removing

  /** Inserts `x` into a strictly descending list unless it is already there. */
  function InsertDesc(x: int, d: seq<int>): (r: seq<int>)
    requires forall i, j :: 0 <= i < j < |d| ==> d[i] > d[j]
    ensures forall i, j :: 0 <= i < j < |r| ==> r[i] > r[j]
    ensures forall y :: y in r <==> y == x || y in d
    ensures |r| > 0 && (r[0] == x || (|d| > 0 && r[0] == d[0]))
    decreases |d|
  {
    if |d| == 0 then [x]
    else if x > d[0] then [x] + d
    else if x == d[0] then d
    else [d[0]] + InsertDesc(x, d[1..])
  }

  /** `sorted(set(rows), reverse=True)`: the distinct rows, highest first. */
  function Descending(rows: seq<int>): (d: seq<int>)
    ensures forall i, j :: 0 <= i < j < |d| ==> d[i] > d[j]
    ensures forall x :: x in d <==> x in rows
    decreases |rows|
  {
    if |rows| == 0 then [] else InsertDesc(rows[|rows| - 1], Descending(rows[..|rows| - 1]))
  }

  /** Where the current row goes when row `r` is removed: rows below it move
      up; when the current row itself goes, the row above becomes current,
      else the row that moves into its place, else none. */
  function CurrentAfterRemove(current: int, r: int, count: int): (c: int)
    requires -1 <= current < count && 0 <= r < count
    ensures -1 <= c < count - 1
    ensures current < r ==> c == current
    ensures current > r ==> c == current - 1
    ensures current == r && count > 1 ==> 0 <= c
    ensures current == r && r > 0 ==> c == r - 1
    ensures current == r && r == 0 && count > 1 ==> c == 0
    ensures current == r && count == 1 ==> c == -1
  {
    if current > r then current - 1
    else if current < r then current
    else if r > 0 then r - 1
    else if count > 1 then 0
    else -1
  }

  /** One pass of the removal loop: the row's cache entry is dropped (when
      the row exists) and the row is removed; an out-of-range row changes
      nothing. */
  function RemoveRow(l: Lib, r: int): (l': Lib)
    requires Valid(l)
    ensures Valid(l')
    ensures l'.pending == l.pending && l'.workers == l.workers
    ensures 0 <= r < |l.rows| ==>
      && l'.rows == l.rows[..r] + l.rows[r + 1..]
      && l'.cache == l.cache - {l.rows[r].filepath}
    ensures 0 <= r < |l.rows| ==> l'.current == CurrentAfterRemove(l.current, r, |l.rows|)
    ensures 0 <= r < |l.rows| && 0 <= l.current && l.current != r ==>
      0 <= l'.current && l'.rows[l'.current] == l.rows[l.current]
    ensures !(0 <= r < |l.rows|) ==> l' == l
  {
    if 0 <= r < |l.rows| then
      var gone := l.rows[r].filepath;
      var l' := Lib(l.rows[..r] + l.rows[r + 1..], CurrentAfterRemove(l.current, r, |l.rows|),
                    l.cache - {gone}, l.pending, l.workers);
      assert forall key :: key in l'.cache ==> HasRowFor(l', key) by {
        forall key | key in l'.cache ensures HasRowFor(l', key) {
          var i :| 0 <= i < |l.rows| && l.rows[i].filepath == key;
          assert i != r;
          if i < r { assert l'.rows[i] == l.rows[i]; }
          else { assert l'.rows[i - 1] == l.rows[i]; }
        }
      }
      l'
    else l
  }

  function RemoveRows(l: Lib, d: seq<int>): (l': Lib)
    requires Valid(l)
    ensures Valid(l')
    ensures l'.pending == l.pending && l'.workers == l.workers
    decreases |d|
  {
    if |d| == 0 then l else RemoveRows(RemoveRow(l, d[0]), d[1..])
  }

  /** `remove_selected_items`: the selected rows, highest first, each lose
      their cache entry and are removed; the new count is reported. With
      nothing selected nothing happens and nothing is reported. */
  function RemoveSelected(l: Lib, selected: seq<int>): (r: (Lib, Option<int>))
    requires Valid(l)
    ensures Valid(r.0)
    ensures selected == [] ==> r == (l, None)
    ensures selected != [] ==> r.1 == Some(|r.0.rows|)
    ensures r.0.pending == l.pending && r.0.workers == l.workers
  {
    if selected == [] then (l, None)
    else
      var l' := RemoveRows(l, Descending(selected));
      (l', Some(|l'.rows|))
  }

  /** The rows of `xs`, numbered from `off`, whose number is not in `s`:
      the reference meaning of "remove the rows in `s`". */
  function KeptFrom<T>(xs: seq<T>, s: set<int>, off: int): seq<T>
    decreases |xs|
  {
    if |xs| == 0 then []
    else (if off in s then [] else [xs[0]]) + KeptFrom(xs[1..], s, off + 1)
  }

  lemma {:induction false} KeptFromAppend<T>(a: seq<T>, b: seq<T>, s: set<int>, off: int)
    ensures KeptFrom(a + b, s, off) == KeptFrom(a, s, off) + KeptFrom(b, s, off + |a|)
    decreases |a|
  {
    if |a| == 0 {
      assert a + b == b;
    } else {
      assert (a + b)[0] == a[0] && (a + b)[1..] == a[1..] + b;
      KeptFromAppend(a[1..], b, s, off + 1);
    }
  }

  /** Only the numbers in the window `[off, off + |xs|)` matter. */
  lemma {:induction false} KeptFromWindow<T>(xs: seq<T>, s1: set<int>, s2: set<int>, off: int)
    requires forall i :: off <= i < off + |xs| ==> (i in s1 <==> i in s2)
    ensures KeptFrom(xs, s1, off) == KeptFrom(xs, s2, off)
    decreases |xs|
  {
    if |xs| > 0 {
      KeptFromWindow(xs[1..], s1, s2, off + 1);
    }
  }

  lemma {:induction false} KeptFromNone<T>(xs: seq<T>, s: set<int>, off: int)
    requires forall i :: i in s ==> i < off
    ensures KeptFrom(xs, s, off) == xs
    decreases |xs|
  {
    if |xs| > 0 {
      KeptFromNone(xs[1..], s, off + 1);
      assert [xs[0]] + xs[1..] == xs;
    }
  }

  /** Dropping the highest listed row `m` from the reference view. */
  lemma KeptWithoutTop<T>(xs: seq<T>, s: set<int>, m: int)
    requires 0 <= m < |xs| && m in s
    requires forall x :: x in s ==> x <= m
    ensures KeptFrom(xs, s, 0) == KeptFrom(xs[..m], s - {m}, 0) + xs[m + 1..]
  {
    var a, b := xs[..m], xs[m + 1..];
    var c := [xs[m]] + b;
    assert xs == a + c;
    assert |a| == m;
    KeptFromAppend(a, c, s, 0);
    assert KeptFrom(c, s, m) == b by {
      KeptFromAppend([xs[m]], b, s, m);
      assert KeptFrom([xs[m]], s, m) == [] by {
        assert [xs[m]][1..] == [];
      }
      KeptFromNone(b, s, m + 1);
    }
    KeptFromWindow(a, s, s - {m}, 0);
  }

  /** Rows listed only above `|a|` leave everything after `a` in place. */
  lemma KeptBelow<T>(a: seq<T>, b: seq<T>, s: set<int>)
    requires forall x :: x in s ==> x < |a|
    ensures KeptFrom(a + b, s, 0) == KeptFrom(a, s, 0) + b
  {
    KeptFromAppend(a, b, s, 0);
    KeptFromNone(b, s, |a|);
  }

  /** The paths of the rows numbered in `s`. */
  function PathsOf(rows: seq<Row>, s: set<int>): set<string> {
    set i | i in s && 0 <= i < |rows| :: rows[i].filepath
  }

  /** Removing rows one at a time, highest first, removes exactly the rows
      listed: every earlier removal is below the rows still to go, so their
      numbers stay right. */
  lemma {:induction false} RemoveRowsKeepsTheRest(l: Lib, d: seq<int>, s: set<int>)
    requires Valid(l)
    requires forall i :: 0 <= i < |d| ==> 0 <= d[i] < |l.rows|
    requires forall i, j :: 0 <= i < j < |d| ==> d[i] > d[j]
    requires forall x :: x in s <==> x in d
    ensures RemoveRows(l, d).rows == KeptFrom(l.rows, s, 0)
    ensures |RemoveRows(l, d).rows| == |l.rows| - |d|
    decreases |d|
  {
    if |d| == 0 {
      KeptFromNone(l.rows, s, 0);
    } else {
      var m := d[0];
      var rest := d[1..];
      var l1 := RemoveRow(l, m);
      assert forall i :: 0 <= i < |rest| ==> rest[i] == d[i + 1];
      assert forall x :: x in s - {m} <==> x in rest;
      assert forall x :: x in s ==> x <= m;
      RemoveRowsKeepsTheRest(l1, rest, s - {m});
      KeptWithoutTop(l.rows, s, m);
      KeptBelow(l.rows[..m], l.rows[m + 1..], s - {m});
    }
  }

  /** Dropping the highest listed row `m` leaves the paths of the other
      listed rows where they were. */
  lemma PathsOfWithoutTop(rows: seq<Row>, s: set<int>, m: int)
    requires 0 <= m < |rows| && m in s
    requires forall x :: x in s ==> x <= m
    ensures PathsOf(rows, s) == PathsOf(rows[..m] + rows[m + 1..], s - {m}) + {rows[m].filepath}
  {
    var rows1 := rows[..m] + rows[m + 1..];
    assert PathsOf(rows1, s - {m}) == PathsOf(rows, s - {m}) by {
      forall i | i in s - {m} && 0 <= i < |rows| ensures i < m && rows1[i] == rows[i] {
        assert i <= m;
      }
    }
  }

  /** Removing keys one set after another removes their union. */
  lemma MapMinusTwice<K, V>(m: map<K, V>, a: set<K>, b: set<K>)
    ensures (m - a) - b == m - (b + a)
  {
  }

  /** Removing rows highest first forgets the cached streams of exactly the
      paths of the rows listed, as numbered before any removal. */
  lemma {:induction false} RemoveRowsForgetsTheirStreams(l: Lib, d: seq<int>, s: set<int>)
    requires Valid(l)
    requires forall i :: 0 <= i < |d| ==> 0 <= d[i] < |l.rows|
    requires forall i, j :: 0 <= i < j < |d| ==> d[i] > d[j]
    requires forall x :: x in s <==> x in d
    ensures RemoveRows(l, d).cache == l.cache - PathsOf(l.rows, s)
    decreases |d|
  {
    if |d| == 0 {
      assert PathsOf(l.rows, s) == {};
    } else {
      var m := d[0];
      var rest := d[1..];
      var l1 := RemoveRow(l, m);
      assert forall i :: 0 <= i < |rest| ==> rest[i] == d[i + 1];
      assert forall x :: x in s - {m} <==> x in rest;
      assert forall x :: x in s ==> x <= m;
      RemoveRowsForgetsTheirStreams(l1, rest, s - {m});
      PathsOfWithoutTop(l.rows, s, m);
      MapMinusTwice(l.cache, {l.rows[m].filepath}, PathsOf(l1.rows, s - {m}));
    }
  }

  /** The removal keeps exactly the unselected rows, in order, forgets the
      cached streams of the selected rows' paths, and the count it reports is
      the number of rows left. */
  lemma RemoveSelectedKeepsTheRest(l: Lib, selected: seq<int>)
    requires Valid(l)
    requires forall i :: 0 <= i < |selected| ==> 0 <= selected[i] < |l.rows|
    ensures RemoveSelected(l, selected).0.rows == KeptFrom(l.rows, set x | x in selected, 0)
    ensures |RemoveSelected(l, selected).0.rows| == |l.rows| - |Descending(selected)|
    ensures RemoveSelected(l, selected).0.cache == l.cache - PathsOf(l.rows, set x | x in selected)
  {
    var s := set x | x in selected;
    var d := Descending(selected);
    if selected == [] {
      KeptFromNone(l.rows, s, 0);
      assert PathsOf(l.rows, s) == {};
    } else {
      forall i | 0 <= i < |d| ensures 0 <= d[i] < |l.rows| {
        assert d[i] in d;
        var k :| 0 <= k < |selected| && selected[k] == d[i];
      }
      RemoveRowsKeepsTheRest(l, d, s);
      RemoveRowsForgetsTheirStreams(l, d, s);
    }
  }

  /** Removing one row drops the cached streams of every row with the same
      path or URL, since the cache is keyed by it: a second copy of a stream
      in the table is left to be played as a plain URL. */
  lemma RemovingADuplicateForgetsTheStream(l: Lib, i: int, j: int)
    requires Valid(l)
    requires 0 <= i < |l.rows| && 0 <= j < |l.rows| && i < j
    requires l.rows[i].filepath == l.rows[j].filepath
    ensures RemoveRow(l, j).rows[i] == l.rows[i]
    ensures l.rows[i].filepath !in RemoveRow(l, j).cache
  {
  }

  // ---------------------------------------------------------------- clearing

  /** `clear_all_items`: the table, the cache and the worker list are
      emptied and a count of 0 is reported. The thumbnail queue is left as
      it was. */
  function ClearAll(l: Lib): (r: (Lib, int))
    ensures Valid(r.0)
    ensures r.0.rows == [] && r.0.cache == map[] && r.0.current == -1 && r.1 == 0
    ensures r.0.workers == [] && r.0.pending == l.pending
  {
    (l.(rows := [], cache := map[], current := -1, workers := []), 0)
  }

  /** A request queued before a clear still starts a worker afterwards; its
      result names a row that no longer exists and is dropped, or names a
      row added since and overwrites that row's thumbnail. */
  lemma QueueSurvivesClear(l: Lib, path: string)
    requires Valid(l)
    ensures
      var l1 := AddFile(l, path, None, None, false).0;
      var l2 := ClearAll(l1).0;
      Request(path, |l.rows|) in ProcessPendingThumbnails(l2).1
  {
    var l1 := AddFile(l, path, None, None, false).0;
    assert l1.pending[|l.pending|] == Request(path, |l.rows|);
  }

  /** A thumbnail result arriving after an earlier row was removed lands on
      whichever row now has that number: the worker started for `b` at row 1
      decorates `c`, and `b` keeps its placeholders. */
  lemma LateThumbnailLandsOnNeighbour(a: Row, b: Row, c: Row, icon: Icon)
    ensures
      var l := Lib([a, b, c], -1, map[], [], [Request(b.filepath, 1)]);
      var l1 := RemoveRow(l, 0);
      var l2 := OnThumbnailReady(l1, 1, icon, "1:00", "640x480");
      l2.rows == [b, c.(icon := icon, duration := "1:00", resolution := "640x480")]
  {
    var l := Lib([a, b, c], -1, map[], [], [Request(b.filepath, 1)]);
    assert l.rows[..0] + l.rows[1..] == [b, c];
  }

  // ---------------------------------------------------------------- playing

  /** `play_item` on row `row`: a row without a path does nothing; otherwise
      the row becomes current, and a cached stream plays its first video
      stream with the others as extra tracks, a cached stream without video
      plays nothing, and anything else is played as a local file. */
  function PlayItem(l: Lib, row: int): (r: (Lib, Option<PlayRequest>))
    requires Valid(l) && 0 <= row < |l.rows|
    ensures Valid(r.0)
    ensures r.0.rows == l.rows && r.0.cache == l.cache
    ensures l.rows[row].filepath == "" ==> r == (l, None)
    ensures l.rows[row].filepath != "" ==> r.0.current == row
    ensures r.1.Some? <==>
      l.rows[row].filepath != ""
      && (l.rows[row].filepath in l.cache ==> |l.cache[l.rows[row].filepath].videoStreams| > 0)
    ensures r.1.Some? && l.rows[row].filepath !in l.cache ==>
      r.1.value == PlayRequest(l.rows[row].filepath, [], [])
    ensures r.1.Some? && l.rows[row].filepath in l.cache ==>
      var sd := l.cache[l.rows[row].filepath];
      r.1.value.path == sd.videoStreams[0].url
      && [sd.videoStreams[0]] + r.1.value.video == sd.videoStreams
      && r.1.value.audio == sd.audioStreams
  {
    var path := l.rows[row].filepath;
    if path == "" then (l, None)
    else
      var l' := l.(current := row);
      assert forall key :: HasRowFor(l, key) ==> HasRowFor(l', key);
      if path in l.cache then
        var sd := l.cache[path];
        if |sd.videoStreams| == 0 then (l', None)
        else (l', Some(PlayRequest(sd.videoStreams[0].url, sd.audioStreams, sd.videoStreams[1..])))
      else (l', Some(PlayRequest(path, [], [])))
  }

  /** `has_next_video`. */
  function HasNextVideo(l: Lib, loopAll: bool): bool {
    var next := l.current + 1;
    if next >= |l.rows| then loopAll && |l.rows| > 0 else true
  }

  /** The row `play_next` moves to, if any. */
  function NextRow(l: Lib, loopAll: bool): (n: Option<int>)
    requires Valid(l)
    ensures n.Some? ==> 0 <= n.value < |l.rows|
    ensures n.Some? && l.current + 1 < |l.rows| ==> n.value == l.current + 1
    ensures n.Some? && l.current + 1 >= |l.rows| ==> n.value == 0 && loopAll
    ensures n.None? <==> l.current + 1 >= |l.rows| && !(loopAll && |l.rows| > 0)
  {
    var next := l.current + 1;
    if next >= |l.rows| then
      if loopAll && |l.rows| > 0 then Some(0) else None
    else Some(next)
  }

  /** `play_next`: moves to the next row (or back to the first when looping
      the playlist) and plays it; at the end without looping nothing happens. */
  function PlayNext(l: Lib, loopAll: bool): (r: (Lib, Option<PlayRequest>))
    requires Valid(l)
    ensures Valid(r.0)
    ensures NextRow(l, loopAll).None? ==> r == (l, None)
    ensures NextRow(l, loopAll).Some? ==> r == PlayItem(l.(current := NextRow(l, loopAll).value), NextRow(l, loopAll).value)
  {
    match NextRow(l, loopAll)
    case None => (l, None)
    case Some(n) =>
      var l' := l.(current := n);
      assert forall key :: HasRowFor(l, key) ==> HasRowFor(l', key);
      PlayItem(l', n)
  }

  /** `has_next_video` answers exactly whether `play_next` has a row to go to. */
  lemma HasNextMeansPlayNextMoves(l: Lib, loopAll: bool)
    requires Valid(l)
    ensures HasNextVideo(l, loopAll) <==> NextRow(l, loopAll).Some?
    ensures HasNextVideo(l, loopAll) ==> PlayNext(l, loopAll).0.current == NextRow(l, loopAll).value
  {
  }

  /** The row `play_previous` moves to: the one above, wrapping to the last. */
  function PreviousRow(l: Lib): (p: Option<int>)
    requires Valid(l)
    ensures p.Some? ==> 0 <= p.value < |l.rows|
    ensures p.None? <==> |l.rows| == 0
    ensures p.Some? && l.current >= 1 ==> p.value == l.current - 1
    ensures p.Some? && l.current < 1 ==> p.value == |l.rows| - 1
  {
    var prev := l.current - 1;
    if prev < 0 then
      if |l.rows| - 1 < 0 then None else Some(|l.rows| - 1)
    else Some(prev)
  }

  /** `play_previous`. */
  function PlayPrevious(l: Lib): (r: (Lib, Option<PlayRequest>))
    requires Valid(l)
    ensures Valid(r.0)
    ensures PreviousRow(l).None? ==> r == (l, None)
    ensures PreviousRow(l).Some? ==> r == PlayItem(l.(current := PreviousRow(l).value), PreviousRow(l).value)
  {
    match PreviousRow(l)
    case None => (l, None)
    case Some(p) =>
      var l' := l.(current := p);
      assert forall key :: HasRowFor(l, key) ==> HasRowFor(l', key);
      PlayItem(l', p)
  }

  /** Stepping forward and then back returns to the row started from, also
      when the forward step wrapped around to the first row. */
  lemma NextThenPrevious(l: Lib, loopAll: bool)
    requires Valid(l) && 0 <= l.current
    requires l.current + 1 < |l.rows| || loopAll
    requires forall i :: 0 <= i < |l.rows| ==> l.rows[i].filepath != ""
    ensures
      var l1 := PlayNext(l, loopAll).0;
      PreviousRow(l1) == Some(l.current)
  {
    var n := NextRow(l, loopAll).value;
    assert l.rows[n].filepath != "";
  }

  /** With playlist looping every row has a successor, and the last row's
      successor is the first. */
  lemma LoopAllWrapsToFirst(l: Lib)
    requires Valid(l) && |l.rows| > 0 && l.current == |l.rows| - 1
    ensures HasNextVideo(l, true) && !HasNextVideo(l, false)
    ensures NextRow(l, true) == Some(0)
  {
  }
}

=== FILE: mainwindow.dfy ===
/** The main window: it routes between the library view and the player
    view, turns library requests into loads, opens network streams, and
    dispatches the keyboard. Each handler returns the window afterwards and
    the effects it had, in the order they happen. Engine readings, dialog
    answers and yt-dlp's result are parameters. */
module MainWindow {
  import opened Py
  import opened Engine
  import Persistence
  import StreamExtractor
  import Player
  import Library

  datatype View = LibraryView | PlayerView

  /** `playlistButtons` is the visibility of the overlay's previous/next
      file buttons. */
  datatype Window = Window(
    lib: Library.Lib,
    session: Player.Session,
    settings: Persistence.Settings,
    view: View,
    fullscreen: bool,
    playlistButtons: bool)

  /** What a handler does, in order. */
  datatype Effect =
    | HideControls
    | SavePosition
    | EngineCommand(cmd: Command)
    | Emitted(signal: Player.Signal)
    | ShowView(view: View)
    | ToggleFullscreen
    | Raised(error: string)
    | NoStreamsWarning

  datatype Step = Step(w: Window, effects: seq<Effect>)

  /** `self.player_widget.player.stop()` when the widget has no engine. */
  const NoEngineError: string := "'NoneType' object has no attribute 'stop'"

  predicate Valid(w: Window) {
    Library.Valid(w.lib)
  }

  function Commands(cmds: seq<Command>): (e: seq<Effect>)
    ensures |e| == |cmds|
    ensures forall i :: 0 <= i < |cmds| ==> e[i] == EngineCommand(cmds[i])
  {
    seq(|cmds|, i requires 0 <= i < |cmds| => EngineCommand(cmds[i]))
  }

  function Signals(sigs: seq<Player.Signal>): (e: seq<Effect>)
    ensures |e| == |sigs|
    ensures forall i :: 0 <= i < |sigs| ==> e[i] == Emitted(sigs[i])
  {
    seq(|sigs|, i requires 0 <= i < |sigs| => Emitted(sigs[i]))
  }

  /** `on_playlist_count_changed`: the previous/next file buttons show only
      when there is more than one row. */
  function OnPlaylistCountChanged(w: Window, count: int): (w': Window)
    ensures w'.playlistButtons <==> count > 1
    ensures w' == w.(playlistButtons := w'.playlistButtons)
  {
    w.(playlistButtons := count > 1)
  }

  /** `toggle_fullscreen`. */
  function ToggleFullscreenWindow(w: Window): (w': Window)
    ensures w'.fullscreen != w.fullscreen
    ensures w' == w.(fullscreen := w'.fullscreen)
  {
    w.(fullscreen := !w.fullscreen)
  }

  /** `switch_to_library`: hide the controls, save the position, stop the
      engine, show the library, and leave fullscreen if it is on. Without an
      engine the stop raises and the rest does not happen. */
  function SwitchToLibrary(w: Window, readings: Player.Readings): (r: Step)
    ensures r.w.settings == Player.SaveCurrentPosition(w.session, w.settings, readings)
    ensures |r.effects| >= 3 && r.effects[..2] == [HideControls, SavePosition]
    ensures !w.session.hasPlayer ==>
      r.effects == [HideControls, SavePosition, Raised(NoEngineError)] && r.w == w.(settings := r.w.settings)
    ensures w.session.hasPlayer ==>
      && |r.effects| >= 4
      && r.effects[2..4] == [EngineCommand(Stop), ShowView(LibraryView)]
      && r.w.view == LibraryView && !r.w.fullscreen
      && (ToggleFullscreen in r.effects <==> w.fullscreen)
    ensures r.w.lib == w.lib && r.w.session == w.session && r.w.playlistButtons == w.playlistButtons
  {
    var st := Player.SaveCurrentPosition(w.session, w.settings, readings);
    var w1 := w.(settings := st);
    if !w.session.hasPlayer then Step(w1, [HideControls, SavePosition, Raised(NoEngineError)])
    else
      var w2 := w1.(view := LibraryView);
      if w2.fullscreen then
        Step(ToggleFullscreenWindow(w2), [HideControls, SavePosition, EngineCommand(Stop), ShowView(LibraryView), ToggleFullscreen])
      else
        Step(w2, [HideControls, SavePosition, EngineCommand(Stop), ShowView(LibraryView)])
  }

  /** The engine commands among `e`, in order. */
  function EngineCommands(e: seq<Effect>): (c: seq<Command>)
    ensures |c| <= |e|
    decreases |e|
  {
    if e == [] then []
    else (if e[0].EngineCommand? then [e[0].cmd] else []) + EngineCommands(e[1..])
  }

  lemma {:induction false} EngineCommandsAppend(a: seq<Effect>, b: seq<Effect>)
    ensures EngineCommands(a + b) == EngineCommands(a) + EngineCommands(b)
    decreases |a|
  {
    if a == [] {
      assert a + b == b;
    } else {
      var ab := a + b;
      assert ab != [] && ab[0] == a[0];
      assert ab[1..] == a[1..] + b;
      EngineCommandsAppend(a[1..], b);
      var h: seq<Command> := if a[0].EngineCommand? then [a[0].cmd] else [];
      assert EngineCommands(ab) == h + EngineCommands(ab[1..]);
      assert EngineCommands(a) == h + EngineCommands(a[1..]);
    }
  }

  lemma {:induction false} EngineCommandsOfCommands(c: seq<Command>)
    ensures EngineCommands(Commands(c)) == c
    decreases |c|
  {
    if c != [] {
      assert Commands(c)[1..] == Commands(c[1..]);
      EngineCommandsOfCommands(c[1..]);
    }
  }

  lemma {:induction false} EngineCommandsOfSignals(s: seq<Player.Signal>)
    ensures EngineCommands(Signals(s)) == []
    decreases |s|
  {
    if s != [] {
      assert Signals(s)[1..] == Signals(s[1..]);
      EngineCommandsOfSignals(s[1..]);
    }
  }

  /** The effects of `load_file` with an engine, in the order they happen:
      save, stop, the resume question (if any), play, the extra video and
      then audio tracks, and the controls. */
  function LoadEffects(p: string, ask: seq<Player.Signal>, audio: seq<StreamExtractor.Stream>, video: seq<StreamExtractor.Stream>)
    : (e: seq<Effect>)
    ensures |e| == 4 + |ask| + |video| + |audio|
    ensures e[..2] == [SavePosition, EngineCommand(Stop)] && e[|e| - 1] == Emitted(Player.ShowControls)
  {
    [SavePosition, EngineCommand(Stop)] + Signals(ask) + [EngineCommand(Play(p))]
    + Commands(Player.VideoAdds(video)) + Commands(Player.AudioAdds(audio))
    + [Emitted(Player.ShowControls)]
  }

  /** Read off the engine, `LoadEffects` is stop, play, the video tracks and
      the audio tracks. */
  lemma LoadEffectsCommands(p: string, ask: seq<Player.Signal>, audio: seq<StreamExtractor.Stream>, video: seq<StreamExtractor.Stream>)
    ensures EngineCommands(LoadEffects(p, ask, audio, video))
      == [Stop, Play(p)] + Player.VideoAdds(video) + Player.AudioAdds(audio)
  {
    var head: seq<Effect> := [SavePosition, EngineCommand(Stop)];
    var play: seq<Effect> := [EngineCommand(Play(p))];
    var tail: seq<Effect> := [Emitted(Player.ShowControls)];
    var va, aa := Commands(Player.VideoAdds(video)), Commands(Player.AudioAdds(audio));
    var a1 := head + Signals(ask);
    var a2 := a1 + play;
    var a3 := a2 + va;
    var a4 := a3 + aa;
    assert LoadEffects(p, ask, audio, video) == a4 + tail;
    assert EngineCommands(a1) == [Stop] by {
      EngineCommandsAppend(head, Signals(ask));
      EngineCommandsOfSignals(ask);
      assert EngineCommands(head) == [Stop];
    }
    assert EngineCommands(a2) == [Stop, Play(p)] by {
      EngineCommandsAppend(a1, play);
      assert EngineCommands(play) == [Play(p)];
    }
    assert EngineCommands(a3) == [Stop, Play(p)] + Player.VideoAdds(video) by {
      EngineCommandsAppend(a2, va);
      EngineCommandsOfCommands(Player.VideoAdds(video));
    }
    assert EngineCommands(a4) == [Stop, Play(p)] + Player.VideoAdds(video) + Player.AudioAdds(audio) by {
      EngineCommandsAppend(a3, aa);
      EngineCommandsOfCommands(Player.AudioAdds(audio));
    }
    EngineCommandsAppend(a4, tail);
    assert EngineCommands(tail) == [];
  }

  /** Loading never shows a view by itself. */
  lemma LoadEffectsShowNoView(p: string, ask: seq<Player.Signal>, audio: seq<StreamExtractor.Stream>, video: seq<StreamExtractor.Stream>, v: View)
    ensures ShowView(v) !in LoadEffects(p, ask, audio, video)
  {
    assert ShowView(v) !in Signals(ask);
    assert ShowView(v) !in Commands(Player.VideoAdds(video));
    assert ShowView(v) !in Commands(Player.AudioAdds(audio));
  }

  /** `play_file_and_switch`: no path goes back to the library; otherwise the
      file is loaded (showing the controls) and the player view is shown,
      whether or not the engine took the load. The effects follow
      `load_file` step by step: the old position is saved, the engine
      stopped, the resume question asked, the file played, the extra video
      and then audio tracks added, and the controls shown. */
  function PlayFileAndSwitch(
    w: Window, filepath: Option<string>, audio: seq<StreamExtractor.Stream>, video: seq<StreamExtractor.Stream>,
    readings: Player.Readings, accept: bool): (r: Step)
    ensures filepath.None? ==> r == SwitchToLibrary(w, readings)
    ensures filepath.Some? ==>
      var loaded := Player.LoadFile(w.session, w.settings, filepath.value, Some(audio), Some(video), true, readings, accept);
      && r.w == w.(session := loaded.out.s, settings := loaded.settings, view := PlayerView)
      && |r.effects| > 0 && r.effects[|r.effects| - 1] == ShowView(PlayerView)
    ensures filepath.Some? && !w.session.hasPlayer ==> r.effects == [ShowView(PlayerView)]
    ensures filepath.Some? && w.session.hasPlayer ==>
      var p := filepath.value;
      var st := Player.SaveCurrentPosition(w.session, w.settings, readings);
      var ask := Player.CheckForResume(w.session.(currentFile := Some(p)), st, accept).signals;
      r.effects == LoadEffects(p, ask, audio, video) + [ShowView(PlayerView)]
    ensures r.w.lib == w.lib
  {
    match filepath
    case None => SwitchToLibrary(w, readings)
    case Some(p) =>
      var loaded := Player.LoadFile(w.session, w.settings, p, Some(audio), Some(video), true, readings, accept);
      var w' := w.(session := loaded.out.s, settings := loaded.settings, view := PlayerView);
      if !w.session.hasPlayer then Step(w', [ShowView(PlayerView)])
      else
        var ask := Player.CheckForResume(w.session.(currentFile := Some(p)), loaded.settings, accept).signals;
        Step(w', LoadEffects(p, ask, audio, video) + [ShowView(PlayerView)])
  }

  /** Read off the engine, the window's effects are exactly the commands
      `load_file` sends, in the same order. */
  lemma PlayFileAndSwitchIssuesLoadCommands(
    w: Window, p: string, audio: seq<StreamExtractor.Stream>, video: seq<StreamExtractor.Stream>,
    readings: Player.Readings, accept: bool)
    ensures var loaded := Player.LoadFile(w.session, w.settings, p, Some(audio), Some(video), true, readings, accept);
      EngineCommands(PlayFileAndSwitch(w, Some(p), audio, video, readings, accept).effects) == loaded.out.commands
  {
    var r := PlayFileAndSwitch(w, Some(p), audio, video, readings, accept);
    if w.session.hasPlayer {
      var st := Player.SaveCurrentPosition(w.session, w.settings, readings);
      var ask := Player.CheckForResume(w.session.(currentFile := Some(p)), st, accept).signals;
      LoadEffectsCommands(p, ask, audio, video);
      EngineCommandsAppend(LoadEffects(p, ask, audio, video), [ShowView(PlayerView)]);
    }
    assert EngineCommands([ShowView(PlayerView)]) == [];
  }

  /** Hands a library play request, if any, to `play_file_and_switch`. */
  function Route(w: Window, req: Option<Library.PlayRequest>, readings: Player.Readings, accept: bool): (r: Step)
    ensures req.None? ==> r == Step(w, [])
    ensures req.Some? ==> r == PlayFileAndSwitch(w, Some(req.value.path), req.value.audio, req.value.video, readings, accept)
  {
    match req
    case None => Step(w, [])
    case Some(q) => PlayFileAndSwitch(w, Some(q.path), q.audio, q.video, readings, accept)
  }

  /** `on_playback_finished`: with the whole playlist looping the next row is
      played (wrapping to the first); otherwise the window returns to the
      library. */
  function OnPlaybackFinished(w: Window, loopAll: bool, readings: Player.Readings, accept: bool): (r: Step)
    requires Valid(w)
    ensures Valid(r.w)
    ensures !loopAll ==> r == SwitchToLibrary(w, readings)
    ensures loopAll ==>
      var (lib', req) := Library.PlayNext(w.lib, true);
      r == Route(w.(lib := lib'), req, readings, accept)
  {
    if loopAll then
      var (lib', req) := Library.PlayNext(w.lib, true);
      Route(w.(lib := lib'), req, readings, accept)
    else SwitchToLibrary(w, readings)
  }

  /** What routing the play request of row `n` does to the window: the
      player view is shown, the engine plays the request's path with its
      extra tracks; a row that plays nothing leaves the window as it was. */
  predicate PlaysRow(w: Window, n: int, r: Step)
    requires Valid(w) && 0 <= n < |w.lib.rows|
  {
    var req := Library.PlayItem(w.lib, n).1;
    && r.w.lib.rows == w.lib.rows && r.w.lib.current == n
    && (req.Some? ==>
          && r.w.view == PlayerView
          && r.w.session.hasPlayer == w.session.hasPlayer
          && (w.session.hasPlayer ==>
                && r.w.session.currentFile == Some(req.value.path)
                && EngineCommands(r.effects)
                   == [Stop, Play(req.value.path)] + Player.VideoAdds(req.value.video) + Player.AudioAdds(req.value.audio)))
    && (req.None? ==> r.effects == [] && r.w.session == w.session && r.w.view == w.view)
  }

  /** Makes row `n` current and routes its play request. */
  function PlayRowAndRoute(w: Window, n: int, readings: Player.Readings, accept: bool): (r: Step)
    requires Valid(w) && 0 <= n < |w.lib.rows|
    ensures Valid(r.w)
    ensures PlaysRow(w, n, r)
  {
    var l' := w.lib.(current := n);
    assert forall key :: Library.HasRowFor(w.lib, key) ==> Library.HasRowFor(l', key);
    var (lib', req) := Library.PlayItem(l', n);
    assert req == Library.PlayItem(w.lib, n).1;
    if req.Some? then
      PlayFileAndSwitchIssuesLoadCommands(w.(lib := lib'), req.value.path, req.value.audio, req.value.video, readings, accept);
      Route(w.(lib := lib'), req, readings, accept)
    else Route(w.(lib := lib'), req, readings, accept)
  }

  /** The overlay's next-file button: `play_next(loop_all=False)`. Without a
      next row nothing happens; otherwise the next row becomes current and
      is played. */
  function NextFileButton(w: Window, readings: Player.Readings, accept: bool): (r: Step)
    requires Valid(w)
    ensures Valid(r.w)
    ensures !Library.HasNextVideo(w.lib, false) ==> r == Step(w, [])
    ensures Library.HasNextVideo(w.lib, false) ==> 0 <= w.lib.current + 1 < |w.lib.rows| && PlaysRow(w, w.lib.current + 1, r)
  {
    match Library.NextRow(w.lib, false)
    case None => Step(w, [])
    case Some(n) => PlayRowAndRoute(w, n, readings, accept)
  }

  /** The overlay's previous-file button: `play_previous`. On an empty
      library nothing happens; otherwise the row above (the last row from
      the top) becomes current and is played. */
  function PreviousFileButton(w: Window, readings: Player.Readings, accept: bool): (r: Step)
    requires Valid(w)
    ensures Valid(r.w)
    ensures w.lib.rows == [] ==> r == Step(w, [])
    ensures w.lib.rows != [] ==>
      var p := if w.lib.current >= 1 then w.lib.current - 1 else |w.lib.rows| - 1;
      0 <= p < |w.lib.rows| && PlaysRow(w, p, r)
  {
    match Library.PreviousRow(w.lib)
    case None => Step(w, [])
    case Some(p) => PlayRowAndRoute(w, p, readings, accept)
  }

  /** The end of a file with the playlist looping never returns to the
      library: a non-empty playlist whose rows all name a playable file or
      a stream with video moves on to the next row in the player view. */
  lemma LoopAllKeepsPlaying(w: Window, readings: Player.Readings, accept: bool)
    requires Valid(w) && |w.lib.rows| > 0
    requires forall i :: 0 <= i < |w.lib.rows| ==> w.lib.rows[i].filepath != ""
    requires forall k :: k in w.lib.cache ==> |w.lib.cache[k].videoStreams| > 0
    ensures OnPlaybackFinished(w, true, readings, accept).w.view == PlayerView
    ensures ShowView(LibraryView) !in OnPlaybackFinished(w, true, readings, accept).effects
  {
    var n := Library.NextRow(w.lib, true).value;
    assert w.lib.rows[n].filepath != "";
    var (lib', req) := Library.PlayNext(w.lib, true);
    var q := req.value;
    if w.session.hasPlayer {
      var st := Player.SaveCurrentPosition(w.session, w.settings, readings);
      var ask := Player.CheckForResume(w.session.(currentFile := Some(q.path)), st, accept).signals;
      LoadEffectsShowNoView(q.path, ask, q.audio, q.video, LibraryView);
    }
  }

  /** `open_network_stream`: a cancelled or empty URL does nothing; a URL
      yt-dlp finds no video for gets a warning and nothing else; otherwise a
      row keyed by the URL and titled with the extracted title is added, its
      streams are cached, and its best video stream is played with the audio
      streams and the other video streams as extra tracks. `info` is what
      yt-dlp returns, `None` when it raised; `present` is
      `Path(url).exists()`, which names the row only when the extracted title
      is `None`. */
  function OpenNetworkStream(
    w: Window, ok: bool, url: string, info: Option<StreamExtractor.Info>, present: bool,
    readings: Player.Readings, accept: bool): (r: Step)
    requires Valid(w)
    ensures Valid(r.w)
    ensures !ok || url == "" ==> r == Step(w, [])
    ensures ok && url != "" && (StreamExtractor.GetAllStreams(url, info).None?
                                || StreamExtractor.GetAllStreams(url, info).value.videoStreams == []) ==>
      r == Step(w, [NoStreamsWarning])
    ensures ok && url != "" && StreamExtractor.GetAllStreams(url, info).Some?
            && StreamExtractor.GetAllStreams(url, info).value.videoStreams != [] ==>
      var sd := StreamExtractor.GetAllStreams(url, info).value;
      && |r.w.lib.rows| == |w.lib.rows| + 1
      && r.w.lib.rows[|w.lib.rows|].filepath == url
      && r.w.lib.rows[|w.lib.rows|].title == Library.DisplayName(url, sd.title, present)
      && r.w.lib.cache == w.lib.cache[url := sd]
      && r.w.view == PlayerView
      && (r.w.playlistButtons <==> |r.w.lib.rows| > 1)
      && r.w.session.hasPlayer == w.session.hasPlayer
      && (w.session.hasPlayer ==>
            && r.w.session.currentFile == Some(sd.videoStreams[0].url)
            && EngineCommands(r.effects)
               == [Stop, Play(sd.videoStreams[0].url)] + Player.VideoAdds(sd.videoStreams[1..]) + Player.AudioAdds(sd.audioStreams))
  {
    if !(ok && url != "") then Step(w, [])
    else
      match StreamExtractor.GetAllStreams(url, info)
      case None => Step(w, [NoStreamsWarning])
      case Some(sd) =>
        if sd.videoStreams == [] then Step(w, [NoStreamsWarning])
        else
          var (lib', count) := Library.AddFile(w.lib, url, sd.title, Some(sd), present);
          var w1 := OnPlaylistCountChanged(w.(lib := lib'), count);
          PlayFileAndSwitchIssuesLoadCommands(w1, sd.videoStreams[0].url, sd.audioStreams, sd.videoStreams[1..], readings, accept);
          PlayFileAndSwitch(w1, Some(sd.videoStreams[0].url), sd.audioStreams, sd.videoStreams[1..], readings, accept)
  }

  /** What a network stream plays when opened is what its library row plays
      when it is picked again later: the row's play request names the best
      video stream with the audio streams and the other video streams, and
      routing it sends the engine the same commands the opening did. */
  lemma NetworkRowReplaysTheSameStreams(
    w: Window, url: string, info: Option<StreamExtractor.Info>, present: bool,
    readings: Player.Readings, accept: bool, later: Player.Readings, acceptLater: bool)
    requires Valid(w) && url != ""
    requires StreamExtractor.GetAllStreams(url, info).Some?
    requires StreamExtractor.GetAllStreams(url, info).value.videoStreams != []
    ensures
      var sd := StreamExtractor.GetAllStreams(url, info).value;
      var r := OpenNetworkStream(w, true, url, info, present, readings, accept);
      var (lib2, again) := Library.PlayItem(r.w.lib, |w.lib.rows|);
      && again == Some(Library.PlayRequest(sd.videoStreams[0].url, sd.audioStreams, sd.videoStreams[1..]))
      && (w.session.hasPlayer ==>
            EngineCommands(Route(r.w.(lib := lib2), again, later, acceptLater).effects) == EngineCommands(r.effects))
  {
    var sd := StreamExtractor.GetAllStreams(url, info).value;
    var r := OpenNetworkStream(w, true, url, info, present, readings, accept);
    var (lib2, again) := Library.PlayItem(r.w.lib, |w.lib.rows|);
    if w.session.hasPlayer {
      var q := again.value;
      PlayFileAndSwitchIssuesLoadCommands(r.w.(lib := lib2), q.path, q.audio, q.video, later, acceptLater);
    }
  }

  /** `closeEvent`: the position is saved, then the engine is shut down. */
  function CloseEvent(w: Window, readings: Player.Readings, stopFails: bool): (r: Step)
    ensures r.w == w.(settings := Player.SaveCurrentPosition(w.session, w.settings, readings))
    ensures |r.effects| >= 1 && r.effects[0] == SavePosition
    ensures r.effects[1..] == Commands(Player.Shutdown(w.session, stopFails))
  {
    Step(w.(settings := Player.SaveCurrentPosition(w.session, w.settings, readings)),
         [SavePosition] + Commands(Player.Shutdown(w.session, stopFails)))
  }

  /** Closing the window after watching past ten seconds, away from the end,
      leaves that time to resume from. */
  lemma CloseKeepsResumePoint(w: Window, t: real, stopFails: bool)
    requires w.session.hasStore && w.session.hasPlayer && Truthy(w.session.currentFile)
    requires t > Player.ResumeThreshold
    ensures
      var r := CloseEvent(w, Player.Readings(Some(t), None), stopFails);
      Persistence.LoadPlaybackPosition(r.w.settings, w.session.currentFile.value) == t
  {
  }

  // ----- Keyboard ---------------------------------------------------------

  datatype Key = KeySpace | KeyF | KeyEscape | KeyRight | KeyLeft | KeyUp | KeyDown | OtherKey(code: int)

  /** A handled key (with what it did), a key handed to the default
      handler, or a handler that raised. */
  datatype KeyOutcome = Handled(step: Step) | PassedOn | NameError(name: string)

  /** The engine command of a player slot, as an effect list. */
  function Slot(w: Window, a: Player.UserAction, paused: bool): (e: seq<Effect>)
    ensures w.session.hasPlayer ==> |e| == 1 && e[0] == EngineCommand(Player.UserCommand(w.session, a, paused, false).value)
    ensures !w.session.hasPlayer ==> e == []
  {
    match Player.UserCommand(w.session, a, paused, false)
    case None => []
    case Some(c) => [EngineCommand(c)]
  }

  /** `Esc`: leaves fullscreen, but only from the player view. */
  function Escape(w: Window): (r: Step)
    requires w.fullscreen
    ensures w.view == PlayerView ==> !r.w.fullscreen && r.effects == [ToggleFullscreen]
    ensures w.view == LibraryView ==> r == Step(w, [])
  {
    if w.view == PlayerView then Step(ToggleFullscreenWindow(w), [ToggleFullscreen]) else Step(w, [])
  }

  /** `keyPressEvent` as written: the branch for the left arrow names
      `QtKey`, which is not defined, so every key that gets that far
      (left, up, down, escape outside fullscreen, and any other key) raises
      `NameError`. `inputFocused` is a focused input dialog or list widget;
      `paused` is the engine's pause flag. */
  function KeyPressAsWritten(w: Window, key: Key, inputFocused: bool, paused: bool): (r: KeyOutcome)
    ensures inputFocused ==> r == PassedOn
    ensures !inputFocused ==> r != PassedOn
    ensures !inputFocused ==>
      (r.NameError? <==> !(key.KeySpace? || key.KeyF? || key.KeyRight? || (key.KeyEscape? && w.fullscreen)))
    ensures r.NameError? ==> r.name == "QtKey"
    ensures !inputFocused && key.KeySpace? ==> r == Handled(Step(w, Slot(w, Player.TogglePause, paused)))
    ensures !inputFocused && key.KeyF? ==> r == Handled(Step(ToggleFullscreenWindow(w), [ToggleFullscreen]))
    ensures !inputFocused && key.KeyEscape? && w.fullscreen ==> r == Handled(Escape(w))
    ensures !inputFocused && key.KeyRight? ==> r == Handled(Step(w, Slot(w, Player.SeekForward, paused)))
  {
    if inputFocused then PassedOn
    else
      match key
      case KeySpace => Handled(Step(w, Slot(w, Player.TogglePause, paused)))
      case KeyF => Handled(Step(ToggleFullscreenWindow(w), [ToggleFullscreen]))
      case KeyEscape =>
        if w.fullscreen then Handled(Escape(w)) else NameError("QtKey")
      case KeyRight => Handled(Step(w, Slot(w, Player.SeekForward, paused)))
      case _ => NameError("QtKey")
  }

  /** `keyPressEvent` as intended: left seeks back ten seconds, up and down
      change the volume by five, and every other key goes to the default
      handler. */
  function KeyPress(w: Window, key: Key, inputFocused: bool, paused: bool): (r: KeyOutcome)
    ensures !r.NameError?
    ensures r.PassedOn? <==> inputFocused || key.OtherKey? || (key.KeyEscape? && !w.fullscreen)
    ensures !inputFocused && w.session.hasPlayer && key.KeyLeft? ==>
      r == Handled(Step(w, [EngineCommand(SeekRelative(-10))]))
    ensures !inputFocused && w.session.hasPlayer && (key.KeyUp? || key.KeyDown?) ==>
      r == Handled(Step(w, [EngineCommand(AddVolume(if key.KeyUp? then 5 else -5))]))
    ensures !inputFocused && r.Handled? ==> r.step.w.lib == w.lib && r.step.w.session == w.session
    ensures !inputFocused && key.KeySpace? ==> r == Handled(Step(w, Slot(w, Player.TogglePause, paused)))
    ensures !inputFocused && key.KeyF? ==> r == Handled(Step(ToggleFullscreenWindow(w), [ToggleFullscreen]))
    ensures !inputFocused && key.KeyEscape? && w.fullscreen ==> r == Handled(Escape(w))
    ensures !inputFocused && key.KeyRight? ==> r == Handled(Step(w, Slot(w, Player.SeekForward, paused)))
  {
    if inputFocused then PassedOn
    else
      match key
      case KeySpace => Handled(Step(w, Slot(w, Player.TogglePause, paused)))
      case KeyF => Handled(Step(ToggleFullscreenWindow(w), [ToggleFullscreen]))
      case KeyEscape => if w.fullscreen then Handled(Escape(w)) else PassedOn
      case KeyRight => Handled(Step(w, Slot(w, Player.SeekForward, paused)))
      case KeyLeft => Handled(Step(w, Slot(w, Player.SeekBackward, paused)))
      case KeyUp => Handled(Step(w, Slot(w, Player.AddVolumeBy(5), paused)))
      case KeyDown => Handled(Step(w, Slot(w, Player.AddVolumeBy(-5), paused)))
      case OtherKey(_) => PassedOn
  }

  /** The two dispatchers agree on every key the written one handles. */
  lemma KeyPressAgreesWhereItRuns(w: Window, key: Key, inputFocused: bool, paused: bool)
    requires !KeyPressAsWritten(w, key, inputFocused, paused).NameError?
    ensures KeyPress(w, key, inputFocused, paused) == KeyPressAsWritten(w, key, inputFocused, paused)
  {
  }

  /** The left arrow, meant to seek back, raises instead; the right arrow
      works, so a seek forward cannot be undone from the keyboard. */
  lemma LeftArrowRaises(w: Window, paused: bool)
    requires w.session.hasPlayer
    ensures KeyPressAsWritten(w, KeyLeft, false, paused) == NameError("QtKey")
    ensures KeyPressAsWritten(w, KeyRight, false, paused) == Handled(Step(w, [EngineCommand(SeekRelative(10))]))
    ensures KeyPress(w, KeyLeft, false, paused) == Handled(Step(w, [EngineCommand(SeekRelative(-10))]))
  {
  }

  /** With the intended dispatcher the arrows undo each other: right then
      left seeks back to where it was, up then down restores the volume. */
  lemma ArrowsCancel(w: Window, paused: bool)
    requires w.session.hasPlayer
    ensures
      var r := KeyPress(w, KeyRight, false, paused).step.effects[0].cmd;
      var l := KeyPress(w, KeyLeft, false, paused).step.effects[0].cmd;
      r.seconds + l.seconds == 0
    ensures
      var u := KeyPress(w, KeyUp, false, paused).step.effects[0].cmd;
      var d := KeyPress(w, KeyDown, false, paused).step.effects[0].cmd;
      u.amount + d.amount == 0
  {
  }
}

=== FILE: overlay.dfy ===
/** `OverlayWidget` (overlay_widget.py): the chapter lookup, the loop button,
    the track and chapter menus with their check marks, and the seek bar.

    A menu is a sequence of entries; an entry is a checkable action with a
    label and its data, or a separator. Chapters and tracks are the entries
    of mpv's `chapter-list` and `track-list` properties, restricted to the
    keys the widget reads; a key mpv leaves out is `None` here.
 */
module Overlay {
  import opened Py
  import opened Strings
  import opened Engine
  import Utils

  // ----- Chapters -------------------------------------------------------

  datatype Chapter = Chapter(time: Option<real>, title: Option<string>)

  /** `chapter.get('time', 0)`. */
  function StartOf(c: Chapter): real {
    c.time.GetOr(0.0)
  }

  /** `find_chapter_for_time`: the title of the last chapter that has
      started by `t` ("Chapter" when it has none), `None` when no chapter has
      started (in particular for an empty list). */
  function FindChapterForTime(chapters: seq<Chapter>, t: real): (r: Option<string>)
    ensures r.None? <==> forall i :: 0 <= i < |chapters| ==> t < StartOf(chapters[i])
    ensures r.Some? ==>
      exists i :: (0 <= i < |chapters| && StartOf(chapters[i]) <= t
        && r.value == chapters[i].title.GetOr("Chapter")
        && forall j :: i < j < |chapters| ==> t < StartOf(chapters[j]))
    decreases |chapters|
  {
    if |chapters| == 0 then None
    else
      var last := chapters[|chapters| - 1];
      if t >= StartOf(last) then Some(last.title.GetOr("Chapter"))
      else
        var r := FindChapterForTime(chapters[..|chapters| - 1], t);
        assert forall i :: 0 <= i < |chapters| - 1 ==> chapters[..|chapters| - 1][i] == chapters[i];
        r
  }

  predicate StartsAscending(chapters: seq<Chapter>) {
    forall a, b :: 0 <= a <= b < |chapters| ==> StartOf(chapters[a]) <= StartOf(chapters[b])
  }

  /** With chapters in time order, the lookup names the chapter whose span
      contains `t`. */
  lemma FindChapterInSpan(chapters: seq<Chapter>, t: real, i: nat)
    requires StartsAscending(chapters)
    requires i < |chapters| && StartOf(chapters[i]) <= t
    requires i + 1 == |chapters| || t < StartOf(chapters[i + 1])
    ensures FindChapterForTime(chapters, t) == Some(chapters[i].title.GetOr("Chapter"))
  {
    var r := FindChapterForTime(chapters, t);
    var k :| 0 <= k < |chapters| && StartOf(chapters[k]) <= t
      && r.value == chapters[k].title.GetOr("Chapter")
      && forall j :: k < j < |chapters| ==> t < StartOf(chapters[j]);
  }

  // ----- Loop button ----------------------------------------------------

  /** `update_loop_button`. */
  function LoopButtonText(state: string): (text: string)
    ensures text == "Loop: One" <==> state == "one"
    ensures text == "Loop: All" <==> state == "all"
    ensures text == "Loop: Off" <==> state != "one" && state != "all"
  {
    if state == "one" then "Loop: One"
    else if state == "all" then "Loop: All"
    else "Loop: Off"
  }

  // ----- Bitrate --------------------------------------------------------

  /** Which text `_format_bitrate` writes: megabits or kilobits per second,
      with the amount it formats. */
  datatype BitrateText = Mbps(amount: real) | Kbps(amount: real)

  /** `_format_bitrate`: nothing for a missing or non-positive bitrate,
      megabits above 1,000,000 and kilobits otherwise. */
  function FormatBitrate(bitrate: Option<real>): (r: Option<BitrateText>)
    ensures r.None? <==> bitrate.None? || bitrate.value <= 0.0
    ensures r.Some? ==> (r.value.Mbps? <==> bitrate.value > 1000000.0)
    ensures r.Some? && r.value.Mbps? ==> r.value.amount * 1000000.0 == bitrate.value
    ensures r.Some? && r.value.Kbps? ==> r.value.amount * 1000.0 == bitrate.value
  {
    match bitrate
    case None => None
    case Some(b) =>
      if b <= 0.0 then None
      else if b > 1000000.0 then Some(Mbps(b / 1000000.0))
      else Some(Kbps(b / 1000.0))
  }

  /** Exactly one megabit per second is still written in kilobits. */
  lemma BitrateBoundary()
    ensures FormatBitrate(Some(1000000.0)) == Some(Kbps(1000.0))
    ensures FormatBitrate(Some(1000001.0)).value.Mbps?
  {
  }

  // ----- Track menus ----------------------------------------------------

  /** An entry of mpv's `track-list`; `kind` is its 'type'. */
  datatype Track = Track(
    id: int,
    kind: string,
    title: Option<string>,
    lang: Option<string>,
    codec: Option<string>,
    bitrate: Option<real>,
    width: Option<int>,
    height: Option<int>)

  datatype MenuItem = Action(text: string, data: string, checked: bool) | Separator

  /** `str(track['id'])`. */
  function TrackId(t: Track): string {
    IntToString(t.id)
  }

  /** The name part of a label: the title, or "Video/Audio/Subtitle #id". */
  function NamePart(t: Track): seq<string> {
    if Truthy(t.title) then [t.title.value]
    else if t.kind == "video" then ["Video #" + TrackId(t)]
    else if t.kind == "audio" then ["Audio #" + TrackId(t)]
    else if t.kind == "sub" then ["Subtitle #" + TrackId(t)]
    else []
  }

  /** The details part: "(codec / bitrate)", the bitrate left out for
      subtitles; `render` writes the bitrate amount as text. */
  function DetailsPart(t: Track, render: BitrateText -> string): seq<string> {
    var bitrate := FormatBitrate(t.bitrate);
    var details := (if Truthy(t.codec) then [t.codec.value] else [])
      + (if bitrate.Some? && render(bitrate.value) != "" && t.kind != "sub" then [render(bitrate.value)] else []);
    if |details| > 0 then ["(" + Join(details, " / ") + ")"] else []
  }

  /** "[WxH]" with '?' for a missing dimension. */
  function ResolutionTag(t: Track): string {
    var w := if t.width.Some? then IntToString(t.width.value) else "?";
    var h := if t.height.Some? then IntToString(t.height.value) else "?";
    "[" + w + "x" + h + "]"
  }

  function LabelParts(t: Track, render: BitrateText -> string): seq<string> {
    var parts := NamePart(t)
      + (if Truthy(t.lang) then ["[" + Upper(t.lang.value) + "]"] else [])
      + DetailsPart(t, render);
    if t.kind == "video" then [ResolutionTag(t)] + parts else parts
  }

  function TrackLabel(t: Track, render: BitrateText -> string): string {
    Join(LabelParts(t, render), " ")
  }

  lemma JoinCons(head: string, rest: seq<string>, sep: string)
    ensures |Join([head] + rest, sep)| >= |head|
    ensures Join([head] + rest, sep)[..|head|] == head
  {
    if |rest| > 0 {
      assert ([head] + rest)[1..] == rest;
    }
  }

  /** A video track's label starts with its resolution. */
  lemma VideoLabelStartsWithResolution(t: Track, render: BitrateText -> string)
    requires t.kind == "video"
    ensures var shown := TrackLabel(t, render);
      |ResolutionTag(t)| <= |shown| && shown[..|ResolutionTag(t)|] == ResolutionTag(t)
  {
    var parts := NamePart(t)
      + (if Truthy(t.lang) then ["[" + Upper(t.lang.value) + "]"] else [])
      + DetailsPart(t, render);
    JoinCons(ResolutionTag(t), parts, " ");
  }

  /** Any other track's label starts with its title, or with the generated
      name when it has no title. */
  lemma LabelStartsWithName(t: Track, render: BitrateText -> string)
    requires t.kind != "video" && NamePart(t) != []
    ensures var shown := TrackLabel(t, render);
      |NamePart(t)[0]| <= |shown| && shown[..|NamePart(t)[0]|] == NamePart(t)[0]
  {
    var rest := (if Truthy(t.lang) then ["[" + Upper(t.lang.value) + "]"] else []) + DetailsPart(t, render);
    assert LabelParts(t, render) == [NamePart(t)[0]] + rest;
    JoinCons(NamePart(t)[0], rest, " ");
  }

  /** A subtitle's label never shows a bitrate. */
  lemma SubtitleLabelIgnoresBitrate(t: Track, render: BitrateText -> string)
    requires t.kind == "sub"
    ensures TrackLabel(t, render) == TrackLabel(t.(bitrate := None), render)
  {
  }

  /** An empty title counts as no title. */
  lemma EmptyTitleIsNoTitle(t: Track, render: BitrateText -> string)
    ensures TrackLabel(t.(title := Some("")), render) == TrackLabel(t.(title := None), render)
  {
    var a, b := t.(title := Some("")), t.(title := None);
    assert NamePart(a) == NamePart(b);
    assert DetailsPart(a, render) == DetailsPart(b, render);
    assert LabelParts(a, render) == LabelParts(b, render);
  }

  /** The first two entries of every track menu. */
  function NoneEntry(current: string): MenuItem {
    Action("None", "no", current == "no")
  }

  function TrackAction(t: Track, current: string, render: BitrateText -> string): MenuItem {
    Action(TrackLabel(t, render), TrackId(t), TrackId(t) == current)
  }

  function CountKind(tracks: seq<Track>, kind: string): nat
    decreases |tracks|
  {
    if |tracks| == 0 then 0
    else (if tracks[0].kind == kind then 1 else 0) + CountKind(tracks[1..], kind)
  }

  /** The actions for the tracks of one kind, in track-list order. */
  function KindActions(tracks: seq<Track>, kind: string, current: string, render: BitrateText -> string): seq<MenuItem>
    decreases |tracks|
  {
    if |tracks| == 0 then []
    else
      (if tracks[0].kind == kind then [TrackAction(tracks[0], current, render)] else [])
        + KindActions(tracks[1..], kind, current, render)
  }

  /** One action per track of the kind, each checked iff its id is the
      current one; no track id reads "no". */
  lemma {:induction false} KindActionsShape(tracks: seq<Track>, kind: string, current: string, render: BitrateText -> string)
    ensures var r := KindActions(tracks, kind, current, render);
      |r| == CountKind(tracks, kind)
      && (forall j :: 0 <= j < |r| ==> r[j].Action? && (r[j].checked <==> r[j].data == current))
      && (forall j :: 0 <= j < |r| ==> r[j].data != "no")
    decreases |tracks|
  {
    if |tracks| > 0 {
      KindActionsShape(tracks[1..], kind, current, render);
      assert TrackId(tracks[0])[0] != 'n';
      var head := if tracks[0].kind == kind then [TrackAction(tracks[0], current, render)] else [];
      var tail := KindActions(tracks[1..], kind, current, render);
      assert KindActions(tracks, kind, current, render) == head + tail;
    }
  }

  lemma {:induction false} KindActionsAppend(a: seq<Track>, t: Track, kind: string, current: string, render: BitrateText -> string)
    ensures KindActions(a + [t], kind, current, render)
      == KindActions(a, kind, current, render) + (if t.kind == kind then [TrackAction(t, current, render)] else [])
    decreases |a|
  {
    var last: seq<MenuItem> := if t.kind == kind then [TrackAction(t, current, render)] else [];
    if |a| == 0 {
      assert a + [t] == [t];
      assert [t][1..] == [];
      assert KindActions([t], kind, current, render) == last + [];
    } else {
      var at := a + [t];
      assert at[0] == a[0] && at[1..] == a[1..] + [t];
      KindActionsAppend(a[1..], t, kind, current, render);
      var h: seq<MenuItem> := if a[0].kind == kind then [TrackAction(a[0], current, render)] else [];
      assert KindActions(at, kind, current, render) == h + KindActions(at[1..], kind, current, render);
      assert KindActions(a, kind, current, render) == h + KindActions(a[1..], kind, current, render);
    }
  }

  lemma MenuStep(ts: seq<Track>, i: nat, kind: string, current: string, render: BitrateText -> string)
    requires i < |ts|
    ensures KindActions(ts[..i + 1], kind, current, render)
      == KindActions(ts[..i], kind, current, render) + (if ts[i].kind == kind then [TrackAction(ts[i], current, render)] else [])
  {
    assert ts[..i + 1] == ts[..i] + [ts[i]];
    KindActionsAppend(ts[..i], ts[i], kind, current, render);
  }

  /** The menu of one kind: "None", a separator, then the tracks of the kind. */
  function TrackMenu(tracks: seq<Track>, kind: string, current: string, render: BitrateText -> string): seq<MenuItem> {
    [NoneEntry(current), Separator] + KindActions(tracks, kind, current, render)
  }

  lemma KindsDistinct()
    ensures "audio" != "sub" && "audio" != "video" && "sub" != "video"
  {
    assert |"sub"| != |"audio"|;
    assert "audio"[0] != "video"[0];
  }

  datatype TrackMenus = TrackMenus(audio: seq<MenuItem>, sub: seq<MenuItem>, video: seq<MenuItem>)

  /** `update_track_menus`: all three menus rebuilt from the track list (a
      missing list counts as empty). */
  method UpdateTrackMenus(tracks: Option<seq<Track>>, aid: string, sid: string, vid: string, render: BitrateText -> string)
    returns (menus: TrackMenus)
    ensures var ts := tracks.GetOr([]);
      menus.audio == TrackMenu(ts, "audio", aid, render)
      && menus.sub == TrackMenu(ts, "sub", sid, render)
      && menus.video == TrackMenu(ts, "video", vid, render)
  {
    KindsDistinct();
    var ts := tracks.GetOr([]);
    var audio := [NoneEntry(aid), Separator];
    var sub := [NoneEntry(sid), Separator];
    var video := [NoneEntry(vid), Separator];
    for i := 0 to |ts|
      invariant audio == [NoneEntry(aid), Separator] + KindActions(ts[..i], "audio", aid, render)
      invariant sub == [NoneEntry(sid), Separator] + KindActions(ts[..i], "sub", sid, render)
      invariant video == [NoneEntry(vid), Separator] + KindActions(ts[..i], "video", vid, render)
    {
      var t := ts[i];
      MenuStep(ts, i, "audio", aid, render);
      MenuStep(ts, i, "sub", sid, render);
      MenuStep(ts, i, "video", vid, render);
      if t.kind == "audio" {
        audio := audio + [TrackAction(t, aid, render)];
      } else if t.kind == "sub" {
        sub := sub + [TrackAction(t, sid, render)];
      } else if t.kind == "video" {
        video := video + [TrackAction(t, vid, render)];
      }
    }
    assert ts[..|ts|] == ts;
    menus := TrackMenus(audio, sub, video);
  }

  function CountOther(tracks: seq<Track>): nat
    decreases |tracks|
  {
    if |tracks| == 0 then 0
    else (if tracks[0].kind !in {"audio", "sub", "video"} then 1 else 0) + CountOther(tracks[1..])
  }

  /** Every track lands in exactly one menu, except tracks of another type,
      which land in none. */
  lemma {:induction false} TracksPartitioned(tracks: seq<Track>)
    ensures CountKind(tracks, "audio") + CountKind(tracks, "sub") + CountKind(tracks, "video") + CountOther(tracks) == |tracks|
    decreases |tracks|
  {
    if |tracks| > 0 {
      TracksPartitioned(tracks[1..]);
    }
  }

  /** With nothing selected ('no'), only the "None" entry is checked. */
  lemma NothingSelectedChecksNone(tracks: seq<Track>, kind: string, render: BitrateText -> string)
    ensures var m := TrackMenu(tracks, kind, "no", render);
      m[0].checked && forall j :: 1 <= j < |m| ==> !(m[j].Action? && m[j].checked)
  {
    var m := TrackMenu(tracks, kind, "no", render);
    var ks := KindActions(tracks, kind, "no", render);
    KindActionsShape(tracks, kind, "no", render);
    forall j | 1 <= j < |m| ensures !(m[j].Action? && m[j].checked) {
      if j >= 2 {
        assert m[j] == ks[j - 2];
      }
    }
  }

  // ----- Track selection ------------------------------------------------

  function SelectItem(item: MenuItem, value: string): MenuItem {
    match item
    case Separator => Separator
    case Action(shown, data, _) => Action(shown, data, data == value)
  }

  /** Re-check a menu: every checkable action is checked iff its data equals
      `value`; labels, data and separators stay. */
  function Select(menu: seq<MenuItem>, value: string): (r: seq<MenuItem>)
    ensures |r| == |menu|
    ensures forall i :: 0 <= i < |menu| ==> r[i].Separator? == menu[i].Separator?
    ensures forall i :: 0 <= i < |menu| && menu[i].Action? ==>
              r[i].text == menu[i].text && r[i].data == menu[i].data && (r[i].checked <==> menu[i].data == value)
  {
    seq(|menu|, i requires 0 <= i < |menu| => SelectItem(menu[i], value))
  }

  /** Selecting twice: the later value alone decides. */
  lemma SelectLastWins(menu: seq<MenuItem>, u: string, v: string)
    ensures Select(Select(menu, u), v) == Select(menu, v)
  {
  }

  lemma {:induction false} SelectKindActions(tracks: seq<Track>, kind: string, current: string, v: string, render: BitrateText -> string)
    ensures Select(KindActions(tracks, kind, current, render), v) == KindActions(tracks, kind, v, render)
    decreases |tracks|
  {
    if |tracks| > 0 {
      SelectKindActions(tracks[1..], kind, current, v, render);
      var head: seq<MenuItem> := if tracks[0].kind == kind then [TrackAction(tracks[0], current, render)] else [];
      var tail := KindActions(tracks[1..], kind, current, render);
      assert KindActions(tracks, kind, current, render) == head + tail;
      SelectAppend(head, tail, v);
      assert Select(head, v) == (if tracks[0].kind == kind then [TrackAction(tracks[0], v, render)] else []);
    }
  }

  lemma SelectAppend(a: seq<MenuItem>, b: seq<MenuItem>, v: string)
    ensures Select(a + b, v) == Select(a, v) + Select(b, v)
  {
  }

  /** Re-checking a built menu for `v` gives the menu built with `v` current:
      selection updates and rebuilding agree. */
  lemma SelectRebuilt(tracks: seq<Track>, kind: string, current: string, v: string, render: BitrateText -> string)
    ensures Select(TrackMenu(tracks, kind, current, render), v) == TrackMenu(tracks, kind, v, render)
  {
    var ks := KindActions(tracks, kind, current, render);
    SelectKindActions(tracks, kind, current, v, render);
    assert Select([NoneEntry(current), Separator] + ks, v) == Select([NoneEntry(current), Separator], v) + Select(ks, v);
  }

  /** `update_track_selection`: 'aid', 'sid' and 'vid' re-check their menu;
      any other name changes nothing. */
  function UpdateTrackSelection(menus: TrackMenus, name: string, value: string): (r: TrackMenus)
    ensures name == "aid" ==> r == menus.(audio := Select(menus.audio, value))
    ensures name == "sid" ==> r == menus.(sub := Select(menus.sub, value))
    ensures name == "vid" ==> r == menus.(video := Select(menus.video, value))
    ensures name !in {"aid", "sid", "vid"} ==> r == menus
  {
    if name == "aid" then menus.(audio := Select(menus.audio, value))
    else if name == "sid" then menus.(sub := Select(menus.sub, value))
    else if name == "vid" then menus.(video := Select(menus.video, value))
    else menus
  }

  /** `set_track_and_update_menu`: the property write (when there is an
      engine) and the re-checked menu. */
  function SetTrackAndUpdateMenu(hasPlayer: bool, property: string, value: string, menu: seq<MenuItem>)
    : (r: (Option<Command>, seq<MenuItem>))
    ensures r.0.Some? <==> hasPlayer
    ensures r.0.Some? ==> r.0.value == SetProperty(property, PStr(value))
    ensures r.1 == Select(menu, value)
  {
    (if hasPlayer then Some(SetProperty(property, PStr(value))) else None, Select(menu, value))
  }

  /** Choosing a track and then hearing the engine report the same id back
      leaves the menu as the choice left it. */
  lemma ChosenTrackReportedBack(hasPlayer: bool, menus: TrackMenus, value: string)
    ensures var chosen := SetTrackAndUpdateMenu(hasPlayer, "aid", value, menus.audio).1;
      UpdateTrackSelection(menus.(audio := chosen), "aid", value) == menus.(audio := chosen)
  {
    SelectLastWins(menus.audio, value, value);
  }

  // ----- Chapter menu ---------------------------------------------------

  datatype ChapterItem = ChapterItem(text: string, index: int, checked: bool)

  /** The chapter list the widget keeps, whether the chapter buttons are
      visible, and the chapter menu. */
  datatype ChapterMenu = ChapterMenu(chapters: seq<Chapter>, visible: bool, items: seq<ChapterItem>)

  function StartText(chapters: seq<Chapter>, i: nat): string
    requires i < |chapters|
  {
    Utils.FormatTime(Some(Finite(StartOf(chapters[i]))))
  }

  /** The end of chapter `i`: the next chapter's 'time' (`None` when it has
      none), or the video's duration for the last chapter. */
  function EndTime(chapters: seq<Chapter>, i: nat, videoDuration: real): Option<Float>
    requires i < |chapters|
  {
    if i + 1 < |chapters| then
      match chapters[i + 1].time
      case None => None
      case Some(x) => Some(Finite(x))
    else Some(Finite(videoDuration))
  }

  function ChapterLabel(chapters: seq<Chapter>, i: nat, videoDuration: real): string
    requires i < |chapters|
  {
    chapters[i].title.GetOr("Chapter " + IntToString(i + 1))
      + " (" + StartText(chapters, i) + " - " + Utils.FormatTime(EndTime(chapters, i, videoDuration)) + ")"
  }

  /** `update_chapter_menu`: the list is kept (a missing one as empty), the
      buttons are shown iff there are chapters, and entry `i` carries `i`
      as data, unchecked. */
  function UpdateChapterMenu(chapters: Option<seq<Chapter>>, videoDuration: real): (m: ChapterMenu)
    ensures m.chapters == chapters.GetOr([])
    ensures m.visible <==> |m.chapters| > 0
    ensures |m.items| == |m.chapters|
    ensures forall i :: 0 <= i < |m.items| ==>
              m.items[i].index == i && !m.items[i].checked && m.items[i].text == ChapterLabel(m.chapters, i, videoDuration)
  {
    var cs := chapters.GetOr([]);
    var items := seq(|cs|, i requires 0 <= i < |cs| => ChapterItem(ChapterLabel(cs, i, videoDuration), i, false));
    ChapterMenu(cs, |cs| > 0, items)
  }

  lemma EndsWith(a: string, b: string, tail: string)
    ensures |tail| <= |a + b + tail| && (a + b + tail)[|a + b + tail| - |tail|..] == tail
  {
  }

  /** Consecutive labels chain: chapter `i` ends where chapter `i + 1` is
      shown to start, as long as the next chapter has a time. */
  lemma ChapterLabelsChain(chapters: seq<Chapter>, i: nat, videoDuration: real)
    requires i + 1 < |chapters| && chapters[i + 1].time.Some?
    ensures var shown := ChapterLabel(chapters, i, videoDuration);
      var tail := " - " + StartText(chapters, i + 1) + ")";
      |tail| <= |shown| && shown[|shown| - |tail|..] == tail
  {
    var head := chapters[i].title.GetOr("Chapter " + IntToString(i + 1)) + " (" + StartText(chapters, i);
    var tail := " - " + StartText(chapters, i + 1) + ")";
    assert ChapterLabel(chapters, i, videoDuration) == head + "" + tail;
    EndsWith(head, "", tail);
  }

  /** The last chapter ends at the video's duration. */
  lemma LastChapterEndsAtDuration(chapters: seq<Chapter>, videoDuration: real)
    requires |chapters| > 0
    ensures var shown := ChapterLabel(chapters, |chapters| - 1, videoDuration);
      var tail := " - " + Utils.FormatTime(Some(Finite(videoDuration))) + ")";
      |tail| <= |shown| && shown[|shown| - |tail|..] == tail
  {
    var i := |chapters| - 1;
    var head := chapters[i].title.GetOr("Chapter " + IntToString(i + 1)) + " (" + StartText(chapters, i);
    var tail := " - " + Utils.FormatTime(Some(Finite(videoDuration))) + ")";
    assert ChapterLabel(chapters, i, videoDuration) == head + "" + tail;
    EndsWith(head, "", tail);
  }

  /** `update_chapter_selection`: exactly the entry whose index is `index`
      is checked. */
  function UpdateChapterSelection(m: ChapterMenu, index: int): (r: ChapterMenu)
    ensures r.chapters == m.chapters && r.visible == m.visible && |r.items| == |m.items|
    ensures forall i :: 0 <= i < |m.items| ==>
              r.items[i].text == m.items[i].text && r.items[i].index == m.items[i].index
              && (r.items[i].checked <==> m.items[i].index == index)
  {
    m.(items := seq(|m.items|, i requires 0 <= i < |m.items| => m.items[i].(checked := m.items[i].index == index)))
  }

  /** On a freshly built menu, selecting a chapter checks exactly one entry
      when the index is in range, and none otherwise. */
  lemma ChapterSelectionSingle(chapters: Option<seq<Chapter>>, videoDuration: real, index: int)
    ensures var r := UpdateChapterSelection(UpdateChapterMenu(chapters, videoDuration), index);
      (forall i :: 0 <= i < |r.items| ==> (r.items[i].checked <==> i == index))
      && ((exists i :: 0 <= i < |r.items| && r.items[i].checked) <==> 0 <= index < |r.items|)
  {
    var r := UpdateChapterSelection(UpdateChapterMenu(chapters, videoDuration), index);
    if 0 <= index < |r.items| {
      assert r.items[index].checked;
    }
  }

  /** `set_chapter_and_update_menu`. */
  function SetChapterAndUpdateMenu(hasPlayer: bool, m: ChapterMenu, index: int): (r: (Option<Command>, ChapterMenu))
    ensures r.0.Some? <==> hasPlayer
    ensures r.0.Some? ==> r.0.value == SetProperty("chapter", PInt(index))
    ensures r.1 == UpdateChapterSelection(m, index)
  {
    (if hasPlayer then Some(SetProperty("chapter", PInt(index))) else None, UpdateChapterSelection(m, index))
  }

  // ----- Seek bar -------------------------------------------------------

  /** Python `int(x)`: truncation toward zero. */
  function Trunc(x: real): (i: int)
    ensures x >= 0.0 ==> i as real <= x < i as real + 1.0
    ensures x < 0.0 ==> i as real - 1.0 < x <= i as real
  {
    if x >= 0.0 then x.Floor else -((-x).Floor)
  }

  function Clamp(v: int, lo: int, hi: int): int {
    if v < lo then lo else if v > hi then hi else v
  }

  /** The seek slider (its range and value, kept in range as `QSlider` does),
      whether the user holds it, the duration and the time shown. */
  datatype SeekBar = SeekBar(seeking: bool, minimum: int, maximum: int, value: int, duration: real, timeText: string)

  predicate SliderValid(b: SeekBar) {
    b.minimum <= b.value <= b.maximum
  }

  /** A new slider has the range 0..99 and value 0. */
  const InitialSeekBar: SeekBar := SeekBar(false, 0, 99, 0, 0.0, "")

  /** `update_time`: the slider follows the time unless the user holds it;
      the label shows the time and the duration. */
  function UpdateTime(b: SeekBar, current: Option<real>): (r: SeekBar)
    ensures SliderValid(b) ==> SliderValid(r)
    ensures r.seeking == b.seeking && r.minimum == b.minimum && r.maximum == b.maximum && r.duration == b.duration
    ensures b.seeking ==> r.value == b.value
    ensures !b.seeking && SliderValid(b) && b.minimum <= Trunc(current.GetOr(0.0)) <= b.maximum ==>
              r.value == Trunc(current.GetOr(0.0))
    ensures !b.seeking && Trunc(current.GetOr(0.0)) < b.minimum ==> r.value == b.minimum
    ensures !b.seeking && b.minimum <= b.maximum && Trunc(current.GetOr(0.0)) > b.maximum ==> r.value == b.maximum
    ensures r.timeText == Utils.FormatTime(Some(Finite(current.GetOr(0.0)))) + " / " + Utils.FormatTime(Some(Finite(b.duration)))
  {
    var t := current.GetOr(0.0);
    var value := if b.seeking then b.value else Clamp(Trunc(t), b.minimum, b.maximum);
    b.(value := value,
       timeText := Utils.FormatTime(Some(Finite(t))) + " / " + Utils.FormatTime(Some(Finite(b.duration))))
  }

  /** `update_duration`: the duration is kept and the slider's maximum set
      to its truncation (`QSlider.setMaximum` lowers the minimum if needed). */
  function UpdateDuration(b: SeekBar, duration: Option<real>): (r: SeekBar)
    ensures SliderValid(r)
    ensures r.duration == duration.GetOr(0.0) && r.maximum == Trunc(r.duration)
    ensures r.seeking == b.seeking && r.timeText == b.timeText
    ensures r.minimum == (if b.minimum < r.maximum then b.minimum else r.maximum)
    ensures SliderValid(b) && b.value <= r.maximum ==> r.value == b.value
    ensures b.value > r.maximum ==> r.value == r.maximum
    ensures b.value < r.minimum ==> r.value == r.minimum
  {
    var d := duration.GetOr(0.0);
    var hi := Trunc(d);
    var lo := if b.minimum < hi then b.minimum else hi;
    b.(duration := d, minimum := lo, maximum := hi, value := Clamp(b.value, lo, hi))
  }

  /** `on_seek_press`. */
  function SeekPress(b: SeekBar): (r: SeekBar)
    ensures r.seeking && r == b.(seeking := true)
  {
    b.(seeking := true)
  }

  /** The user drags the slider to `v`. */
  function SliderMoved(b: SeekBar, v: int): (r: SeekBar)
    ensures b.minimum <= b.maximum ==> SliderValid(r)
    ensures b.minimum <= v <= b.maximum ==> r.value == v
    ensures v < b.minimum ==> r.value == b.minimum
    ensures b.minimum <= b.maximum && v > b.maximum ==> r.value == b.maximum
    ensures r.seeking == b.seeking && r.minimum == b.minimum && r.maximum == b.maximum
  {
    b.(value := Clamp(v, b.minimum, b.maximum))
  }

  /** `on_seek_release`: the hold ends and the engine seeks to the slider's
      value. */
  function SeekRelease(b: SeekBar, hasPlayer: bool): (r: (SeekBar, Option<Command>))
    ensures !r.0.seeking && r.0.value == b.value
    ensures r.1.Some? <==> hasPlayer
    ensures r.1.Some? ==> r.1.value == SetProperty("time-pos", PInt(b.value))
  {
    (b.(seeking := false), if hasPlayer then Some(SetProperty("time-pos", PInt(b.value))) else None)
  }

  function UpdateTimes(b: SeekBar, times: seq<Option<real>>): SeekBar
    decreases |times|
  {
    if |times| == 0 then b else UpdateTimes(UpdateTime(b, times[0]), times[1..])
  }

  lemma {:induction false} UpdateTimesWhileSeeking(b: SeekBar, times: seq<Option<real>>)
    requires b.seeking
    ensures var r := UpdateTimes(b, times);
      r.seeking && r.value == b.value && r.minimum == b.minimum && r.maximum == b.maximum
    decreases |times|
  {
    if |times| > 0 {
      UpdateTimesWhileSeeking(UpdateTime(b, times[0]), times[1..]);
    }
  }

  /** Playback time updates that arrive while the user holds the slider do
      not move it: releasing seeks to where the user dragged it. */
  lemma SeekGoesWhereDragged(b: SeekBar, before: seq<Option<real>>, v: int, after: seq<Option<real>>)
    requires b.minimum <= v <= b.maximum
    ensures var held := UpdateTimes(SliderMoved(UpdateTimes(SeekPress(b), before), v), after);
      SeekRelease(held, true).1 == Some(SetProperty("time-pos", PInt(v)))
  {
    var p := UpdateTimes(SeekPress(b), before);
    UpdateTimesWhileSeeking(SeekPress(b), before);
    var m := SliderMoved(p, v);
    UpdateTimesWhileSeeking(m, after);
  }
}

=== FILE: paths.dfy ===
/** The parts of POSIX `pathlib` the player relies on: `Path(p).name` (the
    thumbnail cache name) and `str(Path(p).parent)` (the remembered
    directory of the file dialog).

    `pathlib` splits a path at '/', drops empty and "." components, and keeps
    a root of "/" (or "//" when the path starts with exactly two slashes).
 */
module Paths {
  import opened Strings

  predicate IsComponent(part: string) {
    part != "" && part != "."
  }

  function KeepComponents(parts: seq<string>): (r: seq<string>)
    ensures forall i :: 0 <= i < |r| ==> IsComponent(r[i])
    decreases |parts|
  {
    if |parts| == 0 then []
    else if IsComponent(parts[0]) then [parts[0]] + KeepComponents(parts[1..])
    else KeepComponents(parts[1..])
  }

  lemma {:induction false} KeepComponentsAppend(a: seq<string>, b: seq<string>)
    ensures KeepComponents(a + b) == KeepComponents(a) + KeepComponents(b)
    decreases |a|
  {
    if |a| == 0 {
      assert a + b == b;
    } else {
      assert (a + b)[1..] == a[1..] + b;
      KeepComponentsAppend(a[1..], b);
    }
  }

  function Components(p: string): seq<string> {
    KeepComponents(Split(p, '/'))
  }

  function Root(p: string): string {
    if |p| >= 2 && p[0] == '/' && p[1] == '/' && (|p| == 2 || p[2] != '/') then "//"
    else if |p| >= 1 && p[0] == '/' then "/"
    else ""
  }

  /** `str(Path(...))` of a root and its components. */
  function Render(root: string, parts: seq<string>): string {
    var s := root + Join(parts, "/");
    if s == "" then "." else s
  }

  /** `str(Path(p))`. */
  function PathStr(p: string): string {
    Render(Root(p), Components(p))
  }

  /** `Path(p).name`: the last component, or "" when there is none. */
  function Name(p: string): (n: string)
    ensures n == "" || IsComponent(n)
  {
    var c := Components(p);
    if |c| == 0 then "" else c[|c| - 1]
  }

  /** `str(Path(p).parent)`: the path without its last component; a path
      without components is its own parent. */
  function Parent(p: string): string {
    var c := Components(p);
    if |c| == 0 then PathStr(p) else Render(Root(p), c[..|c| - 1])
  }

  /** "", "/" and "//" have no components. */
  lemma RootsHaveNoComponents()
    ensures Components("") == []
    ensures Components("/") == []
    ensures Components("//") == []
  {
    assert "/" == [] + ['/'] + [];
    SplitAppend([], '/', []);
    assert Split("", '/') == [""];
    assert Split("/", '/') == ["", ""];
    assert "//" == [] + ['/'] + "/";
    SplitAppend([], '/', "/");
    assert Split("//", '/') == ["", "", ""];
  }

  lemma RootOfChild(p: string, n: string)
    requires Components(p) != []
    ensures Root(p + "/" + n) == Root(p)
  {
    RootsHaveNoComponents();
    var q := p + "/" + n;
    if |p| >= 3 {
      assert q[..3] == p[..3];
    } else if |p| <= 1 {
      assert p != "/";
      assert q[0] == p[0] && q[1] == '/';
    } else {
      assert p != "//";
      assert q[0] == p[0] && q[1] == p[1] && q[2] == '/';
    }
  }

  /** Naming a file `n` inside the directory `p`: its name is `n` and its
      parent is `p` as `pathlib` writes it. */
  lemma ChildNameAndParent(p: string, n: string)
    requires Components(p) != []
    requires IsComponent(n) && '/' !in n
    ensures Name(p + "/" + n) == n
    ensures Parent(p + "/" + n) == PathStr(p)
  {
    var q := p + "/" + n;
    assert q == p + ['/'] + n;
    SplitAppend(p, '/', n);
    assert Split(n, '/') == [n];
    KeepComponentsAppend(Split(p, '/'), [n]);
    assert KeepComponents([n]) == [n];
    var c := Components(q);
    assert c == Components(p) + [n];
    assert c[..|c| - 1] == Components(p);
    RootOfChild(p, n);
  }
}

=== FILE: persistence.dfy ===
/** `PersistenceManager` (persistence_manager.py): playback positions and the
    last-opened directory kept in the application's settings store.

    The settings store is a map from keys to stored values. A position for
    `filepath` lives under the key "playback_positions/" + filepath (the
    settings group of the source); numbers are assumed to come back from the
    store exactly as they were written.
 */
module Persistence {
  import opened Py
  import opened Strings
  import Paths

  datatype Value = Real(r: real) | Text(s: string)

  type Settings = map<string, Value>

  const PositionsGroup: string := "playback_positions/"
  const LastOpenPathKey: string := "last_open_path"

  function PositionKey(filepath: string): (k: string)
    ensures |k| > |LastOpenPathKey|
  {
    PositionsGroup + filepath
  }

  lemma PositionKeyInjective(p: string, q: string)
    requires PositionKey(p) == PositionKey(q)
    ensures p == q
  {
    assert p == PositionKey(p)[|PositionsGroup|..];
    assert q == PositionKey(q)[|PositionsGroup|..];
  }

  /** Python `float(text)` for plain decimal text: optional sign, digits, an
      optional fraction. `None` stands for the `ValueError` it raises. */
  function ParseFloat(s: string): Option<real> {
    if |s| > 0 && (s[0] == '-' || s[0] == '+') then
      match ParseUnsigned(s[1..])
      case Some(v) => Some(if s[0] == '-' then -v else v)
      case None => None
    else ParseUnsigned(s)
  }

  function Pow10(k: nat): (p: nat)
    ensures p >= 1
  {
    if k == 0 then 1 else 10 * Pow10(k - 1)
  }

  function ParseUnsigned(s: string): (v: Option<real>)
    ensures v.Some? ==> v.value >= 0.0
  {
    if '.' in s then
      var i := IndexOf(s, '.');
      var whole, frac := s[..i], s[i + 1..];
      if |whole| + |frac| == 0 || !AllDigits(whole) || !AllDigits(frac) then None
      else Some(ParseDigits(whole) as real + ParseDigits(frac) as real / Pow10(|frac|) as real)
    else if |s| == 0 || !AllDigits(s) then None
    else Some(ParseDigits(s) as real)
  }

  /** `float(value)`, where a number converts to itself. */
  function ToFloat(v: Value): Option<real> {
    match v
    case Real(r) => Some(r)
    case Text(s) => ParseFloat(s)
  }

  /** `save_playback_position`: an empty path or a missing time writes nothing;
      otherwise exactly the position key of `filepath` is (over)written. */
  function SavePlaybackPosition(st: Settings, filepath: string, t: Option<real>): (st': Settings)
    ensures filepath == "" || t.None? ==> st' == st
    ensures filepath != "" && t.Some? ==> PositionKey(filepath) in st' && st'[PositionKey(filepath)] == Real(t.value)
    ensures st'.Keys == if filepath == "" || t.None? then st.Keys else st.Keys + {PositionKey(filepath)}
    ensures forall k :: k in st && (filepath == "" || t.None? || k != PositionKey(filepath)) ==> st'[k] == st[k]
  {
    if filepath == "" || t.None? then st
    else st[PositionKey(filepath) := Real(t.value)]
  }

  /** `load_playback_position`: 0.0 for an empty path, an unknown path, or a
      stored value that does not convert to a float. */
  function LoadPlaybackPosition(st: Settings, filepath: string): (t: real)
    ensures filepath == "" ==> t == 0.0
    ensures PositionKey(filepath) !in st ==> t == 0.0
    ensures filepath != "" && PositionKey(filepath) in st && ToFloat(st[PositionKey(filepath)]).None? ==> t == 0.0
    ensures filepath != "" && PositionKey(filepath) in st && ToFloat(st[PositionKey(filepath)]).Some? ==>
              t == ToFloat(st[PositionKey(filepath)]).value
  {
    if filepath == "" then 0.0
    else if PositionKey(filepath) !in st then 0.0
    else ToFloat(st[PositionKey(filepath)]).GetOr(0.0)
  }

  /** A saved position is read back unchanged. */
  lemma SaveLoadRoundTrip(st: Settings, filepath: string, t: real)
    requires filepath != ""
    ensures LoadPlaybackPosition(SavePlaybackPosition(st, filepath, Some(t)), filepath) == t
  {
  }

  /** Saving one file's position leaves every other file's position as it was. */
  lemma SaveLeavesOthers(st: Settings, p: string, q: string, t: Option<real>)
    requires p != q
    ensures LoadPlaybackPosition(SavePlaybackPosition(st, p, t), q) == LoadPlaybackPosition(st, q)
  {
    if PositionKey(p) == PositionKey(q) {
      PositionKeyInjective(p, q);
    }
  }

  /** Saving a position never touches the remembered directory. */
  lemma SaveLeavesLastOpenPath(st: Settings, p: string, t: Option<real>)
    ensures LoadLastOpenPath(SavePlaybackPosition(st, p, t)) == LoadLastOpenPath(st)
  {
  }

  /** `save_last_open_path`: remembers the parent directory of `filepath`. */
  function SaveLastOpenPath(st: Settings, filepath: string): (st': Settings)
    ensures LastOpenPathKey in st'
    ensures forall k :: k in st && k != LastOpenPathKey ==> k in st' && st'[k] == st[k]
    ensures st'.Keys == st.Keys + {LastOpenPathKey}
  {
    st[LastOpenPathKey := Text(Paths.Parent(filepath))]
  }

  /** `load_last_open_path`: the stored value, "" when nothing was stored. */
  function LoadLastOpenPath(st: Settings): (v: Value)
    ensures LastOpenPathKey !in st ==> v == Text("")
  {
    if LastOpenPathKey in st then st[LastOpenPathKey] else Text("")
  }

  /** After opening `dir/name`, the dialog starts in `dir`. */
  lemma LastOpenPathIsDirectory(st: Settings, dir: string, name: string)
    requires Paths.Components(dir) != []
    requires Paths.IsComponent(name) && '/' !in name
    ensures LoadLastOpenPath(SaveLastOpenPath(st, dir + "/" + name)) == Text(Paths.PathStr(dir))
  {
    Paths.ChildNameAndParent(dir, name);
  }

  /** Remembering a directory leaves every saved position as it was. */
  lemma LastOpenPathLeavesPositions(st: Settings, dir: string, q: string)
    ensures LoadPlaybackPosition(SaveLastOpenPath(st, dir), q) == LoadPlaybackPosition(st, q)
  {
  }

  /** Decimal text of a whole number is read as that number. */
  lemma ParseFloatOfDigits(n: nat)
    ensures ParseFloat(Digits(n)) == Some(n as real)
  {
    ParseDigitsOfDigits(n);
    var s := Digits(n);
    assert IsDigit(s[0]);
  }
}

=== FILE: player.dfy ===
/** `PlayerWidget` (player_widget.py): the playback session.

    The session is a record; every slot or engine callback is a pure
    function from the session (and, where it is used, the settings store) to
    the new session, the commands given to the engine and the signals
    emitted. What the engine is asked for (`time_pos`, `duration`, `pause`,
    `mute`), the user's answer to the resume question and whether the engine
    could be started are parameters.
 */
module Player {
  import opened Py
  import opened Strings
  import opened Engine
  import opened Persistence
  import Utils
  import Overlay
  import StreamExtractor

  /** `loop_state`: 0 off, 1 repeat the file, 2 repeat the playlist. */
  const LoopOff: int := 0
  const LoopOne: int := 1
  const LoopAll: int := 2

  /** A saved position is offered for resuming only above this many seconds. */
  const ResumeThreshold: real := 10.0
  /** A position closer than this to the end counts as finished. */
  const NearEndMargin: real := 5.0

  datatype Session = Session(
    hasPlayer: bool,
    hasStore: bool,
    isInitialized: bool,
    currentAid: string,
    currentSid: string,
    currentVid: string,
    chapters: seq<Overlay.Chapter>,
    currentChapter: int,
    currentFile: Option<string>,
    loopState: int,
    pendingResume: real)

  /** The state `__init__` leaves: no engine yet, nothing selected. */
  function NewSession(hasStore: bool): (s: Session)
    ensures !s.hasPlayer && !s.isInitialized && s.hasStore == hasStore
    ensures s.loopState == LoopOff && s.pendingResume == 0.0 && s.currentFile.None?
    ensures s.currentAid == "no" && s.currentSid == "no" && s.currentVid == "no"
    ensures s.chapters == [] && s.currentChapter == 0
  {
    Session(false, hasStore, false, "no", "no", "no", [], 0, None, LoopOff, 0.0)
  }

  datatype Signal =
    | PauseChanged(paused: bool)
    | TimePosChanged(seconds: real)
    | DurationChanged(seconds: real)
    | TrackListChanged(tracks: seq<Overlay.Track>, aid: string, sid: string, vid: string)
    | AidChanged(id: string)
    | SidChanged(id: string)
    | VidChanged(id: string)
    | VolumeChanged(volume: int)
    | MuteChanged(muted: bool)
    | ChapterListChanged(list: seq<Overlay.Chapter>)
    | ChapterChanged(index: int)
    | PlaybackFinished(loopAll: bool)
    | LoopStateChanged(state: string)
    | EndFileSignal
    | ShowControls
      /** The resume question put to the user. */
    | ResumeQuestion(message: string)

  /** What a slot does: the new session, engine commands, signals. */
  datatype Out = Out(s: Session, commands: seq<Command>, signals: seq<Signal>)

  // ----- Start-up -------------------------------------------------------

  /** `ensure_initialized`: the first call tries to start the engine; later
      calls do nothing. */
  function EnsureInitialized(s: Session, engineStarts: bool): (r: Session)
    ensures r.isInitialized
    ensures s.isInitialized ==> r == s
    ensures !s.isInitialized ==> r == s.(isInitialized := true, hasPlayer := s.hasPlayer || engineStarts)
  {
    if s.isInitialized then s
    else s.(isInitialized := true, hasPlayer := s.hasPlayer || engineStarts)
  }

  /** Only the first call can start an engine. */
  lemma EnsureInitializedOnce(s: Session, first: bool, second: bool)
    ensures EnsureInitialized(EnsureInitialized(s, first), second) == EnsureInitialized(s, first)
  {
  }

  // ----- Loop mode ------------------------------------------------------

  predicate LoopValid(s: Session) {
    LoopOff <= s.loopState <= LoopAll
  }

  /** The text `loop_state_changed` carries for a loop state. */
  function LoopName(state: int): string {
    if state == LoopOne then "one" else if state == LoopAll then "all" else "none"
  }

  /** `cycle_loop_state`: off -> one -> all -> off; the engine repeats the
      file itself only in "one". Without an engine nothing happens. */
  function CycleLoopState(s: Session): (r: Out)
    ensures LoopValid(s) ==> LoopValid(r.s)
    ensures r.s == s.(loopState := r.s.loopState)
    ensures !s.hasPlayer ==> r == Out(s, [], [])
    ensures s.hasPlayer ==> r.s.loopState == (if s.loopState == LoopOff then LoopOne else if s.loopState == LoopOne then LoopAll else LoopOff)
    ensures s.hasPlayer ==> r.commands == [SetProperty("loop-file", PStr(if r.s.loopState == LoopOne then "inf" else "no"))]
    ensures s.hasPlayer ==> r.signals == [LoopStateChanged(LoopName(r.s.loopState))]
  {
    if !s.hasPlayer then Out(s, [], [])
    else if s.loopState == LoopOff then
      Out(s.(loopState := LoopOne), [SetProperty("loop-file", PStr("inf"))], [LoopStateChanged("one")])
    else if s.loopState == LoopOne then
      Out(s.(loopState := LoopAll), [SetProperty("loop-file", PStr("no"))], [LoopStateChanged("all")])
    else
      Out(s.(loopState := LoopOff), [SetProperty("loop-file", PStr("no"))], [LoopStateChanged("none")])
  }

  /** Three presses bring the loop mode back to where it was. */
  lemma CycleLoopThreeTimes(s: Session)
    requires LoopValid(s)
    ensures CycleLoopState(CycleLoopState(CycleLoopState(s).s).s).s == s
  {
  }

  /** The loop button always names the mode the session is in. */
  lemma LoopButtonFollowsState(s: Session)
    requires s.hasPlayer
    ensures var r := CycleLoopState(s);
      Overlay.LoopButtonText(r.signals[0].state)
        == (if r.s.loopState == LoopOne then "Loop: One" else if r.s.loopState == LoopAll then "Loop: All" else "Loop: Off")
  {
  }

  // ----- End of file ----------------------------------------------------

  /** The parts of an engine event id that `on_end_file_event` compares:
      whether it is the END_FILE enum member, its `str()`, and its `value`
      attribute if it has one. */
  datatype EventId = EventId(isEndFileMember: bool, text: string, value: Option<int>)

  /** `getattr(event.data, 'reason', None)` with the event id. */
  datatype EndFileEvent = EndFileEvent(id: EventId, reason: Option<int>)

  /** The four ways the handler accepts an id as "end-file". */
  predicate IsEndFile(id: EventId) {
    id.isEndFileMember || id.text == "end-file" || Contains(Lower(id.text), "end-file") || id.value == Some(7)
  }

  /** `on_end_file_event`: only an end-file event with reason 0 (end of
      file) is passed on. */
  function OnEndFileEvent(s: Session, e: EndFileEvent): (r: Out)
    ensures r.s == s && r.commands == []
    ensures r.signals == [EndFileSignal] <==> IsEndFile(e.id) && e.reason == Some(0)
    ensures r.signals == [] <==> !(IsEndFile(e.id) && e.reason == Some(0))
  {
    if IsEndFile(e.id) && e.reason == Some(0) then Out(s, [], [EndFileSignal]) else Out(s, [], [])
  }

  /** A user stop (reason 2), quit (3) or error (4) never ends the file. */
  lemma StopIsNotEndOfFile(s: Session, id: EventId, reason: int)
    requires reason != 0
    ensures OnEndFileEvent(s, EndFileEvent(id, Some(reason))).signals == []
  {
  }

  /** `handle_end_file`: nothing while the file repeats; otherwise
      `playback_finished`, saying whether the playlist repeats. */
  function HandleEndFile(s: Session): (r: Out)
    ensures r.s == s && r.commands == []
    ensures s.loopState == LoopOne ==> r.signals == []
    ensures s.loopState != LoopOne ==> r.signals == [PlaybackFinished(s.loopState == LoopAll)]
  {
    if s.loopState == LoopOne then Out(s, [], [])
    else Out(s, [], [PlaybackFinished(s.loopState == LoopAll)])
  }

  /** `playback_finished(True)` is emitted exactly in "all" mode. */
  lemma FinishedReportsLoopAll(s: Session)
    requires LoopValid(s)
    ensures PlaybackFinished(true) in HandleEndFile(s).signals <==> s.loopState == LoopAll
    ensures PlaybackFinished(false) in HandleEndFile(s).signals <==> s.loopState == LoopOff
  {
  }

  // ----- Resume ---------------------------------------------------------

  /** `on_playback_restart_event`: a pending resume position is sought once
      and cleared; playback is unpaused in any case. */
  function OnPlaybackRestart(s: Session): (r: Out)
    ensures r.s == s.(pendingResume := r.s.pendingResume)
    ensures s.pendingResume > 0.0 ==>
      r.s.pendingResume == 0.0
      && r.commands == [SetProperty("time-pos", PReal(s.pendingResume)), SetProperty("pause", PBool(false))]
    ensures s.pendingResume <= 0.0 ==> r.s == s && r.commands == [SetProperty("pause", PBool(false))]
    ensures r.signals == []
  {
    if s.pendingResume > 0.0 then
      Out(s.(pendingResume := 0.0), [SetProperty("time-pos", PReal(s.pendingResume)), SetProperty("pause", PBool(false))], [])
    else Out(s, [SetProperty("pause", PBool(false))], [])
  }

  predicate Seeks(cmds: seq<Command>) {
    exists i :: 0 <= i < |cmds| && cmds[i].SetProperty? && cmds[i].name == "time-pos"
  }

  /** A pending position is used by one restart only: the next restart
      (after a seek, say) does not seek again. */
  lemma ResumeConsumedOnce(s: Session)
    ensures !Seeks(OnPlaybackRestart(OnPlaybackRestart(s).s).commands)
  {
    var c := OnPlaybackRestart(OnPlaybackRestart(s).s).commands;
    assert c == [SetProperty("pause", PBool(false))];
  }

  /** The resume question's text. */
  function ResumeMessage(last: real): string {
    "You last stopped watching at " + Utils.FormatTime(Some(Finite(last))) + ".\n\nDo you want to resume from this position?"
  }

  /** `check_for_resume`: the pending position is reset; then, unless the
      playlist repeats or there is no store or file, a saved position above
      ten seconds is offered and kept when the user accepts. */
  function CheckForResume(s: Session, settings: Settings, accept: bool): (r: Out)
    ensures r.s == s.(pendingResume := r.s.pendingResume) && r.commands == []
    ensures r.s.pendingResume == 0.0 || r.s.pendingResume > ResumeThreshold
    ensures s.loopState == LoopAll || !s.hasStore || !Truthy(s.currentFile) ==> r.s.pendingResume == 0.0 && r.signals == []
    ensures s.loopState != LoopAll && s.hasStore && Truthy(s.currentFile) ==>
              var last := LoadPlaybackPosition(settings, s.currentFile.value);
              (r.signals == [ResumeQuestion(ResumeMessage(last))] <==> last > ResumeThreshold)
              && (r.s.pendingResume == if last > ResumeThreshold && accept then last else 0.0)
    ensures |r.signals| <= 1
  {
    var reset := s.(pendingResume := 0.0);
    if s.loopState == LoopAll || !s.hasStore || !Truthy(s.currentFile) then Out(reset, [], [])
    else
      var last := LoadPlaybackPosition(settings, s.currentFile.value);
      if last > ResumeThreshold then
        Out(if accept then s.(pendingResume := last) else reset, [], [ResumeQuestion(ResumeMessage(last))])
      else Out(reset, [], [])
  }

  /** What `time_pos` and `duration` read from the engine. */
  datatype Readings = Readings(timePos: Option<real>, duration: Option<real>)

  /** `if duration and (duration - current_time) < 5`. */
  predicate NearEnd(t: real, duration: Option<real>) {
    duration.Some? && duration.value != 0.0 && duration.value - t < NearEndMargin
  }

  predicate CanSave(s: Session, readings: Readings) {
    s.hasStore && s.hasPlayer && Truthy(s.currentFile) && readings.timePos.Some?
  }

  /** `save_current_position`: near the end the saved position is cleared
      to 0.0; above ten seconds the time is saved; otherwise (and when there
      is no store, engine, file or time) nothing is written. */
  function SaveCurrentPosition(s: Session, settings: Settings, readings: Readings): (st: Settings)
    ensures !CanSave(s, readings) ==> st == settings
    ensures CanSave(s, readings) && NearEnd(readings.timePos.value, readings.duration) ==>
              LoadPlaybackPosition(st, s.currentFile.value) == 0.0
    ensures CanSave(s, readings) && !NearEnd(readings.timePos.value, readings.duration) && readings.timePos.value > ResumeThreshold ==>
              LoadPlaybackPosition(st, s.currentFile.value) == readings.timePos.value
    ensures CanSave(s, readings) && !NearEnd(readings.timePos.value, readings.duration) && readings.timePos.value <= ResumeThreshold ==>
              st == settings
    ensures forall q :: (s.currentFile.None? || q != s.currentFile.value) ==> LoadPlaybackPosition(st, q) == LoadPlaybackPosition(settings, q)
    ensures LoadLastOpenPath(st) == LoadLastOpenPath(settings)
  {
    if !CanSave(s, readings) then settings
    else
      var f, t := s.currentFile.value, readings.timePos.value;
      forall q | q != f ensures LoadPlaybackPosition(SavePlaybackPosition(settings, f, Some(t)), q) == LoadPlaybackPosition(settings, q) {
        SaveLeavesOthers(settings, f, q, Some(t));
      }
      forall q | q != f ensures LoadPlaybackPosition(SavePlaybackPosition(settings, f, Some(0.0)), q) == LoadPlaybackPosition(settings, q) {
        SaveLeavesOthers(settings, f, q, Some(0.0));
      }
      if NearEnd(t, readings.duration) then SavePlaybackPosition(settings, f, Some(0.0))
      else if t > ResumeThreshold then SavePlaybackPosition(settings, f, Some(t))
      else settings
  }

  /** A file watched for ten seconds or less keeps its older saved
      position; it is not cleared. */
  lemma ShortViewKeepsOldPosition(s: Session, settings: Settings, t: real)
    requires s.hasStore && s.hasPlayer && Truthy(s.currentFile)
    requires 0.0 <= t <= ResumeThreshold
    ensures LoadPlaybackPosition(SaveCurrentPosition(s, settings, Readings(Some(t), None)), s.currentFile.value)
      == LoadPlaybackPosition(settings, s.currentFile.value)
  {
  }

  /** A file stopped near its end is not offered for resuming next time. */
  lemma FinishedFileNotOffered(s: Session, settings: Settings, t: real, duration: real, accept: bool)
    requires CanSave(s, Readings(Some(t), Some(duration))) && NearEnd(t, Some(duration))
    requires s.loopState != LoopAll
    ensures var st := SaveCurrentPosition(s, settings, Readings(Some(t), Some(duration)));
      var r := CheckForResume(s, st, accept);
      r.signals == [] && r.s.pendingResume == 0.0
  {
  }

  // ----- Loading a file -------------------------------------------------

  function VideoAdds(tracks: seq<StreamExtractor.Stream>): (cmds: seq<Command>)
    ensures |cmds| == |tracks|
    ensures forall i :: 0 <= i < |tracks| ==> cmds[i] == VideoAdd(tracks[i].url, tracks[i].name)
  {
    seq(|tracks|, i requires 0 <= i < |tracks| => VideoAdd(tracks[i].url, tracks[i].name))
  }

  function AudioAdds(tracks: seq<StreamExtractor.Stream>): (cmds: seq<Command>)
    ensures |cmds| == |tracks|
    ensures forall i :: 0 <= i < |tracks| ==> cmds[i] == AudioAdd(tracks[i].url, tracks[i].name)
  {
    seq(|tracks|, i requires 0 <= i < |tracks| => AudioAdd(tracks[i].url, tracks[i].name))
  }

  /** The result of `load_file`: the session and settings afterwards. */
  datatype Loaded = Loaded(out: Out, settings: Settings)

  /** `load_file`: save the old file's position, stop, make `filepath`
      current, prepare resuming, play it, add the extra video tracks and then
      the extra audio tracks, and show the controls if asked. Without an
      engine nothing happens. The commands and the resume question come out
      as separate lists here; `MainWindow.LoadEffects` gives their
      interleaved order. */
  function LoadFile(
    s: Session, settings: Settings, filepath: string,
    audioTracks: Option<seq<StreamExtractor.Stream>>, videoTracks: Option<seq<StreamExtractor.Stream>>,
    showControls: bool, readings: Readings, accept: bool): (r: Loaded)
    ensures !s.hasPlayer ==> r == Loaded(Out(s, [], []), settings)
    ensures s.hasPlayer ==> r.settings == SaveCurrentPosition(s, settings, readings)
    ensures s.hasPlayer ==> r.out.s == CheckForResume(s.(currentFile := Some(filepath)), r.settings, accept).s
    ensures s.hasPlayer ==> r.out.s.currentFile == Some(filepath)
    ensures s.hasPlayer ==>
      r.out.commands == [Stop, Play(filepath)] + VideoAdds(videoTracks.GetOr([])) + AudioAdds(audioTracks.GetOr([]))
    ensures s.hasPlayer ==>
      r.out.signals == CheckForResume(s.(currentFile := Some(filepath)), r.settings, accept).signals + (if showControls then [ShowControls] else [])
  {
    if !s.hasPlayer then Loaded(Out(s, [], []), settings)
    else
      var st := SaveCurrentPosition(s, settings, readings);
      var resume := CheckForResume(s.(currentFile := Some(filepath)), st, accept);
      var cmds := [Stop, Play(filepath)] + VideoAdds(videoTracks.GetOr([])) + AudioAdds(audioTracks.GetOr([]));
      Loaded(Out(resume.s, cmds, resume.signals + (if showControls then [ShowControls] else [])), st)
  }

  /** In the commands of a load, the engine is stopped first, the file is
      played second, and every extra video track is added before any extra
      audio track. */
  lemma LoadOrder(
    s: Session, settings: Settings, filepath: string,
    audioTracks: Option<seq<StreamExtractor.Stream>>, videoTracks: Option<seq<StreamExtractor.Stream>>,
    showControls: bool, readings: Readings, accept: bool)
    requires s.hasPlayer
    ensures var c := LoadFile(s, settings, filepath, audioTracks, videoTracks, showControls, readings, accept).out.commands;
      |c| >= 2 && c[0] == Stop && c[1] == Play(filepath)
      && (forall i, j :: 0 <= i < j < |c| ==> !(c[i].AudioAdd? && c[j].VideoAdd?))
      && |c| == 2 + |videoTracks.GetOr([])| + |audioTracks.GetOr([])|
  {
    var c := LoadFile(s, settings, filepath, audioTracks, videoTracks, showControls, readings, accept).out.commands;
    var nv := |videoTracks.GetOr([])|;
    forall i, j | 0 <= i < j < |c| ensures !(c[i].AudioAdd? && c[j].VideoAdd?) {
      if c[i].AudioAdd? {
        assert i >= 2 + nv;
        assert c[j] == AudioAdds(audioTracks.GetOr([]))[j - 2 - nv];
      }
    }
  }

  /** The position the previous file reached is saved before the new file
      replaces it; other files' positions are untouched. */
  lemma LoadSavesPreviousFile(
    s: Session, settings: Settings, filepath: string,
    audioTracks: Option<seq<StreamExtractor.Stream>>, videoTracks: Option<seq<StreamExtractor.Stream>>,
    showControls: bool, t: real, accept: bool)
    requires s.hasPlayer && s.hasStore && Truthy(s.currentFile) && t > ResumeThreshold
    ensures var r := LoadFile(s, settings, filepath, audioTracks, videoTracks, showControls, Readings(Some(t), None), accept);
      LoadPlaybackPosition(r.settings, s.currentFile.value) == t
  {
  }

  /** Loading a file with a saved position above ten seconds and accepting
      the question: the first restart seeks there and unpauses, a later
      restart only unpauses. */
  lemma LoadThenRestartResumes(
    s: Session, settings: Settings, filepath: string,
    audioTracks: Option<seq<StreamExtractor.Stream>>, videoTracks: Option<seq<StreamExtractor.Stream>>,
    showControls: bool, readings: Readings)
    requires s.hasPlayer && s.hasStore && s.loopState != LoopAll && filepath != ""
    requires LoadPlaybackPosition(SaveCurrentPosition(s, settings, readings), filepath) > ResumeThreshold
    ensures var r := LoadFile(s, settings, filepath, audioTracks, videoTracks, showControls, readings, true);
      var last := LoadPlaybackPosition(r.settings, filepath);
      var first := OnPlaybackRestart(r.out.s);
      first.commands == [SetProperty("time-pos", PReal(last)), SetProperty("pause", PBool(false))]
      && !Seeks(OnPlaybackRestart(first.s).commands)
  {
    var r := LoadFile(s, settings, filepath, audioTracks, videoTracks, showControls, readings, true);
    ResumeConsumedOnce(r.out.s);
  }

  /** While the playlist repeats, a load never asks and never seeks. */
  lemma LoopAllNeverResumes(
    s: Session, settings: Settings, filepath: string,
    audioTracks: Option<seq<StreamExtractor.Stream>>, videoTracks: Option<seq<StreamExtractor.Stream>>,
    showControls: bool, readings: Readings, accept: bool)
    requires s.hasPlayer && s.loopState == LoopAll
    ensures var r := LoadFile(s, settings, filepath, audioTracks, videoTracks, showControls, readings, accept);
      r.out.signals == (if showControls then [ShowControls] else [])
      && !Seeks(OnPlaybackRestart(r.out.s).commands)
  {
    var r := LoadFile(s, settings, filepath, audioTracks, videoTracks, showControls, readings, accept);
    assert OnPlaybackRestart(r.out.s).commands == [SetProperty("pause", PBool(false))];
  }

  // ----- Chapters -------------------------------------------------------

  /** `next_chapter`: one chapter on, unless on the last one. */
  function NextChapter(s: Session): (r: Out)
    ensures r.s == s && r.signals == []
    ensures |r.commands| <= 1
    ensures |r.commands| == 1 <==> s.hasPlayer && |s.chapters| > 0 && s.currentChapter < |s.chapters| - 1
    ensures |r.commands| == 1 ==> r.commands[0] == SetProperty("chapter", PInt(s.currentChapter + 1))
  {
    if s.hasPlayer && |s.chapters| > 0 && s.currentChapter < |s.chapters| - 1 then
      Out(s, [SetProperty("chapter", PInt(s.currentChapter + 1))], [])
    else Out(s, [], [])
  }

  /** `prev_chapter`: one chapter back, unless on the first one. */
  function PrevChapter(s: Session): (r: Out)
    ensures r.s == s && r.signals == []
    ensures |r.commands| <= 1
    ensures |r.commands| == 1 <==> s.hasPlayer && |s.chapters| > 0 && s.currentChapter > 0
    ensures |r.commands| == 1 ==> r.commands[0] == SetProperty("chapter", PInt(s.currentChapter - 1))
  {
    if s.hasPlayer && |s.chapters| > 0 && s.currentChapter > 0 then
      Out(s, [SetProperty("chapter", PInt(s.currentChapter - 1))], [])
    else Out(s, [], [])
  }

  /** Chapter stepping stays inside the chapter list: from any index from
      -1 up to the last, the requested chapter exists. */
  lemma ChapterStepsInRange(s: Session)
    requires -1 <= s.currentChapter <= |s.chapters|
    ensures var n := NextChapter(s).commands;
      |n| == 1 ==> 0 <= n[0].value.i < |s.chapters|
    ensures var p := PrevChapter(s).commands;
      |p| == 1 ==> 0 <= p[0].value.i < |s.chapters|
  {
  }

  // ----- Observed properties --------------------------------------------

  /** A value the engine reports for 'aid', 'sid' or 'vid'. */
  datatype TrackValue = NoValue | IntValue(i: int) | BoolValue(b: bool) | TextValue(s: string)

  /** `str(value) if value is not None else 'no'`. */
  function TrackIdText(v: TrackValue): (t: string)
    ensures v.NoValue? ==> t == "no"
    ensures v.IntValue? ==> t == IntToString(v.i)
    ensures v.BoolValue? ==> t == (if v.b then "True" else "False")
    ensures v.TextValue? ==> t == v.s
  {
    match v
    case NoValue => "no"
    case IntValue(i) => IntToString(i)
    case BoolValue(b) => if b then "True" else "False"
    case TextValue(x) => x
  }

  /** One property change the session observes. */
  datatype Observed =
    | PauseObserved(paused: Option<bool>)
    | TimePosObserved(seconds: Option<real>)
    | DurationObserved(seconds: Option<real>)
    | VolumeObserved(volume: Option<real>)
    | MuteObserved(muted: Option<bool>)
    | TrackListObserved(tracks: Option<seq<Overlay.Track>>)
    | AidObserved(aid: TrackValue)
    | SidObserved(sid: TrackValue)
    | VidObserved(vid: TrackValue)
    | ChapterListObserved(list: Option<seq<Overlay.Chapter>>)
    | ChapterObserved(chapter: Option<int>)

  /** The observers of `setup_observers` and the `on_*_change` slots: each
      passes its value on (with `None` replaced by a default) and only the
      track ids and chapters are remembered. */
  function Observe(s: Session, o: Observed): (r: Out)
    ensures r.commands == [] && |r.signals| == 1
    ensures r.s.loopState == s.loopState && r.s.pendingResume == s.pendingResume && r.s.currentFile == s.currentFile
    ensures r.s.hasPlayer == s.hasPlayer && r.s.hasStore == s.hasStore
    ensures o.AidObserved? ==> r.s == s.(currentAid := TrackIdText(o.aid)) && r.signals == [AidChanged(TrackIdText(o.aid))]
    ensures o.SidObserved? ==> r.s == s.(currentSid := TrackIdText(o.sid)) && r.signals == [SidChanged(TrackIdText(o.sid))]
    ensures o.VidObserved? ==> r.s == s.(currentVid := TrackIdText(o.vid)) && r.signals == [VidChanged(TrackIdText(o.vid))]
    ensures o.ChapterListObserved? ==> r.s == s.(chapters := o.list.GetOr([])) && r.signals == [ChapterListChanged(o.list.GetOr([]))]
    ensures o.ChapterObserved? ==> r.s == s.(currentChapter := o.chapter.GetOr(0)) && r.signals == [ChapterChanged(o.chapter.GetOr(0))]
    ensures !(o.AidObserved? || o.SidObserved? || o.VidObserved? || o.ChapterListObserved? || o.ChapterObserved?) ==> r.s == s
    ensures o.TrackListObserved? ==> r.signals == [TrackListChanged(o.tracks.GetOr([]), s.currentAid, s.currentSid, s.currentVid)]
    ensures o.PauseObserved? ==> r.signals == [PauseChanged(o.paused.GetOr(false))]
    ensures o.TimePosObserved? ==> r.signals == [TimePosChanged(o.seconds.GetOr(0.0))]
    ensures o.DurationObserved? ==> r.signals == [DurationChanged(o.seconds.GetOr(0.0))]
    ensures o.VolumeObserved? ==> r.signals == [VolumeChanged(if o.volume.Some? then Overlay.Trunc(o.volume.value) else 100)]
    ensures o.MuteObserved? ==> r.signals == [MuteChanged(o.muted.GetOr(false))]
  {
    match o
    case PauseObserved(v) => Out(s, [], [PauseChanged(v.GetOr(false))])
    case TimePosObserved(v) => Out(s, [], [TimePosChanged(v.GetOr(0.0))])
    case DurationObserved(v) => Out(s, [], [DurationChanged(v.GetOr(0.0))])
    case VolumeObserved(v) => Out(s, [], [VolumeChanged(if v.Some? then Overlay.Trunc(v.value) else 100)])
    case MuteObserved(v) => Out(s, [], [MuteChanged(v.GetOr(false))])
    case TrackListObserved(v) => Out(s, [], [TrackListChanged(v.GetOr([]), s.currentAid, s.currentSid, s.currentVid)])
    case AidObserved(v) =>
      var id := TrackIdText(v);
      Out(s.(currentAid := id), [], [AidChanged(id)])
    case SidObserved(v) =>
      var id := TrackIdText(v);
      Out(s.(currentSid := id), [], [SidChanged(id)])
    case VidObserved(v) =>
      var id := TrackIdText(v);
      Out(s.(currentVid := id), [], [VidChanged(id)])
    case ChapterListObserved(v) => Out(s.(chapters := v.GetOr([])), [], [ChapterListChanged(v.GetOr([]))])
    case ChapterObserved(v) =>
      var c := v.GetOr(0);
      Out(s.(currentChapter := c), [], [ChapterChanged(c)])
  }

  /** A track list observed after the selections carries the latest ids,
      so the rebuilt menus check the selected tracks. */
  lemma TrackListCarriesSelection(s: Session, aid: TrackValue, tracks: Option<seq<Overlay.Track>>)
    ensures var a := Observe(s, AidObserved(aid)).s;
      Observe(a, TrackListObserved(tracks)).signals[0].aid == TrackIdText(aid)
  {
  }

  /** The chapter the engine reports is the one chapter stepping starts
      from: after observing chapter `c`, "next" asks for `c + 1` and
      "previous" for `c - 1` whenever those chapters exist. */
  lemma ObservedChapterDrivesStepping(s: Session, c: int)
    requires s.hasPlayer
    ensures var a := Observe(s, ChapterObserved(Some(c))).s;
      && (0 <= c < |s.chapters| - 1 ==> NextChapter(a).commands == [SetProperty("chapter", PInt(c + 1))])
      && (0 < c < |s.chapters| ==> PrevChapter(a).commands == [SetProperty("chapter", PInt(c - 1))])
  {
    var a := Observe(s, ChapterObserved(Some(c))).s;
    assert a.chapters == s.chapters && a.currentChapter == c && a.hasPlayer;
  }

  // ----- User commands --------------------------------------------------

  datatype UserAction =
    | TogglePause
    | SeekForward
    | SeekBackward
    | AddVolumeBy(amount: int)
    | ToggleMute
    | CycleSubtitles
    | CycleAudio
    | CycleVideo

  /** The relative seek of the seek slots, in seconds. */
  const SeekStep: int := 10

  /** `toggle_pause`, `seek_forward`, `seek_backward`, `add_volume`,
      `toggle_mute` and the `cycle_*` slots: one engine command each, none
      without an engine. `paused` and `muted` are what the engine reports. */
  function UserCommand(s: Session, a: UserAction, paused: bool, muted: bool): (r: Option<Command>)
    ensures r.None? <==> !s.hasPlayer
    ensures s.hasPlayer && a.TogglePause? ==> r == Some(SetProperty("pause", PBool(!paused)))
    ensures s.hasPlayer && a.ToggleMute? ==> r == Some(SetProperty("mute", PBool(!muted)))
    ensures s.hasPlayer && (a.SeekForward? || a.SeekBackward?) ==> r.value.SeekRelative? && (r.value.seconds > 0 <==> a.SeekForward?)
    ensures s.hasPlayer && a.SeekForward? ==> r == Some(SeekRelative(SeekStep))
    ensures s.hasPlayer && a.SeekBackward? ==> r == Some(SeekRelative(-SeekStep))
    ensures s.hasPlayer && a.AddVolumeBy? ==> r == Some(AddVolume(a.amount))
    ensures s.hasPlayer && a.CycleSubtitles? ==> r == Some(Cycle("sub"))
    ensures s.hasPlayer && a.CycleAudio? ==> r == Some(Cycle("audio"))
    ensures s.hasPlayer && a.CycleVideo? ==> r == Some(Cycle("video"))
  {
    if !s.hasPlayer then None
    else
      match a
      case TogglePause => Some(SetProperty("pause", PBool(!paused)))
      case SeekForward => Some(SeekRelative(SeekStep))
      case SeekBackward => Some(SeekRelative(-SeekStep))
      case AddVolumeBy(n) => Some(AddVolume(n))
      case ToggleMute => Some(SetProperty("mute", PBool(!muted)))
      case CycleSubtitles => Some(Cycle("sub"))
      case CycleAudio => Some(Cycle("audio"))
      case CycleVideo => Some(Cycle("video"))
  }

  /** Seeking forward then backward returns to the same place. */
  lemma SeeksCancel(s: Session)
    requires s.hasPlayer
    ensures UserCommand(s, SeekForward, false, false).value.seconds + UserCommand(s, SeekBackward, false, false).value.seconds == 0
  {
  }

  /** Toggling twice, with the engine reporting what the first toggle
      wrote, writes the original pause and mute state back. */
  lemma TogglesUndo(s: Session, paused: bool, muted: bool)
    requires s.hasPlayer
    ensures var first := UserCommand(s, TogglePause, paused, muted).value.value.b;
      UserCommand(s, TogglePause, first, muted) == Some(SetProperty("pause", PBool(paused)))
    ensures var first := UserCommand(s, ToggleMute, paused, muted).value.value.b;
      UserCommand(s, ToggleMute, paused, first) == Some(SetProperty("mute", PBool(muted)))
  {
  }

  /** Raising the volume by `n` and lowering it by `n` cancel out. */
  lemma VolumeStepsCancel(s: Session, n: int)
    requires s.hasPlayer
    ensures UserCommand(s, AddVolumeBy(n), false, false).value.amount
          + UserCommand(s, AddVolumeBy(-n), false, false).value.amount == 0
  {
  }

  // ----- Shutdown -------------------------------------------------------

  /** `shutdown`: stop and quit inside one `try`, so a failing stop skips
      the quit; the engine is terminated in any case. */
  function Shutdown(s: Session, stopFails: bool): (cmds: seq<Command>)
    ensures !s.hasPlayer ==> cmds == []
    ensures s.hasPlayer ==> |cmds| >= 2 && cmds[0] == Stop && cmds[|cmds| - 1] == Terminate
    ensures Quit in cmds <==> s.hasPlayer && !stopFails
    ensures s.hasPlayer ==> cmds == (if stopFails then [Stop, Terminate] else [Stop, Quit, Terminate])
  {
    if !s.hasPlayer then []
    else if stopFails then [Stop, Terminate]
    else [Stop, Quit, Terminate]
  }
}

=== FILE: py.dfy ===
/** Shapes of Python values that the player code inspects.

    `Option` stands for a value that may be `None` (or, where the distinction
    does not change behaviour, a dictionary key that may be missing).
    `PyField` keeps the two apart where `dict.get(key, default)` behaves
    differently for a missing key (the default is used) and for a key that is
    present with the value `None` (`None` is returned).
 */
module Py {

  datatype Option<+T> = None | Some(value: T) {
    function GetOr(default: T): T {
      match this
      case Some(v) => v
      case None => default
    }
  }

  /** The result of `d.get(key, default)` before the default is applied. */
  datatype PyField<+T> = Absent | Null | Has(value: T) {
    /** `d.get(key, default)`: `Some(v)` stands for a value, `None` for Python `None`. */
    function Get(default: T): Option<T> {
      match this
      case Absent => Some(default)
      case Null => None
      case Has(v) => Some(v)
    }

    /** `d.get(key)` with no default: a missing key and `None` both read as `None`. */
    function Plain(): Option<T> {
      match this
      case Has(v) => Some(v)
      case _ => None
    }
  }

  /** A Python float: a finite number or one of the IEEE special values. */
  datatype Float = Finite(r: real) | NaN | PosInf | NegInf

  /** Python truthiness of an optional string: `None` and `""` are false. */
  predicate Truthy(s: Option<string>) {
    s.Some? && s.value != ""
  }
}

=== FILE: streamextractor.dfy ===
/** `get_all_streams` (stream_extractor.py): splits the formats that yt-dlp
    reports for a URL into video streams (sorted by bandwidth, highest first)
    and audio-only streams (in reported order).

    The yt-dlp call itself is an input: `None` stands for the exception it
    raises, `Some(info)` for the dictionary it returns.
 */
module StreamExtractor {
  import opened Py

  /** One entry of `info['formats']`. `tbr` keeps a missing key apart from a
      `None` value because the two sort differently. */
  datatype Format = Format(
    url: Option<string>,
    vcodec: Option<string>,
    acodec: Option<string>,
    tbr: PyField<real>,
    formatNote: PyField<string>,
    resolution: Option<string>,
    ext: Option<string>,
    language: PyField<string>)

  /** The extracted dictionary; 'formats' may be missing (no formats) or
      `None` (iterating it raises `TypeError`). */
  datatype Info = Info(title: PyField<string>, formats: PyField<seq<Format>>)

  /** A playable stream; audio-only streams carry no video codec. */
  datatype Stream = Stream(
    name: string,
    url: string,
    lang: Option<string>,
    vcodec: Option<string>,
    acodec: Option<string>,
    bandwidth: Option<real>)

  /** `title` is `None` when yt-dlp reports a title of `None`. */
  datatype StreamData = StreamData(title: Option<string>, videoStreams: seq<Stream>, audioStreams: seq<Stream>)

  /** A codec field that names a codec: present, non-empty and not "none". */
  predicate HasCodec(c: Option<string>) {
    Truthy(c) && c.value != "none"
  }

  predicate IsVideo(f: Format) {
    Truthy(f.url) && HasCodec(f.vcodec)
  }

  predicate IsAudio(f: Format) {
    Truthy(f.url) && !HasCodec(f.vcodec) && HasCodec(f.acodec)
  }

  /** Python's `str()` of an optional value inside an f-string. */
  function OptText(s: Option<string>): string {
    s.GetOr("None")
  }

  function VideoStream(f: Format): Stream
    requires IsVideo(f)
  {
    var note := OptText(f.formatNote.Get(OptText(f.resolution) + " " + OptText(f.ext)));
    Stream("\U{1F4FA} " + note, f.url.value, f.language.Plain(), f.vcodec, f.acodec, f.tbr.Get(0.0))
  }

  function AudioStream(f: Format): Stream
    requires IsAudio(f)
  {
    var note := OptText(f.formatNote.Get(OptText(f.ext)));
    Stream("\U{1F50A} " + note + " [" + OptText(f.language.Get("und")) + "]", f.url.value, f.language.Plain(), None, f.acodec, f.tbr.Get(0.0))
  }

  /** The classification loop: each format becomes a video stream, an audio
      stream, or nothing, in source order. */
  function Classify(fs: seq<Format>): (r: (seq<Stream>, seq<Stream>))
    ensures |r.0| + |r.1| <= |fs|
    decreases |fs|
  {
    if |fs| == 0 then ([], [])
    else
      var (v, a) := Classify(fs[1..]);
      if IsVideo(fs[0]) then ([VideoStream(fs[0])] + v, a)
      else if IsAudio(fs[0]) then (v, [AudioStream(fs[0])] + a)
      else (v, a)
  }

  /** The loop appends: a format reported after the others adds its stream
      at the end of its list and leaves the rest as they were. */
  lemma {:induction false} ClassifyAppend(fs: seq<Format>, f: Format)
    ensures Classify(fs + [f]) ==
      (Classify(fs).0 + (if IsVideo(f) then [VideoStream(f)] else []),
       Classify(fs).1 + (if IsAudio(f) then [AudioStream(f)] else []))
    decreases |fs|
  {
    if |fs| == 0 {
      assert fs + [f] == [f];
      assert [f][1..] == [];
      assert Classify([f][1..]) == ([], []);
      assert Classify(fs) == ([], []);
      if IsVideo(f) {
        assert !IsAudio(f);
        var vs: seq<Stream> := [VideoStream(f)];
        var e: seq<Stream> := [];
        assert Classify([f]) == (vs + e, e);
        assert vs + e == e + vs && e + e == e;
      } else if IsAudio(f) {
        var au: seq<Stream> := [AudioStream(f)];
        var e: seq<Stream> := [];
        assert Classify([f]) == (e, au + e);
        assert au + e == e + au && e + e == e;
      } else {
        var e: seq<Stream> := [];
        assert Classify([f]) == (e, e);
        assert e + e == e;
      }
    } else {
      var g := fs + [f];
      assert g[0] == fs[0];
      assert g[1..] == fs[1..] + [f];
      ClassifyAppend(fs[1..], f);
      var v, a := Classify(fs[1..]).0, Classify(fs[1..]).1;
      var fv: seq<Stream> := if IsVideo(f) then [VideoStream(f)] else [];
      var fa: seq<Stream> := if IsAudio(f) then [AudioStream(f)] else [];
      assert Classify(g[1..]) == (v + fv, a + fa);
      if IsVideo(fs[0]) {
        assert [VideoStream(fs[0])] + (v + fv) == ([VideoStream(fs[0])] + v) + fv;
      } else if IsAudio(fs[0]) {
        assert [AudioStream(fs[0])] + (a + fa) == ([AudioStream(fs[0])] + a) + fa;
      }
    }
  }

  /** No format is both a video and an audio-only stream. */
  lemma VideoAndAudioDisjoint(f: Format)
    ensures !(IsVideo(f) && IsAudio(f))
  {
  }

  function CountVideo(fs: seq<Format>): nat
    decreases |fs|
  {
    if |fs| == 0 then 0 else (if IsVideo(fs[0]) then 1 else 0) + CountVideo(fs[1..])
  }

  function CountAudio(fs: seq<Format>): nat
    decreases |fs|
  {
    if |fs| == 0 then 0 else (if IsAudio(fs[0]) then 1 else 0) + CountAudio(fs[1..])
  }

  /** Exactly the video formats become video streams and exactly the
      audio-only formats become audio streams; formats without a URL or
      without any codec are dropped. */
  lemma {:induction false} ClassifyMembership(fs: seq<Format>)
    ensures |Classify(fs).0| == CountVideo(fs)
    ensures |Classify(fs).1| == CountAudio(fs)
    ensures forall i :: 0 <= i < |fs| && IsVideo(fs[i]) ==> VideoStream(fs[i]) in Classify(fs).0
    ensures forall i :: 0 <= i < |fs| && IsAudio(fs[i]) ==> AudioStream(fs[i]) in Classify(fs).1
    ensures forall s :: s in Classify(fs).0 ==> exists i :: 0 <= i < |fs| && IsVideo(fs[i]) && s == VideoStream(fs[i])
    ensures forall s :: s in Classify(fs).1 ==> exists i :: 0 <= i < |fs| && IsAudio(fs[i]) && s == AudioStream(fs[i])
    decreases |fs|
  {
    if |fs| > 0 {
      ClassifyMembership(fs[1..]);
      var (v, a) := Classify(fs[1..]);
      forall s | s in Classify(fs).0
        ensures exists i :: 0 <= i < |fs| && IsVideo(fs[i]) && s == VideoStream(fs[i])
      {
        if s !in v {
          assert IsVideo(fs[0]) && s == VideoStream(fs[0]);
        } else {
          var j :| 0 <= j < |fs[1..]| && IsVideo(fs[1..][j]) && s == VideoStream(fs[1..][j]);
          assert fs[1..][j] == fs[j + 1];
        }
      }
      forall s | s in Classify(fs).1
        ensures exists i :: 0 <= i < |fs| && IsAudio(fs[i]) && s == AudioStream(fs[i])
      {
        if s !in a {
          assert IsAudio(fs[0]) && s == AudioStream(fs[0]);
        } else {
          var j :| 0 <= j < |fs[1..]| && IsAudio(fs[1..][j]) && s == AudioStream(fs[1..][j]);
          assert fs[1..][j] == fs[j + 1];
        }
      }
      forall i | 0 <= i < |fs| && IsVideo(fs[i])
        ensures VideoStream(fs[i]) in Classify(fs).0
      {
        if i > 0 { assert fs[i] == fs[1..][i - 1]; }
      }
      forall i | 0 <= i < |fs| && IsAudio(fs[i])
        ensures AudioStream(fs[i]) in Classify(fs).1
      {
        if i > 0 { assert fs[i] == fs[1..][i - 1]; }
      }
    }
  }

  // ---------------------------------------------------------------------
  // The bandwidth sort: `list.sort(key=..., reverse=True)` is stable, so
  // streams of equal bandwidth keep their source order.

  /** The sort key with a missing bandwidth read as 0. */
  function Bw(s: Stream): real {
    s.bandwidth.GetOr(0.0)
  }

  predicate SortedDesc(s: seq<Stream>) {
    forall i, j :: 0 <= i < j < |s| ==> Bw(s[i]) >= Bw(s[j])
  }

  /** The streams of `s` whose key is `k`, in order. */
  function WithKey(s: seq<Stream>, k: real): seq<Stream>
    decreases |s|
  {
    if |s| == 0 then [] else (if Bw(s[0]) == k then [s[0]] else []) + WithKey(s[1..], k)
  }

  /** Places `x` before the first stream whose key is not above its own. */
  function InsertDesc(x: Stream, t: seq<Stream>): (r: seq<Stream>)
    ensures multiset(r) == multiset(t) + multiset{x}
    ensures |r| == |t| + 1
    decreases |t|
  {
    if |t| == 0 || Bw(t[0]) <= Bw(x) then [x] + t
    else
      assert t == [t[0]] + t[1..];
      [t[0]] + InsertDesc(x, t[1..])
  }

  function SortDesc(s: seq<Stream>): (r: seq<Stream>)
    ensures multiset(r) == multiset(s)
    ensures |r| == |s|
    decreases |s|
  {
    if |s| == 0 then []
    else
      assert s == [s[0]] + s[1..];
      InsertDesc(s[0], SortDesc(s[1..]))
  }

  /** Inserting keeps every key under a common bound. */
  lemma InsertBounded(x: Stream, t: seq<Stream>, b: real)
    requires Bw(x) <= b
    requires forall i :: 0 <= i < |t| ==> Bw(t[i]) <= b
    ensures forall e :: e in InsertDesc(x, t) ==> Bw(e) <= b
  {
    forall e | e in InsertDesc(x, t) ensures Bw(e) <= b {
      assert e in multiset(InsertDesc(x, t));
      if e != x {
        assert e in multiset(t);
        var j :| 0 <= j < |t| && t[j] == e;
      }
    }
  }

  lemma {:induction false} InsertSorted(x: Stream, t: seq<Stream>)
    requires SortedDesc(t)
    ensures SortedDesc(InsertDesc(x, t))
    decreases |t|
  {
    if |t| > 0 && Bw(t[0]) > Bw(x) {
      var tail := InsertDesc(x, t[1..]);
      InsertSorted(x, t[1..]);
      assert forall i :: 0 <= i < |t[1..]| ==> Bw(t[1..][i]) <= Bw(t[0]) by {
        forall i | 0 <= i < |t[1..]| ensures Bw(t[1..][i]) <= Bw(t[0]) {
          assert t[1..][i] == t[i + 1];
        }
      }
      InsertBounded(x, t[1..], Bw(t[0]));
      var r := InsertDesc(x, t);
      assert r == [t[0]] + tail;
      forall i, j | 0 <= i < j < |r|
        ensures Bw(r[i]) >= Bw(r[j])
      {
        if i == 0 {
          assert r[j] == tail[j - 1];
          assert r[j] in tail;
        } else {
          assert r[i] == tail[i - 1] && r[j] == tail[j - 1];
        }
      }
    }
  }

  lemma {:induction false} InsertKeepsKeyOrder(x: Stream, t: seq<Stream>, k: real)
    ensures WithKey(InsertDesc(x, t), k) == (if Bw(x) == k then [x] else []) + WithKey(t, k)
    decreases |t|
  {
    var xs: seq<Stream> := if Bw(x) == k then [x] else [];
    if |t| == 0 || Bw(t[0]) <= Bw(x) {
      var r := [x] + t;
      assert r[0] == x && r[1..] == t;
      WithKeyCons(r, k);
    } else {
      var r := InsertDesc(x, t);
      var rest := InsertDesc(x, t[1..]);
      var t0: seq<Stream> := if Bw(t[0]) == k then [t[0]] else [];
      assert r == [t[0]] + rest;
      assert r[0] == t[0] && r[1..] == rest;
      WithKeyCons(r, k);
      WithKeyCons(t, k);
      InsertKeepsKeyOrder(x, t[1..], k);
      if Bw(x) == k {
        assert t0 == [];
        assert WithKey(r, k) == WithKey(rest, k);
        assert WithKey(t, k) == WithKey(t[1..], k);
      } else {
        assert xs == [];
        assert WithKey(rest, k) == WithKey(t[1..], k);
      }
    }
  }

  lemma WithKeyCons(s: seq<Stream>, k: real)
    requires |s| > 0
    ensures WithKey(s, k) == (if Bw(s[0]) == k then [s[0]] else []) + WithKey(s[1..], k)
  {
  }

  /** The sort orders by descending bandwidth, keeps every stream, and is
      stable: streams of equal bandwidth stay in source order. */
  lemma {:induction false} SortDescCorrect(s: seq<Stream>)
    ensures SortedDesc(SortDesc(s))
    ensures multiset(SortDesc(s)) == multiset(s)
    ensures forall k :: WithKey(SortDesc(s), k) == WithKey(s, k)
    decreases |s|
  {
    if |s| > 0 {
      SortDescCorrect(s[1..]);
      InsertSorted(s[0], SortDesc(s[1..]));
      forall k
        ensures WithKey(SortDesc(s), k) == WithKey(s, k)
      {
        InsertKeepsKeyOrder(s[0], SortDesc(s[1..]), k);
      }
    }
  }

  // ---------------------------------------------------------------------

  predicate HasNullBandwidth(vs: seq<Stream>) {
    exists i :: 0 <= i < |vs| && vs[i].bandwidth.None?
  }

  /** `get_all_streams` as written. A format whose 'tbr' is present but
      `None` gets bandwidth `None`; with two or more video streams the sort
      then compares `None` with a number (or with `None`), raises
      `TypeError`, and the whole extraction yields `None`. */
  function GetAllStreamsAsWritten(url: string, info: Option<Info>): (r: Option<StreamData>)
    ensures r.None? <==>
      (info.None? || info.value.formats.Null? ||
       (var v := Classify(info.value.formats.Get([]).value).0; |v| >= 2 && HasNullBandwidth(v)))
  {
    match info
    case None => None
    case Some(i) =>
      match i.formats.Get([])
      case None => None
      case Some(fs) =>
        var (v, a) := Classify(fs);
        if |v| >= 2 && HasNullBandwidth(v) then None
        else Some(StreamData(i.title.Get(url), SortDesc(v), a))
  }

  /** `get_all_streams` with the evident intent of the 'tbr' default: a
      missing bandwidth sorts as 0 whether the key is absent or `None`. */
  function GetAllStreams(url: string, info: Option<Info>): (r: Option<StreamData>)
    ensures r.None? <==> info.None? || info.value.formats.Null?
    ensures r.Some? && info.value.title.Absent? ==> r.value.title == Some(url)
    ensures r.Some? && info.value.title.Null? ==> r.value.title.None?
    ensures r.Some? && info.value.title.Has? ==> r.value.title == Some(info.value.title.value)
    ensures r.Some? ==> r.value.audioStreams == Classify(info.value.formats.Get([]).value).1
    ensures r.Some? ==> multiset(r.value.videoStreams) == multiset(Classify(info.value.formats.Get([]).value).0)
  {
    match info
    case None => None
    case Some(i) =>
      match i.formats.Get([])
      case None => None
      case Some(fs) =>
        var (v, a) := Classify(fs);
        Some(StreamData(i.title.Get(url), SortDesc(v), a))
  }

  /** The video streams come out highest bandwidth first, equal bandwidths in
      source order. */
  lemma GetAllStreamsVideoOrder(url: string, info: Info)
    requires !info.formats.Null?
    ensures var d := GetAllStreams(url, Some(info)).value;
      var v := Classify(info.formats.Get([]).value).0;
      SortedDesc(d.videoStreams) && forall k :: WithKey(d.videoStreams, k) == WithKey(v, k)
  {
    SortDescCorrect(Classify(info.formats.Get([]).value).0);
  }

  /** Where no sort comparison can meet `None`, the code as written and the
      corrected reading agree. */
  lemma AsWrittenAgrees(url: string, info: Option<Info>)
    requires info.Some? && info.value.formats.Has? ==>
               var v := Classify(info.value.formats.value).0; |v| < 2 || !HasNullBandwidth(v)
    ensures GetAllStreamsAsWritten(url, info) == GetAllStreams(url, info)
  {
  }

  /** Two playable video formats, one with 'tbr' = None: the code as written
      loses every stream of the URL, the corrected reading keeps both. */
  lemma NullBandwidthLosesStreams()
    ensures var f1 := Format(Some("u1"), Some("avc1"), Some("mp4a"), Has(800.0), Has("720p"), None, None, Absent);
      var f2 := Format(Some("u2"), Some("vp9"), Some("none"), Null, Has("1080p"), None, None, Absent);
      var info := Some(Info(Has("t"), Has([f1, f2])));
      GetAllStreamsAsWritten("x", info).None? && GetAllStreams("x", info).Some?
        && |GetAllStreams("x", info).value.videoStreams| == 2
  {
    var f1 := Format(Some("u1"), Some("avc1"), Some("mp4a"), Has(800.0), Has("720p"), None, None, Absent);
    var f2 := Format(Some("u2"), Some("vp9"), Some("none"), Null, Has("1080p"), None, None, Absent);
    var v := Classify([f1, f2]).0;
    assert [f1, f2][1..] == [f2];
    assert [f2][1..] == [];
    assert IsVideo(f1) && IsVideo(f2);
    assert Classify([f2]).0 == [VideoStream(f2)];
    assert v == [VideoStream(f1), VideoStream(f2)];
    assert v[1].bandwidth.None?;
  }

  /** A key present with the value `None` is not a missing key: the text
      shows "None" where a missing key would take the default. */
  lemma PresentNoneIsNotMissing()
    ensures var f := Format(Some("u"), Some("none"), Some("opus"), Has(64.0), Has("medium"), None, None, Null);
      IsAudio(f) && AudioStream(f).name == "\U{1F50A} medium [None]" && AudioStream(f).lang.None?
    ensures var f := Format(Some("u"), Some("none"), Some("opus"), Has(64.0), Has("medium"), None, None, Absent);
      IsAudio(f) && AudioStream(f).name == "\U{1F50A} medium [und]"
    ensures var f := Format(Some("u"), Some("avc1"), None, Has(900.0), Null, Some("720p"), Some("mp4"), Absent);
      IsVideo(f) && VideoStream(f).name == "\U{1F4FA} None"
    ensures var f := Format(Some("u"), Some("avc1"), None, Has(900.0), Absent, Some("720p"), Some("mp4"), Absent);
      IsVideo(f) && VideoStream(f).name == "\U{1F4FA} 720p mp4"
    ensures GetAllStreams("x", Some(Info(Null, Absent))) == Some(StreamData(None, [], []))
    ensures GetAllStreams("x", Some(Info(Absent, Absent))) == Some(StreamData(Some("x"), [], []))
  {
  }
}

=== FILE: strings.dfy ===
/** Text helpers shared by the player modules: Python's decimal rendering of
    integers (`str(n)`, `f"{n:02d}"`), `sep.join(parts)`, and the ASCII parts
    of `str.upper` and `str.isalnum`.
 */
module Strings {

  predicate IsDigit(c: char) {
    '0' <= c <= '9'
  }

  predicate AllDigits(s: string) {
    forall i :: 0 <= i < |s| ==> IsDigit(s[i])
  }

  function DigitChar(d: nat): (c: char)
    requires d < 10
    ensures IsDigit(c)
    ensures c as int - '0' as int == d
  {
    ('0' as int + d) as char
  }

  function DigitValue(c: char): (d: nat)
    requires IsDigit(c)
    ensures d < 10
    ensures DigitChar(d) == c
  {
    c as int - '0' as int
  }

  /** `str(n)` for a natural number: shortest decimal form, no sign. */
  function Digits(n: nat): (s: string)
    ensures 1 <= |s|
    ensures AllDigits(s)
    ensures n < 10 <==> |s| == 1
    ensures 10 <= n < 100 ==> |s| == 2
    decreases n
  {
    if n < 10 then [DigitChar(n)] else Digits(n / 10) + [DigitChar(n % 10)]
  }

  /** The value of a string of decimal digits (most significant first). */
  function ParseDigits(s: string): nat
    requires AllDigits(s)
    decreases |s|
  {
    if |s| == 0 then 0 else ParseDigits(s[..|s| - 1]) * 10 + DigitValue(s[|s| - 1])
  }

  /** Reading back what `Digits` wrote gives the number again. */
  lemma {:induction false} ParseDigitsOfDigits(n: nat)
    ensures ParseDigits(Digits(n)) == n
    decreases n
  {
    var s := Digits(n);
    if n >= 10 {
      assert s[..|s| - 1] == Digits(n / 10);
      ParseDigitsOfDigits(n / 10);
    }
  }

  /** A leading zero does not change the value read. */
  lemma {:induction false} ParseDigitsLeadingZero(s: string)
    requires AllDigits(s)
    ensures AllDigits("0" + s)
    ensures ParseDigits("0" + s) == ParseDigits(s)
    decreases |s|
  {
    if |s| > 0 {
      assert ("0" + s)[..|"0" + s| - 1] == "0" + s[..|s| - 1];
      ParseDigitsLeadingZero(s[..|s| - 1]);
    }
  }

  /** Distinct numbers are written differently. */
  lemma DigitsInjective(a: nat, b: nat)
    requires Digits(a) == Digits(b)
    ensures a == b
  {
    ParseDigitsOfDigits(a);
    ParseDigitsOfDigits(b);
  }

  /** `str(i)` for any Python int. */
  function IntToString(i: int): (s: string)
    ensures 1 <= |s|
    ensures '_' !in s
    ensures i >= 0 ==> s == Digits(i)
    ensures s[0] == '-' <==> i < 0
    ensures s[0] == '-' || IsDigit(s[0])
  {
    if i >= 0 then assert IsDigit(Digits(i)[0]); Digits(i)
    else "-" + Digits(-i)
  }

  /** `f"{n:02d}"`: at least two digits, padded with a leading zero. */
  function Pad2(n: nat): (s: string)
    ensures AllDigits(s)
    ensures n < 100 ==> |s| == 2
    ensures 2 <= |s|
    ensures ParseDigits(s) == n
  {
    ParseDigitsOfDigits(n);
    if n < 10 then
      ParseDigitsLeadingZero(Digits(n));
      "0" + Digits(n)
    else Digits(n)
  }

  /** `sep.join(parts)`. */
  function Join(parts: seq<string>, sep: string): string
    decreases |parts|
  {
    if |parts| == 0 then ""
    else if |parts| == 1 then parts[0]
    else parts[0] + sep + Join(parts[1..], sep)
  }

  /** `str.upper()` restricted to ASCII letters. */
  function UpperChar(c: char): char {
    if 'a' <= c <= 'z' then (c as int - 32) as char else c
  }

  function Upper(s: string): (u: string)
    ensures |u| == |s|
    ensures forall i :: 0 <= i < |s| ==> u[i] == UpperChar(s[i])
  {
    seq(|s|, i requires 0 <= i < |s| => UpperChar(s[i]))
  }

  /** `str.lower()` restricted to ASCII letters. */
  function LowerChar(c: char): char {
    if 'A' <= c <= 'Z' then (c as int + 32) as char else c
  }

  function Lower(s: string): (l: string)
    ensures |l| == |s|
    ensures forall i :: 0 <= i < |s| ==> l[i] == LowerChar(s[i])
  {
    seq(|s|, i requires 0 <= i < |s| => LowerChar(s[i]))
  }

  /** `part in s` for strings: `part` occurs somewhere in `s`. */
  predicate Contains(s: string, part: string)
    decreases |s|
  {
    |part| <= |s| && (s[..|part|] == part || (|s| > 0 && Contains(s[1..], part)))
  }

  /** `str.isalnum()` for one character, restricted to ASCII. */
  predicate IsAlnum(c: char) {
    IsDigit(c) || 'a' <= c <= 'z' || 'A' <= c <= 'Z'
  }

  /** `"".join(c for c in s if c.isalnum())`. */
  function FilterAlnum(s: string): (r: string)
    ensures forall i :: 0 <= i < |r| ==> IsAlnum(r[i])
    ensures |r| <= |s|
    decreases |s|
  {
    if |s| == 0 then ""
    else if IsAlnum(s[0]) then [s[0]] + FilterAlnum(s[1..])
    else FilterAlnum(s[1..])
  }

  /** Index of the first occurrence of `c` in `s`. */
  function IndexOf(s: string, c: char): (i: nat)
    requires c in s
    ensures i < |s| && s[i] == c
    ensures c !in s[..i]
  {
    if s[0] == c then 0 else 1 + IndexOf(s[1..], c)
  }

  /** `s.split(c)`: the pieces between occurrences of `c`, empty pieces kept. */
  function Split(s: string, c: char): (parts: seq<string>)
    ensures 1 <= |parts|
    decreases |s|
  {
    if c !in s then [s]
    else
      var i := IndexOf(s, c);
      [s[..i]] + Split(s[i + 1..], c)
  }

  /** The first occurrence is the only position holding `c` with no `c` before it. */
  lemma {:induction false} IndexOfIsFirst(s: string, c: char, k: nat)
    requires k < |s| && s[k] == c && c !in s[..k]
    ensures IndexOf(s, c) == k
    decreases k
  {
    if k > 0 {
      assert s[0] == s[..k][0];
      assert s[1..][..k - 1] == s[..k][1..];
      IndexOfIsFirst(s[1..], c, k - 1);
    }
  }

  /** Splitting at a separator splits the two sides independently. */
  lemma {:induction false} SplitAppend(a: string, c: char, b: string)
    ensures Split(a + [c] + b, c) == Split(a, c) + Split(b, c)
    decreases |a|
  {
    var s := a + [c] + b;
    if c !in a {
      assert s[..|a|] == a;
      IndexOfIsFirst(s, c, |a|);
      assert s[|a| + 1..] == b;
    } else {
      var j := IndexOf(a, c);
      assert s[..j] == a[..j];
      IndexOfIsFirst(s, c, j);
      assert s[j + 1..] == a[j + 1..] + [c] + b;
      SplitAppend(a[j + 1..], c, b);
    }
  }

  predicate AllAlnum(s: string) {
    forall i :: 0 <= i < |s| ==> IsAlnum(s[i])
  }

  /** Filtering works piece by piece, so the kept characters stay in order. */
  lemma {:induction false} FilterAlnumAppend(a: string, b: string)
    ensures FilterAlnum(a + b) == FilterAlnum(a) + FilterAlnum(b)
    decreases |a|
  {
    if |a| == 0 {
      assert a + b == b;
    } else {
      assert (a + b)[0] == a[0] && (a + b)[1..] == a[1..] + b;
      FilterAlnumAppend(a[1..], b);
    }
  }

  /** Text made only of alphanumeric characters passes through unchanged,
      and nothing else does. */
  lemma {:induction false} FilterAlnumFixpoint(s: string)
    ensures FilterAlnum(s) == s <==> AllAlnum(s)
    decreases |s|
  {
    if |s| > 0 {
      FilterAlnumFixpoint(s[1..]);
      if !IsAlnum(s[0]) {
        assert |FilterAlnum(s)| <= |s[1..]| < |s|;
      }
      assert AllAlnum(s) <==> IsAlnum(s[0]) && AllAlnum(s[1..]) by {
        if IsAlnum(s[0]) && AllAlnum(s[1..]) {
          forall i | 0 <= i < |s| ensures IsAlnum(s[i]) {
            if i > 0 { assert s[i] == s[1..][i - 1]; }
          }
        }
      }
    }
  }

  /** Different integers are written differently. */
  lemma IntToStringInjective(a: int, b: int)
    requires IntToString(a) == IntToString(b)
    ensures a == b
  {
    if a < 0 && b < 0 {
      assert Digits(-a) == IntToString(a)[1..];
      assert Digits(-b) == IntToString(b)[1..];
      DigitsInjective(-a, -b);
    } else if a >= 0 && b >= 0 {
      DigitsInjective(a, b);
    }
  }
}

=== FILE: themes.dfy ===
/** `ThemeManager` (theme_manager.py) over the theme table of themes.py.

    The stylesheet texts themselves are data and are represented by a tag per
    theme; the table keeps the order in which themes.py lists them.
 */
module Themes {
  import opened Persistence

  datatype Stylesheet = NordDarkSheet | MaterialDarkSheet | WindowsLightSheet

  /** `THEMES`, in insertion order. */
  const Table: seq<(string, Stylesheet)> := [
    ("Nord Dark", NordDarkSheet),
    ("Material Dark", MaterialDarkSheet),
    ("Windows Light", WindowsLightSheet)
  ]

  const DefaultTheme: string := "Nord Dark"
  const ThemeKey: string := "current_theme"

  predicate IsTheme(name: string) {
    exists i :: 0 <= i < |Table| && Table[i].0 == name
  }

  /** `THEMES[name]`. */
  function SheetOf(name: string): (sheet: Stylesheet)
    requires IsTheme(name)
    ensures exists i :: 0 <= i < |Table| && Table[i] == (name, sheet)
  {
    if Table[0].0 == name then Table[0].1
    else if Table[1].0 == name then Table[1].1
    else Table[2].1
  }

  /** The application side of the theme manager: the active name, the
      stylesheet last given to the application, and the settings store. */
  datatype ThemeState = ThemeState(current: string, applied: Stylesheet, settings: Settings)

  predicate Valid(s: ThemeState) {
    IsTheme(s.current) && s.applied == SheetOf(s.current)
      && ThemeKey in s.settings && s.settings[ThemeKey] == Text(s.current)
  }

  /** `get_theme_names`. */
  function ThemeNames(): (names: seq<string>)
    ensures |names| == |Table|
    ensures forall i :: 0 <= i < |Table| ==> names[i] == Table[i].0
  {
    seq(|Table|, i requires 0 <= i < |Table| => Table[i].0)
  }

  /** `apply_theme`: an unknown name falls back to the default; the chosen
      theme's stylesheet is applied and its name saved. */
  function ApplyTheme(s: ThemeState, name: string): (s': ThemeState)
    ensures Valid(s')
    ensures IsTheme(name) ==> s'.current == name
    ensures !IsTheme(name) ==> s'.current == DefaultTheme
    ensures forall k :: k in s.settings && k != ThemeKey ==> k in s'.settings && s'.settings[k] == s.settings[k]
    ensures s'.settings.Keys == s.settings.Keys + {ThemeKey}
  {
    var chosen := if IsTheme(name) then name else DefaultTheme;
    assert IsTheme(DefaultTheme) by { assert Table[0].0 == DefaultTheme; }
    ThemeState(chosen, SheetOf(chosen), s.settings[ThemeKey := Text(chosen)])
  }

  /** `ThemeManager.__init__`: the saved theme name if it names a theme,
      otherwise the default, then applied. */
  function Init(settings: Settings, initialSheet: Stylesheet): (s: ThemeState)
    ensures Valid(s)
    ensures ThemeKey in settings && settings[ThemeKey].Text? && IsTheme(settings[ThemeKey].s) ==>
              s.current == settings[ThemeKey].s
    ensures !(ThemeKey in settings && settings[ThemeKey].Text? && IsTheme(settings[ThemeKey].s)) ==>
              s.current == DefaultTheme
  {
    var saved := if ThemeKey in settings then settings[ThemeKey] else Text(DefaultTheme);
    var current := if saved.Text? && IsTheme(saved.s) then saved.s else DefaultTheme;
    ApplyTheme(ThemeState(current, initialSheet, settings), current)
  }

  /** Applying the same name twice is the same as applying it once. */
  lemma ApplyThemeIdempotent(s: ThemeState, name: string)
    ensures ApplyTheme(ApplyTheme(s, name), name) == ApplyTheme(s, name)
  {
    var once := ApplyTheme(s, name);
    assert once.settings[ThemeKey := once.settings[ThemeKey]] == once.settings;
  }

  /** A later start-up restores the theme that was applied. */
  lemma InitRestoresAppliedTheme(s: ThemeState, name: string, sheet: Stylesheet)
    ensures Init(ApplyTheme(s, name).settings, sheet) == ApplyTheme(s, name)
  {
    var a := ApplyTheme(s, name);
    assert a.settings[ThemeKey := Text(a.current)] == a.settings;
  }

  /** Choosing a theme never disturbs the saved playback positions. */
  lemma ApplyThemeKeepsPositions(s: ThemeState, name: string, path: string)
    ensures LoadPlaybackPosition(ApplyTheme(s, name).settings, path) == LoadPlaybackPosition(s.settings, path)
  {
    assert |PositionKey(path)| > |ThemeKey|;
  }
}

=== FILE: thumbnailworker.dfy ===
/** `ThumbnailWorker` (thumbnail_worker.py): the cache file name chosen for a
    library row, and the outcome one run of the worker reports.

    The worker's environment is passed in: the system temporary directory,
    `hash(filepath)` (randomised per process in Python), whether the cache
    file exists, what yt-dlp returns or raises, and what the download does.
 */
module ThumbnailWorker {
  import opened Py
  import opened Strings
  import Paths
  import Utils

  const CacheDirName: string := "py-mpv-player-cache"
  const DownloadFailed: string := "Thumbnail download failed."
  /** The text of the `TypeError` raised by `width > 0` when `width` is `None`. */
  const NoneWidthError: string := "'>' not supported between instances of 'NoneType' and 'int'"

  /** `os.path.join(a, b)` for a relative `b`: a separator is added unless
      `a` is empty or already ends in one. */
  function JoinPath(a: string, b: string): (r: string)
    ensures |a| + |b| <= |r| <= |a| + |b| + 1
    ensures r[..|a|] == a && r[|r| - |b|..] == b
    ensures a == "" ==> r == b
  {
    if a == "" || a[|a| - 1] == '/' then a + b else a + "/" + b
  }

  /** The worker's cache directory inside the temporary directory. */
  function CacheDir(tempRoot: string): string {
    JoinPath(tempRoot, CacheDirName)
  }

  /** The alphanumeric characters of the file's name, or the decimal text of
      its hash when the name has none. */
  function SafeName(filepath: string, hashValue: int): (s: string)
    ensures s != "" && '_' !in s
    ensures AllAlnum(s) || s == IntToString(hashValue)
  {
    var kept := FilterAlnum(Paths.Name(filepath));
    if kept != "" then kept else IntToString(hashValue)
  }

  /** `f"{safe_filename}_{row_index}.jpg"`. */
  function CacheFileName(safe: string, row: int): string {
    safe + "_" + IntToString(row) + ".jpg"
  }

  /** `thumbnail_path` of a worker for `filepath` at `row`. */
  function CachePath(tempRoot: string, filepath: string, row: int, hashValue: int): (p: string)
    ensures var name := CacheFileName(SafeName(filepath, hashValue), row);
      |name| <= |p| && p[|p| - |name|..] == name
  {
    JoinPath(CacheDir(tempRoot), CacheFileName(SafeName(filepath, hashValue), row))
  }

  /** A name made only of letters and digits is used as it is. */
  lemma SafeNameOfPlainName(filepath: string, hashValue: int)
    requires Paths.Name(filepath) != "" && AllAlnum(Paths.Name(filepath))
    ensures SafeName(filepath, hashValue) == Paths.Name(filepath)
  {
    FilterAlnumFixpoint(Paths.Name(filepath));
  }

  /** In `s + rest` with no '_' in `s`, the first '_' is the one `rest` starts with. */
  lemma FirstUnderscore(s: string, rest: string)
    requires '_' !in s && |rest| > 0 && rest[0] == '_'
    ensures '_' in s + rest && IndexOf(s + rest, '_') == |s|
  {
    var x := s + rest;
    assert x[..|s|] == s;
    assert x[|s|] == '_';
    IndexOfIsFirst(x, '_', |s|);
  }

  /** The cache file name determines both the safe name and the row: since
      neither a safe name nor a row number contains '_', the first '_'
      separates them. */
  lemma CacheFileNameInjective(s1: string, r1: int, s2: string, r2: int)
    requires '_' !in s1 && '_' !in s2
    requires CacheFileName(s1, r1) == CacheFileName(s2, r2)
    ensures s1 == s2 && r1 == r2
  {
    var t1, t2 := IntToString(r1), IntToString(r2);
    var rest1, rest2 := "_" + t1 + ".jpg", "_" + t2 + ".jpg";
    assert CacheFileName(s1, r1) == s1 + rest1;
    assert CacheFileName(s2, r2) == s2 + rest2;
    FirstUnderscore(s1, rest1);
    FirstUnderscore(s2, rest2);
    var x := s1 + rest1;
    assert s1 == x[..|s1|] == s2;
    assert rest1 == x[|s1|..] == rest2;
    assert t1 == rest1[1..|rest1| - 4];
    assert t2 == rest2[1..|rest2| - 4];
    IntToStringInjective(r1, r2);
  }

  /** Two rows of the same file never share a cache file. */
  lemma CachePathPerRow(tempRoot: string, filepath: string, r1: int, r2: int, hashValue: int)
    requires r1 != r2
    ensures CachePath(tempRoot, filepath, r1, hashValue) != CachePath(tempRoot, filepath, r2, hashValue)
  {
    var safe := SafeName(filepath, hashValue);
    var a := CacheFileName(safe, r1);
    var b := CacheFileName(safe, r2);
    if CachePath(tempRoot, filepath, r1, hashValue) == CachePath(tempRoot, filepath, r2, hashValue) {
      var d := CacheDir(tempRoot);
      var pre := if d == "" || d[|d| - 1] == '/' then d else d + "/";
      assert CachePath(tempRoot, filepath, r1, hashValue) == pre + a;
      assert CachePath(tempRoot, filepath, r2, hashValue) == pre + b;
      assert a == (pre + a)[|pre|..];
      assert b == (pre + b)[|pre|..];
      CacheFileNameInjective(safe, r1, safe, r2);
    }
  }

  /** The name of a file directly inside a one-letter directory under the root. */
  lemma NameInDirectory(d: char, n: string)
    requires d != '/' && d != '.'
    requires Paths.IsComponent(n) && '/' !in n
    ensures Paths.Name(['/', d] + "/" + n) == n
  {
    assert ['/', d] == [] + ['/'] + [d];
    SplitAppend([], '/', [d]);
    assert Split([], '/') == [[]];
    assert Split([d], '/') == [[d]];
    Paths.KeepComponentsAppend([[]], [[d]]);
    assert Paths.Components(['/', d]) == [[d]];
    Paths.ChildNameAndParent(['/', d], n);
  }

  lemma FilterClipNames()
    ensures FilterAlnum("clip-1.mp4") == FilterAlnum("clip1.mp4")
  {
    assert "clip-1.mp4" == "clip" + ("-" + "1.mp4");
    assert "clip1.mp4" == "clip" + "1.mp4";
    FilterAlnumAppend("clip", "-" + "1.mp4");
    FilterAlnumAppend("clip", "1.mp4");
    assert ("-" + "1.mp4")[1..] == "1.mp4";
  }

  /** Different files whose names keep the same letters and digits share the
      cache file of a row: "/a/clip-1.mp4" and "/b/clip1.mp4" both map to
      "clip1mp4_0.jpg". */
  lemma CachePathCollision(tempRoot: string, hashValue: int)
    ensures CachePath(tempRoot, "/a/clip-1.mp4", 0, hashValue) == CachePath(tempRoot, "/b/clip1.mp4", 0, hashValue)
  {
    NameInDirectory('a', "clip-1.mp4");
    NameInDirectory('b', "clip1.mp4");
    assert ['/', 'a'] + "/" + "clip-1.mp4" == "/a/clip-1.mp4";
    assert ['/', 'b'] + "/" + "clip1.mp4" == "/b/clip1.mp4";
    FilterClipNames();
  }

  /** One entry of yt-dlp's `thumbnails` list; only its 'url' is read. */
  datatype Thumb = Thumb(url: Option<string>)

  /** The fields of yt-dlp's info dictionary the worker reads. */
  datatype MediaInfo = MediaInfo(
    duration: PyField<Float>,
    width: PyField<int>,
    height: PyField<int>,
    thumbnails: PyField<seq<Thumb>>)

  /** `extract_info`: the info dictionary, or the text of the exception it raised. */
  datatype Extraction = Extracted(info: MediaInfo) | ExtractError(message: string)

  /** `urlretrieve`: it raised, or it returned and the cache file does or
      does not exist afterwards. */
  datatype Download = DownloadRaised(message: string) | Downloaded(fileExists: bool)

  datatype Icon = NoIcon | CachedIcon(path: string)

  /** The single signal a run emits: `thumbnail_ready` or `thumbnail_failed`. */
  datatype Outcome =
    | Ready(row: int, icon: Icon, duration: string, resolution: string)
    | Failed(row: int, message: string)

  datatype Metadata = Metadata(duration: string, resolution: string)

  datatype MetaResult = MetaOk(meta: Metadata) | MetaError(message: string)

  /** `str(height)` of `info.get('height', 0)`. */
  function HeightText(h: PyField<int>): string {
    match h
    case Absent => "0"
    case Null => "None"
    case Has(v) => IntToString(v)
  }

  /** The duration and resolution texts: a missing duration counts as 0, a
      `None` one as unknown; "WxH" when the width is positive, "N/A"
      otherwise; a `None` width raises `TypeError`. */
  function ReadMetadata(info: MediaInfo): (m: MetaResult)
    ensures m.MetaError? <==> info.width.Null?
    ensures m.MetaError? ==> m.message == NoneWidthError
    ensures m.MetaOk? ==> m.meta.duration == Utils.FormatTime(info.duration.Get(Finite(0.0)))
    ensures m.MetaOk? ==> (m.meta.resolution == "N/A" <==> info.width.Absent? || info.width.value <= 0)
    ensures m.MetaOk? && info.width.Has? && info.width.value > 0 ==>
              m.meta.resolution == IntToString(info.width.value) + "x" + HeightText(info.height)
  {
    var dur := Utils.FormatTime(info.duration.Get(Finite(0.0)));
    match info.width.Get(0)
    case None => MetaError(NoneWidthError)
    case Some(w) =>
      if w > 0 then
        assert (IntToString(w) + "x" + HeightText(info.height))[|IntToString(w)|] == 'x';
        MetaOk(Metadata(dur, IntToString(w) + "x" + HeightText(info.height)))
      else MetaOk(Metadata(dur, "N/A"))
  }

  /** `info['thumbnails'][-1].get('url')` when the list is non-empty. */
  function ThumbnailUrl(info: MediaInfo): (u: Option<string>)
    ensures u.Some? ==> info.thumbnails.Has? && |info.thumbnails.value| > 0
  {
    match info.thumbnails
    case Has(ts) => if |ts| > 0 then ts[|ts| - 1].url else None
    case _ => None
  }

  /** The worker for `filepath` at `row`. */
  datatype Job = Job(filepath: string, row: int, cachePath: string)

  function NewJob(tempRoot: string, filepath: string, row: int, hashValue: int): (j: Job)
    ensures j.filepath == filepath && j.row == row
    ensures j.cachePath == CachePath(tempRoot, filepath, row, hashValue)
  {
    Job(filepath, row, CachePath(tempRoot, filepath, row, hashValue))
  }

  /** `run`: a cached file only needs the fast metadata; otherwise the full
      metadata is read and, when the last thumbnail has a URL, the thumbnail
      is downloaded into the cache. Any exception becomes `thumbnail_failed`
      with its text. */
  function Run(job: Job, cacheExists: bool, fast: Extraction, full: Extraction, download: Download): (o: Outcome)
    ensures o.row == job.row
    ensures var e := if cacheExists then fast else full;
      && (e.ExtractError? ==> o == Failed(job.row, e.message))
      && (e.Extracted? && e.info.width.Null? ==> o == Failed(job.row, NoneWidthError))
      && (o.Ready? ==> e.Extracted? && ReadMetadata(e.info) == MetaOk(Metadata(o.duration, o.resolution)))
    ensures o.Ready? && o.icon.CachedIcon? ==> o.icon.path == job.cachePath
    ensures o.Ready? && o.icon.CachedIcon? ==> cacheExists || (download.Downloaded? && download.fileExists)
    ensures cacheExists ==> (o.Ready? <==> fast.Extracted? && !fast.info.width.Null?)
    ensures cacheExists && o.Ready? ==> o.icon.CachedIcon?
    ensures !cacheExists && full.Extracted? && !full.info.width.Null? && !Truthy(ThumbnailUrl(full.info)) ==>
              o.Ready? && o.icon.NoIcon?
    ensures !cacheExists && full.Extracted? && !full.info.width.Null? && Truthy(ThumbnailUrl(full.info)) ==>
              match download
              case DownloadRaised(msg) => o == Failed(job.row, msg)
              case Downloaded(present) => if present then o.Ready? && o.icon.CachedIcon? else o == Failed(job.row, DownloadFailed)
  {
    if cacheExists then
      match fast
      case ExtractError(msg) => Failed(job.row, msg)
      case Extracted(info) =>
        match ReadMetadata(info)
        case MetaError(msg) => Failed(job.row, msg)
        case MetaOk(m) => Ready(job.row, CachedIcon(job.cachePath), m.duration, m.resolution)
    else
      match full
      case ExtractError(msg) => Failed(job.row, msg)
      case Extracted(info) =>
        match ReadMetadata(info)
        case MetaError(msg) => Failed(job.row, msg)
        case MetaOk(m) =>
          if Truthy(ThumbnailUrl(info)) then
            match download
            case DownloadRaised(msg) => Failed(job.row, msg)
            case Downloaded(present) =>
              if present then Ready(job.row, CachedIcon(job.cachePath), m.duration, m.resolution)
              else Failed(job.row, DownloadFailed)
          else Ready(job.row, NoIcon, m.duration, m.resolution)
  }

  /** A run that reports metadata reports the same texts whichever path it
      took: the fast and the full path read the same fields the same way. */
  lemma RunMetadataAgrees(job: Job, info: MediaInfo, full: Extraction, download: Download)
    requires !info.width.Null?
    requires !Truthy(ThumbnailUrl(info))
    ensures var cached := Run(job, true, Extracted(info), full, download);
      var direct := Run(job, false, full, Extracted(info), download);
      cached.Ready? && direct.Ready?
      && cached.duration == direct.duration && cached.resolution == direct.resolution
  {
  }
}

=== FILE: utils.dfy ===
/** `format_time` (utils.py): seconds as "MM:SS" or "HH:MM:SS", "--:--" when
    the value is missing, negative or cannot be converted to an int.
 */
module Utils {
  import opened Py
  import opened Strings

  const Unknown: string := "--:--"

  /** `divmod` twice: hours, minutes below 60, seconds below 60 that add up to `total`. */
  function ClockFields(total: nat): (f: (nat, nat, nat))
    ensures f.0 * 3600 + f.1 * 60 + f.2 == total
    ensures f.1 < 60 && f.2 < 60
  {
    (total / 3600, (total / 60) % 60, total % 60)
  }

  function Clock(total: nat): string {
    var (h, m, s) := ClockFields(total);
    if h > 0 then Pad2(h) + ":" + Pad2(m) + ":" + Pad2(s) else Pad2(m) + ":" + Pad2(s)
  }

  /** `format_time(seconds)`. `int()` truncates toward zero, which is the floor
      for the non-negative values that reach it; `int(nan)` and `int(inf)` raise
      and are caught. */
  function FormatTime(t: Option<Float>): (r: string)
    ensures t.None? ==> r == Unknown
    ensures t.Some? && !t.value.Finite? ==> r == Unknown
    ensures t.Some? && t.value.Finite? && t.value.r < 0.0 ==> r == Unknown
    ensures t.Some? && t.value.Finite? && 0.0 <= t.value.r < 3600.0 ==> |r| == 5 && r[2] == ':'
    ensures t.Some? && t.value.Finite? && t.value.r >= 3600.0 ==> |r| >= 8 && r[|r| - 3] == ':' && r[|r| - 6] == ':'
  {
    match t
    case Some(Finite(x)) =>
      if x < 0.0 then Unknown
      else
        assert 3600.0 <= x ==> 3600 <= x.Floor;
        assert x < 3600.0 ==> x.Floor < 3600;
        Clock(x.Floor)
    case _ => Unknown
  }

  /** `format_time` of a plain number of seconds. */
  function FormatSeconds(x: real): string {
    FormatTime(Some(Finite(x)))
  }

  /** Reads a clock text back into whole seconds: "MM:SS" or "H…H:MM:SS",
      every field made of decimal digits. */
  function ParseClock(r: string): Option<nat> {
    if |r| < 5 || r[|r| - 3] != ':' then None
    else
      var ss := r[|r| - 2..];
      var mm := r[|r| - 5..|r| - 3];
      if !AllDigits(ss) || !AllDigits(mm) then None
      else if |r| == 5 then Some(ParseDigits(mm) * 60 + ParseDigits(ss))
      else if |r| >= 7 && r[|r| - 6] == ':' && AllDigits(r[..|r| - 6]) then
        Some(ParseDigits(r[..|r| - 6]) * 3600 + ParseDigits(mm) * 60 + ParseDigits(ss))
      else None
  }

  /** The clock text names exactly the whole seconds `int(seconds)`: hours,
      minutes and seconds read back from it add up to the truncated input. */
  lemma FormatTimeRoundTrip(x: real)
    requires x >= 0.0
    ensures ParseClock(FormatSeconds(x)) == Some(x.Floor)
  {
    var total: nat := x.Floor;
    var (h, m, s) := ClockFields(total);
    var r := FormatSeconds(x);
    if h > 0 {
      var a, b, c := Pad2(h), Pad2(m), Pad2(s);
      assert r == a + ":" + b + ":" + c;
      assert r[|r| - 2..] == c;
      assert r[|r| - 5..|r| - 3] == b;
      assert r[..|r| - 6] == a;
    } else {
      var b, c := Pad2(m), Pad2(s);
      assert r == b + ":" + c;
      assert r[|r| - 2..] == c;
      assert r[|r| - 5..|r| - 3] == b;
    }
  }
}
